=== FILE: README.md ===
# VIDInsight, modelled in Dafny

VIDInsight is a web application for analysing videos. A signed-in user uploads a video file or gives a YouTube link. The
backend downloads it, transcribes it with Whisper, summarises the transcript with Gemini and stores the result as a
*session*. The user can then ask questions about the video (each one a *conversation*), download the transcript,
browse their history and delete sessions. Visitors send contact messages. The administrator reads those messages,
marks them as read and deletes them, and sees totals for the whole site.

This project models two layers:

- **The React client.** It covers the `api` request chokepoint, the session context and every page or component with
  logic: question and answer, uploader, process, results, player, dashboard, history, history card, contact table,
  contact form, bug report, profile and administrator page. Each handler is a pure transition from the state and the
  outcome of its backend call to a new state plus emitted effects (toasts, navigation).
- **The Flask backend**, in its three near-identical versions `main.py`, `app.py` and `test.py`. A single store of
  four tables is shared by all three. A `Media.Variant` parameter (`Main`, `App`, `Test`) selects where they differ:
  - whether a transcription, summary or answer error becomes a 500 response or is stored as text;
  - whether transcripts and summaries are cached.

The tables are sequences in insertion order, and the `Backend.Valid` invariant states the table constraints. Every
handler is a function from the store, the cookie's `user_id` and the request to a new store, cookie and response.

The model does not compute the following. Each one is a parameter instead:

- the clock and `CURRENT_TIMESTAMP`;
- `uuid4`;
- SHA-256 and MD5;
- `secure_filename`;
- yt-dlp's result;
- Whisper's segments, or its failure;
- Gemini's text, or its failure;
- `request.host_url`;
- `window.confirm`;
- the outcome of every `fetch`.

`EndToEnd` joins the two layers. It relates what a handler sends to what the page that reads it does.

Modules: `Wrappers` (Option/Result), `Seqs` (filter, map, stable sort), `Text` (trim, lower-casing, substring search,
split, decimal), `Api`, `Auth`, `QA`, `Uploader`, `ProcessPage`, `VideoPlayer`, `Results`, `Dashboard`, `History`,
`HistoryCard`, `ContactMessages`, `ContactPage`, `ReportBug`, `Profile`, `AdminDashboard`, `ClientData` (the client's
records), `Media`, `Backend`, `Accounts`, `Videos`, `Admin`, `Totals` (the administrator's totals against the handlers), `EndToEnd`.

## Model

| member | source | states |
|---|---|---|
| Api.Prepare | src/utils/api.ts:14-36 | The URL is the API base plus the endpoint. Method and credentials default to GET and include. Caller headers override the defaults. A FormData body drops Content-Type even when the caller set it, and passes through unchanged. An object body becomes its JSON text; any other body is left as is. |
| Api.Filename | src/utils/api.ts:49-53 | No header, or an empty one, gives `transcript.txt`. A header with `filename=` gives the text between the first `filename=` and the next one (or the end), with every quote removed. A header without it is the TypeError the code raises. A name never contains a quote. |
| Api.Call | src/utils/api.ts:13-73 | The request is `Prepare`'s. Any endpoint containing `/download_transcript/` resolves as downloaded. On the JSON path a non-2xx status rejects with `message`, or with `Something went wrong`, and a body that is not JSON rejects with the parse error. A network error rejects with its reason. Exactly the rejections are toasted, with the message or `An error occurred`. |
| Api.DownloadIgnoresStatus | src/utils/api.ts:42-58 | As written, a 401 answer to a transcript download resolves as a successful download. |
| Api.CallChecked | src/utils/api.ts:42-58 | Corrected download path: a download succeeds only on a 2xx status, and any other status rejects as the JSON path does, with `message`, `Something went wrong` or the parse error. Every other call is the same as `Call`. |
| Api.FilenameOfAttachment | src/utils/api.ts:49-52 | `attachment; filename=N` yields `N` when `N` has no quote and no `=`. |
| Api.WrapperRequests | src/utils/api.ts:76-146 | `askQuestion` POSTs `{session_id, question}` as JSON. `processVideo` POSTs the FormData with no Content-Type. `deleteSession` and `deleteMessage` POST. `markMessage`, `getResults` and `logout` GET. |
| Api.OnlyTranscriptDownloads | src/utils/api.ts:113-115 | The transcript wrapper's endpoint takes the download path. |
| Auth.CheckAuth | src/contexts/AuthContext.tsx:37-60 | It adopts the reply's user and returns true exactly when the reply carries one. Otherwise it clears the user. It never throws, and loading ends. |
| Auth.Authenticate | src/contexts/AuthContext.tsx:62-112 | Login and signup store the user and return true when the reply has one. Otherwise they toast the reply's message or the fallback and keep the previous user. A rejection returns false with no toast of its own. Loading ends. |
| Auth.Logout | src/contexts/AuthContext.tsx:114-129 | The user is cleared only when the `/logout` call resolves. On a rejection the user stays signed in. |
| Auth.RunKeepsConsistent | src/contexts/AuthContext.tsx:28-131 | Across any sequence of operations from a consistent state, `isAuthenticated` holds exactly when a user is held. Loading is over after any operation. `isAdmin` implies signed in. |
| QA.Submit | src/components/QASection.tsx:33-55 | A blank question or one sent while in flight is a no-op. Otherwise one pending entry is appended at the end: the clock as its id, the untrimmed question, `...` and the ISO timestamp. The input is cleared and `/ask` is sent. |
| QA.CanSubmit | src/components/QASection.tsx:36 | A question can be sent exactly when nothing is in flight and some character of it is not white space. |
| QA.BlankNeverSent | src/components/QASection.tsx:36 | A white-space question sends nothing and changes nothing. |
| QA.Resolve | src/components/QASection.tsx:58-64 | Only entries with the pending id change: they take the answer, and `conversation_id`, or keep their id when it is 0. Every other entry and the order are unchanged. |
| QA.SettleAsWritten | src/components/QASection.tsx:58-76 | An answer fills the pending entries as `Resolve` does. As written, a failure toasts and drops the entries whose id is the later clock reading, keeping every other entry. Loading ends either way. |
| QA.Settle | src/components/QASection.tsx:58-76 | An answer fills the pending entries as `Resolve` does. Corrected: a failure drops the pending entry itself and keeps every other entry. |
| QA.ExchangeAppendsAnswer | src/components/QASection.tsx:42-64 | A successful exchange appends exactly one entry with the question and answer. The earlier entries stay. |
| QA.RollbackMissesPending | src/components/QASection.tsx:66-73 | As written, when the failure arrives in a later millisecond, the `...` entry stays in the list. |
| QA.RollbackRestores | src/components/QASection.tsx:66-73 | Corrected: a failed exchange restores the list exactly. |
| Uploader.Payload | src/components/VideoUploader.tsx:32-48 | The upload tab with a file gives exactly `{video, source_type: upload}`. The YouTube tab with a non-empty URL gives exactly `{youtube_url, source_type: youtube}`. With no input for the active tab, nothing is submitted. |
| Uploader.SubmitDisabled | src/components/VideoUploader.tsx:167-171 | The button is disabled exactly when processing, or when the active tab has nothing to send. |
| Uploader.ChooseFiles | src/components/VideoUploader.tsx:22-26 | The first chosen file overwrites the slot; an empty list keeps it. Nothing the YouTube tab sends changes. |
| Uploader.EditUrl | src/components/VideoUploader.tsx:28-30 | Editing the URL never changes what the upload tab sends. |
| Uploader.PayloadReadsActiveInputOnly | src/components/VideoUploader.tsx:32-48 | Two states with the same tab and the same input for that tab send the same payload, whatever the other tab holds. |
| Uploader.TabRoundTripKeepsPayload | src/components/VideoUploader.tsx:32-48 | Switching to the other tab and back sends what was sent before. |
| Uploader.OnDrag | src/components/VideoUploader.tsx:50-72 | The drag flag is set by enter and over and cleared by leave and drop. A drop chooses files like the picker. |
| ProcessPage.HandleSubmit | src/pages/Process.tsx:15-39 | Signed out: a toast and `/login`, with no call and `isProcessing` unchanged. Otherwise `/process` is sent and processing ends afterwards. A `session_id` navigates to its results page. A rejection only toasts. |
| ProcessPage.SubmitFromUploader | src/components/VideoUploader.tsx:43-47 | Without a payload the page is never called. A request is sent only with a payload and a signed-in user. |
| VideoPlayer.VideoId | src/components/VideoPlayer.tsx:17-27 | A watch URL gives its `v` parameter or empty. A `youtu.be` URL gives the text after its last slash: the whole URL when it has no slash, otherwise a shorter text preceded by a slash. Anything else is its own id. |
| VideoPlayer.EmbedUrl | src/components/VideoPlayer.tsx:29 | Every result starts with the embed prefix. |
| VideoPlayer.Render | src/components/VideoPlayer.tsx:13-38 | An embed frame exactly when the flag is set or the URL names a YouTube host. Otherwise a video element on the source. |
| VideoPlayer.ShortLinkId | src/components/VideoPlayer.tsx:23-24 | A short link yields the segment after its last slash. |
| Results.Load | src/pages/Results.tsx:43-64 | Fetched only when signed in with an id. Success stores the data, failure keeps it. Loading ends. |
| Results.VideoSource | src/pages/Results.tsx:78-86 | Empty without data, the bare YouTube id for YouTube sessions, otherwise `video_url` or empty. |
| Results.VideoThumbnail | src/pages/Results.tsx:88-96 | Non-empty exactly for YouTube sessions with an id. |
| Results.TranscriptHint | src/pages/Results.tsx:202 | The download hint under the transcript shows exactly when the transcript is longer than 500 characters, that is when its first 500 characters are not all of it. |
| Results.HandleDownload | src/pages/Results.tsx:66-76 | Without an id nothing happens. Otherwise the transcript route is called, with one toast: success exactly when the call resolved. |
| Results.YouTubeSessionEmbedsItsId | src/pages/Results.tsx:81-83 | A YouTube session is played as the embed of its own id. |
| Dashboard.Load | src/pages/Dashboard.tsx:27-44 | Loading ends. Data is stored only when signed in and the call resolved; otherwise it is unchanged. |
| Dashboard.Delete | src/pages/Dashboard.tsx:46-53 | A no-op without data. Otherwise the recent sessions with the id are dropped, in order, and the totals are kept. |
| Dashboard.DeleteIdempotentAndCommutes | src/pages/Dashboard.tsx:46-53 | Deleting an id twice is deleting it once, and two deletions give the same page in either order. |
| Dashboard.ReloadReplacesDeletions | src/pages/Dashboard.tsx:27-53 | A successful reload shows the server's data whatever was deleted locally before it. |
| History.View | src/pages/History.tsx:52-65 | A blank query shows every session. Otherwise exactly the sessions whose lower-cased title, transcript or summary contains the lower-cased query. |
| History.SpaceQueryShowsAll | src/pages/History.tsx:53-54 | A white-space query shows the whole list. |
| History.ViewIsStableSubsequence | src/pages/History.tsx:55-63 | The view keeps the list's order and is idempotent. |
| History.Delete | src/pages/History.tsx:67-69 | Removes every session with the id and keeps every other one, in the original order. |
| History.DeleteCommutesWithView | src/pages/History.tsx:52-69 | Deleting then searching equals searching then deleting. |
| History.Load | src/pages/History.tsx:31-50 | The list is `sessions`, or empty when absent, only when signed in and the call resolved. Loading ends. |
| History.OnCardDelete | src/pages/History.tsx:67-69 | The list shrinks only when the card reports a deleted id. |
| HistoryCard.FormatDuration | src/components/HistoryCard.tsx:52-56 | Reading the text back as minutes and two-digit seconds gives the input. |
| HistoryCard.Thumbnail | src/components/HistoryCard.tsx:59-67 | The session's own thumbnail first, then the YouTube still, then `/upload.png`. Never empty. |
| HistoryCard.Badge | src/components/HistoryCard.tsx:77-79 | Shown exactly for a non-zero duration, and it reads back as that duration. |
| HistoryCard.HandleDownload | src/components/HistoryCard.tsx:28-36 | A success toast exactly on success, an error toast exactly on failure. |
| HistoryCard.HandleDelete | src/components/HistoryCard.tsx:38-49 | No call without confirmation. The parent is told the id exactly when the confirmed call resolved. |
| ContactMessages.Load | src/components/ContactMessagesTable.tsx:33-45 | The list is `messages`, or empty when absent. A failure keeps the list and toasts. |
| ContactMessages.Toggle | src/components/ContactMessagesTable.tsx:47-65 | After a resolved call, the read flag flips on messages with the id only. A failure leaves the list unchanged. |
| ContactMessages.ToggleTwiceRestores | src/components/ContactMessagesTable.tsx:49-58 | Two toggles of one message restore the table. |
| ContactMessages.Delete | src/components/ContactMessagesTable.tsx:67-83 | No call without confirmation. The messages with the id leave only after the call resolved; a failure keeps the list. |
| ContactPage.Submit | src/pages/Contact.tsx:18-41 | An incomplete form toasts with no request. Otherwise it POSTs `/contact`. Success clears the form, failure keeps it, and submitting ends either way. |
| ContactPage.FailedSendRetriesSame | src/pages/Contact.tsx:18-41 | A failed send keeps the form, so submitting again sends the same request. |
| ContactPage.SentFormIsIncomplete | src/pages/Contact.tsx:30-33 | After a successful send, submitting again sends nothing. |
| ReportBug.Body | src/pages/ReportBug.tsx:38-45 | The message is `Bug Type: `, then the bug type, then a blank line, then the text, with nothing else. |
| ReportBug.MountAsWritten | src/pages/ReportBug.tsx:22-25 | As written, name and email are the user's at mount, or empty. |
| ReportBug.EditContact | src/pages/ReportBug.tsx:96-109 | Name and email cannot be edited while signed in. |
| ReportBug.EditReport | src/pages/ReportBug.tsx:22-25 | Bug type and message stay editable. |
| ReportBug.Submit | src/pages/ReportBug.tsx:27-63 | Sent exactly when name, email and message are non-empty. Success clears bug type and message, and name and email only when signed out. Failure keeps everything. |
| ReportBug.ReloadedReportNeverSends | src/pages/ReportBug.tsx:22-109 | As written, a page mounted before the session check can never send while signed in. |
| ReportBug.SyncUser | src/pages/ReportBug.tsx:22-23 | Corrected: name and email follow the signed-in user. |
| ReportBug.SyncedReportSends | src/pages/ReportBug.tsx:30-45 | With the correction, a user with a name and email can send a report. |
| Profile.OnAuth | src/pages/MyProfile.tsx:32-39 | Signed out goes to `/login`. Otherwise the form is prefilled from the user. |
| Profile.ReloadSendsUserToLogin | src/pages/MyProfile.tsx:32-35 | As written, a signed-in user who reloads `/profile` is redirected to `/login` before the session check finishes. |
| Profile.OnAuthChecked | src/pages/MyProfile.tsx:32-39 | Corrected: nothing happens while the session check loads; afterwards it is `OnAuth`. |
| Profile.PrefillWaitsForAuth | src/pages/MyProfile.tsx:32-39 | With the correction, a reload keeps the user on the page with the form prefilled from the session's user. |
| Profile.UpdateProfile | src/pages/MyProfile.tsx:41-59 | The session is refreshed exactly on success. Loading ends and the form is kept. |
| Profile.SavedProfileSurvivesRefresh | src/pages/MyProfile.tsx:41-59 | After a saved update, the refreshed session's user prefills the form with the saved values. |
| Profile.FailedUpdateRetriesSame | src/pages/MyProfile.tsx:41-59 | A failed update keeps the form, so submitting again sends the same request. |
| Profile.ChangePassword | src/pages/MyProfile.tsx:61-87 | A mismatch toasts with no request and loading untouched. Success clears the three password fields. Failure keeps them. |
| Profile.FailedChangeRetriesSame | src/pages/MyProfile.tsx:61-87 | A failed password change keeps the fields, so submitting again sends the same request. |
| EndToEnd.EnabledPasswordFormReachesCheck | src/pages/MyProfile.tsx:204 | A change sent from the enabled button is never refused by `/change_password` for a missing field; it answers 200 exactly when the current password is the caller's. |
| Profile.ChangedFormIsDisabled | src/pages/MyProfile.tsx:77-83 | After a successful change, the button is disabled. |
| Profile.PasswordDisabled | src/pages/MyProfile.tsx:204 | The password button is enabled exactly when nothing is loading and all three password fields are non-empty. |
| Profile.SaveNotifications | src/pages/MyProfile.tsx:89-92 | Saving notifications only toasts. |
| AdminDashboard.RedirectAsWritten | src/pages/AdminDashboard.tsx:25-32 | As written: no redirect exactly for a signed-in administrator. Signed out goes to `/login`. |
| AdminDashboard.NonAdminLandsOnNotFound | src/pages/AdminDashboard.tsx:27-28 | A signed-in non-administrator is sent to `/index`, which no route serves. |
| AdminDashboard.ReloadSendsAdminToLogin | src/pages/AdminDashboard.tsx:25-32 | As written, an administrator who reloads `/admin` is redirected to `/login` before the session check finishes. |
| AdminDashboard.Redirect | src/pages/AdminDashboard.tsx:25-32 | Corrected: no redirect while loading. Afterwards a redirect exactly for non-administrators, and only to served routes. |
| AdminDashboard.RedirectWaitsForAuth | src/pages/AdminDashboard.tsx:25-32 | With the correction, an administrator stays on the page through a reload. |
| AdminDashboard.Load | src/pages/AdminDashboard.tsx:34-50 | Stats are fetched only for a signed-in administrator. Loading ends after success or failure. |
| AdminDashboard.Visible | src/pages/AdminDashboard.tsx:52-54 | The page's content renders exactly when the redirect effect as written sends the user nowhere: for a signed-in administrator. |
| AdminDashboard.Displayed | src/pages/AdminDashboard.tsx:85-127 | The four cards show the totals, or 0 without stats. |
| Media.AllowedFileIff | main.py:108-109 | Accepted exactly when there is a dot and the lower-cased text after the last dot is one of mp4, avi, mov, mkv and webm. |
| Media.Hms | main.py:201 | Under a day, `H:MM:SS` reads back as the number of seconds. |
| Media.Clock | main.py:201 | `str(timedelta)`: `H:MM:SS` under a day, with a day count in front from a day on. |
| Media.Line | main.py:201 | A line is `[`, the start clock, ` - `, the end clock, `] ` and the stripped text, in that order and nothing else. It is never blank. |
| Media.LineTimesReadBack | main.py:201 | Within a day, both times read back from the line as the segment's seconds. |
| Media.Transcript | main.py:200-217 | Gives the placeholder exactly when there are no segments. |
| Media.TranscriptLines | main.py:200-201 | Splitting the transcript at line breaks gives one line per segment. |
| Media.Transcribe | main.py:177-221 | `main.py` returns the text or the error string, with no cache. The other versions cache by `transcript_` plus the path. A hit is returned as is, a success is stored, and the empty transcript is stored as the placeholder. `test.py` raises with the failure's text; `app.py` returns the error string uncached. |
| Media.TranscriptCacheHit | test.py:182-213 | A second transcription of a path returns the first result. |
| Media.Summarize | app.py:202-214 | Cached by `summary_` plus the transcript's MD5. A hit skips the model, a success is cached, and a failure returns the error string uncached; `test.py` raises with the failure's text instead. `main.py` has no cache. |
| Media.SummaryCacheHit | app.py:202-214 | A second summary of the same transcript returns the first result and leaves the cache as the first call left it. |
| Media.FailedSummaryRetried | app.py:202-214 | A failed summary is not cached, so the next call asks the model again and caches a success. |
| Media.Answer | main.py:234-241 | The model's text, or the error string. |
| Media.SafeTitle | main.py:550 | Same length: ASCII letters and digits are kept, and every other character becomes `_`. |
| Media.DownloadName | main.py:550-560 | The safe title plus `_transcript.txt`. It holds letters, digits, `_` and `.` only. |
| Media.DownloadText | main.py:553-554 | A `Transcript for:` header line, a blank line, then the transcript. |
| Media.VideoUrl | main.py:461-467 | A YouTube session with an id gives the embed URL. Otherwise a stored path gives `uploads/` plus its last segment. Otherwise none. |
| Media.UploadUrlNamesStoredFile | main.py:466-467 | An upload is served under the name it was stored with. |
| Backend.Init | main.py:95-100 | A fresh database holds only the administrator and satisfies the table constraints. |
| Backend.FindUser | main.py:119-127 | A found user has the id. None exactly when no row has it. |
| Backend.FindSession | main.py:439-445 | A found session has the id. None exactly when no row has it. |
| Backend.Authorize | main.py:432-449 | Checked in this order: 401 without a cookie, 404 for an unknown id, 403 unless owner or administrator. |
| Backend.FoundSessionIsUnique | main.py:439-445 | With unique ids, the session found is the one with the id. |
| Accounts.IndexAsWritten | main.py:244-253 | As written, the whole user row is returned, password hash included. |
| Accounts.SignupThenIndexRevealsHash | main.py:244-334 | Right after signup, `/` sends the browser the new account's password hash. |
| Accounts.Index | main.py:244-253 | Corrected: the four public fields only. |
| Accounts.IndexAgreesWithLogin | main.py:244-288 | After login, the corrected `/` reports the user login returned. |
| Accounts.Login | main.py:259-289 | It never writes the database. A missing field is 400. It is 200 exactly when some row matches the email and the password hash; the cookie then names that user and the public fields come back. Otherwise 401, with the cookie kept. |
| Accounts.Signup | main.py:291-334 | A missing field is 400. A used email is 400 with no insert. Otherwise exactly one non-administrator row is appended, the cookie names it, and the constraints hold. |
| Accounts.SignupThenLogin | main.py:259-334 | A new account signs in with its own credentials. |
| Accounts.Logout | main.py:336-339 | The cookie loses its user and nothing else changes. |
| Accounts.UpdateProfile | main.py:756-786 | 401, then 400 for a missing field or an email held by another account, with nothing changed. Keeping one's own email is allowed. A signed-in request with both fields and an email no other account holds answers 200, and then only the caller's row changes. |
| Accounts.UpdatedProfileShows | main.py:244-289 | After an update, the session check reports the new name and email, and the account signs in with the new email and its unchanged password. |
| Accounts.ChangePassword | main.py:788-821 | 401, then 400 for a missing field or a wrong current password. 200 exactly when the caller's row holds the current hash, and then only that row's hash becomes the new one. |
| Accounts.ChangedPasswordSignsIn | main.py:788-821 | After a change, the account signs in with the new password. |
| Videos.Locate | main.py:341-404 | A `youtube_url` field wins over a file. An inaccessible video or failed download is 400. An empty name or a disallowed extension is 400. Neither input is 400. The upload is stored under the session id and its safe name. |
| Videos.Insert | main.py:418-428 | The insert answers 200 exactly for a new id, and then appends exactly the row with the caller, source, time, transcript and summary. A taken id is 500 with no new row. |
| Videos.Summarized | main.py:412-428 | The summary and the insert: 200 exactly for a new id unless `test.py` raises on an uncached failed summary, with `Processing failed: ` and the model's text. The stored summary is the cached one, the model's text or the error text. |
| Videos.Record | main.py:406-428 | 200 exactly for a new id when the model calls do not stop processing: a failed transcription in `main.py`, or an uncached failure of either call in `test.py`. Then exactly one row is appended, holding the transcript (cached, the recogniser's, or the error text) and the summary (cached, the model's, or the error text). Otherwise 500 with no new row; in `test.py` the body is `Processing failed: ` plus the raised text. |
| Videos.TestReportsTranscriptionError | test.py:451-453 | In `test.py` a failed, uncached transcription answers 500 with `Processing failed: ` plus Whisper's error text. |
| Videos.TestReportsSummaryError | test.py:451-453 | In `test.py` a failed, uncached summary answers 500 with `Processing failed: ` plus the model's error text. |
| Videos.Process | main.py:341-428 | 401, then `Locate`'s 400. Only the cache and the sessions table change. A signed-in request with a usable video and a new id succeeds exactly when the model calls do not stop it, and appends exactly one session holding the transcript and summary those calls gave. Any failure keeps the sessions. Constraints hold. |
| Videos.FreshVideoIsStored | main.py:406-428 | In every version, a new video with a successful transcription and summary, not yet cached, is stored with the recogniser's transcript and the model's summary. |
| Videos.FailedTranscription | main.py:409-410 | A failed transcription gives 500 in `main.py` and `test.py`. `app.py` stores the error string as the transcript. |
| Videos.AppStoresErrorTexts | app.py:364-381 | `app.py` stores the transcription and summary error strings in a 200 session. |
| Videos.ConversationsOf | app.py:402-403 | Exactly the session's conversations, newest first. |
| Videos.Results | main.py:430-473 | The guard's response, or the row, its conversations and `video_url`. |
| Videos.Ask | test.py:491-537 | 401, then 400 without session id or question, then the guard. 500 exactly in `test.py` when the model fails. Every other granted question answers 200, appends exactly one conversation with the next id and returns it. |
| Videos.AskAddsToCount | app.py:444-457 | A stored answer adds one to its session's conversation count. |
| Videos.NewestAnswerListedFirst | app.py:402-403 | A new answer stamped later than every stored one comes first when the results are read again. The question panel appends it last (`QA.ExchangeAppendsAnswer`). |
| Videos.DownloadTranscript | test.py:540-575 | The guard's response, or the transcript as an attachment under the safe name. |
| Videos.History | app.py:499-520 | 401, or the caller's sessions only, newest first, each with its conversation count. |
| Videos.HistoryItems | app.py:503-520 | The history items are sorted newest first and correspond one-to-one with the caller's sessions. |
| Videos.DeleteSession | main.py:602-642 | After the guard, the session and all its conversations are gone. Every other row is kept, and constraints hold. |
| Videos.DeletedSessionIsGone | main.py:628-634 | After a delete, the session's results answer 404. |
| Videos.ProcessedSessionIsEmpty | main.py:415-473 | A freshly processed session is visible to its owner with no conversations. |
| Admin.FindContact | test.py:653-658 | A found message has the id. None exactly when no row has it. |
| Admin.MarkMessage | test.py:644-661 | 403 for non-administrators. 404 exactly for an unknown id, with nothing changed. Otherwise the message is read, nothing else changes, and the updated row is returned. |
| Admin.MarkTwice | test.py:650 | Marking is idempotent: only ever sets `is_read`. |
| Admin.ToggleMessage | src/components/ContactMessagesTable.tsx:47-65 | Corrected server side of the table: the flag is inverted, 404 for an unknown id. |
| Admin.ToggleTwiceRestores | src/components/ContactMessagesTable.tsx:49-58 | Two toggles restore the table. |
| Admin.DeleteMessage | test.py:663-677 | 403 for non-administrators. 404 exactly when no row has the id. Otherwise the table shrinks, no row with the id remains, and the others are kept. |
| Admin.ContactPost | app.py:582-600 | Anyone may write. A missing field is 400. Otherwise one unread row is appended with the next id. |
| Admin.ContactGet | app.py:601-611 | 403 for non-administrators. Otherwise every message, newest first. |
| Admin.PostedMessageIsListed | app.py:582-611 | A posted message appears, unread, in the administrator's list. |
| Admin.AdminStats | test.py:811-826 | 403 for non-administrators. Otherwise the table sizes, with `total_videos` equal to `total_sessions`. |
| Totals.SignupCountsOneUser | test.py:811-826 | A successful signup adds one to the user total and nothing else; a refused one changes no total. |
| Totals.ProcessCountsOneVideo | test.py:811-826 | A stored video adds one session and one video; a refused or failed one changes no total. |
| Totals.AskCountsOneQuestion | test.py:811-826 | An answered question adds one to the question total; a refused or failed one changes no total. |
| Totals.DeleteUncountsSession | test.py:811-826 | A deletion takes one session and one video off, and as many questions as the session held; a refused one changes no total. |
| EndToEnd.Readable | main.py:27 | A response header reaches the page's script exactly when it is CORS-safelisted or exposed. |
| EndToEnd.DownloadLosesServerName | main.py:27 | As written, no header is exposed, so the client saves every transcript as `transcript.txt`, not under the server's name. |
| EndToEnd.DownloadKeepsServerName | main.py:27 | Corrected, with `Content-Disposition` exposed: the client saves the transcript under the name the server chose. |
| EndToEnd.ContactFormReachesAdmin | app.py:582-611 | A complete contact form, once sent, appears unread in the administrator's list with the name, email and message the visitor typed. |
| EndToEnd.PlayerMatchesServerUrl | main.py:463-464 | The client plays a YouTube session as the embed URL the server computed. |
| EndToEnd.HistorySearchSeesOnlyTitles | src/pages/History.tsx:55-63 | On `/history` entries, which carry no transcript or summary, a search matches on the title only. |
| EndToEnd.HistoryViewByTitle | src/pages/History.tsx:55-63 | A search over the server's entries keeps exactly those whose title matches. |
| EndToEnd.UnreadToggleIsLost | src/components/ContactMessagesTable.tsx:47-65 | As written, "Mark as unread" shows a read message as unread while the database keeps it read. |
| EndToEnd.ToggleKeepsTableInStep | src/components/ContactMessagesTable.tsx:47-65 | With a toggling `/mark_message`, the table shows what the database holds after every toggle. |

## Left out

- HTTP transport, `fetch`, JSON parsing, Blob downloads, cookies, `send_file`, temp files and file removal. Responses, headers and call outcomes are parameters.
- Toasts, navigation and scrolling are emitted values. `window.confirm` is a boolean parameter.
- JSX markup, CSS and the static pages `Index.tsx`, `About.tsx`, `Team.tsx` and `Navbar.tsx`. The route table of `App.tsx` is used only to say which paths are served.
- React effect scheduling and concurrent handlers. Each handler is one transition from its begin state and its call's outcome.
- SHA-256, MD5, `uuid4`, `secure_filename`, yt-dlp, ffmpeg, moviepy, Whisper and Gemini are parameters. Their algorithms are not modelled.
- Media.Transcribe: TTL expiry and the size bound of the cache are not modelled. An entry, once cached, stays.
- Segment times are taken after `int()` truncation, as naturals. Floating point is not modelled.
- `Text.Lower` lower-cases ASCII letters only; JavaScript `toLowerCase` and Python `lower` also fold other letters.
- `ORDER BY timestamp DESC` leaves ties to SQLite. The model keeps insertion order among equal timestamps.
- Timestamps are naturals. Their SQL text form and the client's locale date formatting are not modelled.
- The GET forms of `/login` and `/signup` are modelled only as their 400 response.
- The `/uploads/<filename>` route and `os.path.normpath` are not modelled, beyond the URL `/results` builds.
- `english_transcript` and `language`, which only `main.py` has (main.py:218, 407-421, 503-506): Whisper's translation is not modelled, and the model summarises and answers from the stored transcript.
- Uncaught exceptions in `main.py` and `app.py` (a failed insert, for instance) reach Flask's HTML 500 page; the model answers `Internal Server Error` as JSON instead. In `test.py` a failed insert answers `Processing failed: ` plus the database's text, which the model reduces to a fixed message.
- VideoPlayer.VideoId: `new URL` throws a TypeError on a relative watch URL; the model reads the `v` parameter from the text instead.
- ContactPage.Submit: `required` and `type="email"` on the inputs (src/pages/Contact.tsx:83-107) make the browser block an incomplete form before the handler runs, so the incomplete-form toast is reachable only outside the browser's validation. Email syntax is not modelled.
- Logging, `print` and the thread pool or asyncio offloading in `app.py` and `test.py`.
- The client's `/dashboard` call: no backend version defines that route. The dashboard page takes its reply as a parameter.
- `check_youtube_video` and the cookies file of the YouTube download: accessibility and the download result are parameters.
- `text.py` is a GPU environment probe, not part of the application.

## Findings

| source | as written | input that shows it | evidently intended | confidence | as-written member | corrected member |
|---|---|---|---|---|---|---|
| src/components/QASection.tsx:66-73 | On failure, the rollback filters out entries whose id is a fresh `Date.now()` | a question whose `/ask` fails in a later millisecond than it was sent | the pending entry, whose id was captured when sent, is removed | not executed | QA.RollbackMissesPending | QA.RollbackRestores |
| src/utils/api.ts:42-58 | The download path never checks the status | `/download_transcript/x` answered with 401 and a JSON body | a non-2xx status rejects like the JSON path | not executed | Api.DownloadIgnoresStatus | Api.CallChecked |
| src/pages/AdminDashboard.tsx:27-28 | A signed-in non-administrator is sent to `/index` | a signed-in ordinary user opening `/admin` | a served page such as `/` | not executed | AdminDashboard.NonAdminLandsOnNotFound | AdminDashboard.Redirect |
| src/pages/AdminDashboard.tsx:29-31 | The redirect runs while the session check is still loading | an administrator reloading `/admin` | wait until loading ends | not executed | AdminDashboard.ReloadSendsAdminToLogin | AdminDashboard.RedirectWaitsForAuth |
| src/pages/ReportBug.tsx:22-23 | Name and email are read from the user only at mount, and their inputs are disabled while signed in | a signed-in user opening `/report-bug` by its address | name and email follow the signed-in user | not executed | ReportBug.ReloadedReportNeverSends | ReportBug.SyncedReportSends |
| main.py:244-253 | `/` returns the whole user row, password hash included | any signed-in user calling `/` | the public fields login returns | not executed | Accounts.SignupThenIndexRevealsHash | Accounts.IndexAgreesWithLogin |
| main.py:27 | `CORS(app, supports_credentials=True)` exposes no response header, so the page's script cannot read `Content-Disposition` | any transcript download from `/results` or `/history` | the file is saved under the server's `<title>_transcript.txt` | not executed | EndToEnd.DownloadLosesServerName | EndToEnd.DownloadKeepsServerName |
| src/pages/MyProfile.tsx:32-35 | The `/login` redirect runs while the session check is still loading | a signed-in user reloading `/profile` | wait until loading ends | not executed | Profile.ReloadSendsUserToLogin | Profile.PrefillWaitsForAuth |
| src/components/ContactMessagesTable.tsx:47-65 | "Mark as unread" flips the flag locally, but `/mark_message` only ever sets it | an administrator marking a read message as unread | the table and the database agree | not executed | EndToEnd.UnreadToggleIsLost | EndToEnd.ToggleKeepsTableInStep |

=== FILE: admin_dashboard.dfy ===
/** The administrator page of `src/pages/AdminDashboard.tsx`: a redirect for
    everyone else, the totals from `/admin/stats`, and the contact messages
    table. Also the client's route table of `src/App.tsx`, which decides
    where a redirect lands. */
module AdminDashboard {
  import opened Wrappers
  import Auth
  import Api
  import ClientData

  /** The paths the router serves a page for; any other path falls through
      to the not-found page. `/results/:sessionId` takes one non-empty
      segment. */
  predicate KnownRoute(path: string) {
    path in ["/", "/login", "/signup", "/process", "/history", "/about", "/team", "/report-bug", "/admin", "/profile"]
    || (|path| > 9 && path[..9] == "/results/" && '/' !in path[9..])
  }

  datatype AdminStats = AdminStats(totalUsers: int, totalSessions: int, totalVideos: int, totalQuestions: int)

  datatype State = State(stats: Option<AdminStats>, isLoading: bool)

  const Initial := State(None, true)

  /** The redirect effect as written: a signed-in non-administrator goes to
      `/index` and anyone not signed in to `/login`, read off the auth state
      whether or not its first check has finished. */
  function RedirectAsWritten(isAuthenticated: bool, isAdmin: bool): (r: Option<string>)
    ensures r.None? <==> isAuthenticated && isAdmin
    ensures !isAuthenticated ==> r == Some("/login")
  {
    if isAuthenticated && !isAdmin then Some("/index")
    else if !isAuthenticated then Some("/login")
    else None
  }

  /** A signed-in non-administrator is sent to a path the router does not
      serve, so lands on the not-found page. */
  lemma NonAdminLandsOnNotFound()
    ensures RedirectAsWritten(true, false) == Some("/index")
    ensures !KnownRoute("/index")
  {
  }

  /** Opening `/admin` by its address mounts the page before the session
      check returns: the initial auth state already redirects an
      administrator to the login page, although the check would have signed
      them in. */
  lemma ReloadSendsAdminToLogin(admin: ClientData.User, message: Option<string>)
    requires admin.isAdmin
    ensures RedirectAsWritten(Auth.Initial.isAuthenticated, Auth.IsAdmin(Auth.Initial)) == Some("/login")
    ensures Auth.IsAdmin(Auth.CheckAuth(Auth.Initial, Ok(Api.Doc(message, Some(admin)))).state)
  {
  }

  /** The corrected redirect: nothing while the session check is pending,
      `/login` when signed out, the home page for a non-administrator. Every
      target is a page the router serves. */
  function Redirect(a: Auth.State): (r: Option<string>)
    ensures a.isLoading ==> r.None?
    ensures !a.isLoading ==> (r.None? <==> a.isAuthenticated && Auth.IsAdmin(a))
    ensures r.Some? ==> KnownRoute(r.value)
  {
    if a.isLoading then None
    else if !a.isAuthenticated then Some("/login")
    else if !Auth.IsAdmin(a) then Some("/")
    else None
  }

  /** With the correction, reopening `/admin` leaves an administrator on the
      page: no redirect before the check, none after it. */
  lemma RedirectWaitsForAuth(admin: ClientData.User, message: Option<string>)
    requires admin.isAdmin
    ensures Redirect(Auth.Initial).None?
    ensures Redirect(Auth.CheckAuth(Auth.Initial, Ok(Api.Doc(message, Some(admin)))).state).None?
  {
  }

  /** The page's content is rendered for a signed-in administrator only:
      exactly when the redirect effect as written sends nobody away. */
  function Visible(isAuthenticated: bool, isAdmin: bool): (r: bool)
    ensures r <==> RedirectAsWritten(isAuthenticated, isAdmin).None?
  {
    isAuthenticated && isAdmin
  }

  /** `fetchAdminStats`: only for a signed-in administrator; a failure is
      logged and keeps the old totals. Otherwise nothing runs, so loading is
      left as it was. */
  function Load(s: State, isAuthenticated: bool, isAdmin: bool, reply: Result<AdminStats>): (r: (State, Option<Api.Route>))
    ensures !(isAuthenticated && isAdmin) ==> r == (s, None)
    ensures isAuthenticated && isAdmin ==>
              r.1 == Some(Api.Route("/admin/stats", Api.NoOptions)) && !r.0.isLoading
              && r.0.stats == (if reply.Ok? then Some(reply.value) else s.stats)
  {
    if !(isAuthenticated && isAdmin) then (s, None)
    else
      var sent := Some(Api.Route("/admin/stats", Api.NoOptions));
      match reply
      case Ok(st) => (State(Some(st), false), sent)
      case Err(_) => (s.(isLoading := false), sent)
  }

  /** The four cards read `stats?.field || 0`: the totals once they arrived,
      zeros before. */
  function Displayed(stats: Option<AdminStats>): (r: seq<int>)
    ensures |r| == 4
    ensures stats.None? ==> r == [0, 0, 0, 0]
    ensures stats.Some? ==> AdminStats(r[0], r[1], r[2], r[3]) == stats.value
  {
    match stats
    case None => [0, 0, 0, 0]
    case Some(st) => [st.totalUsers, st.totalSessions, st.totalVideos, st.totalQuestions]
  }
}

=== FILE: api.dfy ===
/** The client's single HTTP chokepoint (`src/utils/api.ts`): option merging,
    body encoding, the download branch, the download filename, and the
    toast-then-rethrow error policy. `fetch` is replaced by a `Transport`
    value describing what the network delivered. */
module Api {
  import opened Wrappers
  import Text
  import Seqs

  const ApiUrl := "http://localhost:5000"
  const ContentType := "Content-Type"
  const JsonType := "application/json"
  const DownloadMarker := "/download_transcript/"
  const DefaultFilename := "transcript.txt"
  const GenericFailure := "Something went wrong"
  const ToastFallback := "An error occurred"
  /** The TypeError raised by `undefined.replace(...)` when the header has no `filename=`. */
  const UndefinedPiece := "Cannot read properties of undefined (reading 'replace')"

  type Headers = map<string, string>

  /** A plain object with string-valued fields, in key order. */
  type Record = seq<(string, string)>

  /** A browser `File`: its name and size in bytes. */
  datatype File = File(name: string, size: nat)

  datatype FormValue = FileValue(file: File) | TextValue(text: string)

  /** A `FormData`: its entries in append order. */
  type FormData = seq<(string, FormValue)>

  /** A request body as the caller passes it, and after encoding:
      `Json(r)` stands for the text `JSON.stringify(r)`. */
  datatype Body = Form(form: FormData) | Object(record: Record) | Str(text: string) | Json(record: Record)

  /** `ApiOptions`: each field is `None` when the caller leaves the key out. */
  datatype Options = Options(verb: Option<string>, body: Option<Body>, headers: Option<Headers>, credentials: Option<string>)

  const NoOptions := Options(None, None, None, None)

  /** The `RequestInit` handed to `fetch`, with the full URL. */
  datatype Request = Request(url: string, verb: string, body: Option<Body>, headers: Headers, credentials: string)

  /** Merges the caller's options over the defaults (method GET, JSON content
      type, cookies included) and encodes the body. */
  function Prepare(endpoint: string, options: Options): (r: Request)
    ensures r.url == ApiUrl + endpoint
    ensures r.verb == options.verb.GetOr("GET")
    ensures r.credentials == options.credentials.GetOr("include")
    ensures options.body.Some? && options.body.value.Form? ==>
              ContentType !in r.headers && r.body == options.body
    ensures !(options.body.Some? && options.body.value.Form?) ==>
              ContentType in r.headers
              && r.headers[ContentType] == (var h := options.headers.GetOr(map[]); if ContentType in h then h[ContentType] else JsonType)
    ensures options.body.Some? && options.body.value.Object? ==> r.body == Some(Json(options.body.value.record))
    ensures options.body.None? || options.body.value.Str? || options.body.value.Json? ==> r.body == options.body
    ensures forall k :: k != ContentType ==>
              (k in r.headers <==> k in options.headers.GetOr(map[]))
              && (k in r.headers ==> r.headers[k] == options.headers.GetOr(map[])[k])
  {
    var merged := map[ContentType := JsonType] + options.headers.GetOr(map[]);
    var verb := options.verb.GetOr("GET");
    var credentials := options.credentials.GetOr("include");
    match options.body
    case Some(Form(f)) => Request(ApiUrl + endpoint, verb, options.body, merged - {ContentType}, credentials)
    case Some(Object(rec)) => Request(ApiUrl + endpoint, verb, Some(Json(rec)), merged, credentials)
    case _ => Request(ApiUrl + endpoint, verb, options.body, merged, credentials)
  }

  /** A parsed JSON response document: its optional `message` field and the
      rest of its content, whose shape each caller chooses. */
  datatype Doc<D> = Doc(message: Option<string>, payload: D)

  /** What `fetch` produced: a rejection, or a response with its status, its
      `Content-Disposition` header and the outcome of `response.json()`. */
  datatype Transport<D> =
    | NetworkError(reason: string)
    | Delivered(status: int, contentDisposition: Option<string>, json: Result<Doc<D>>)

  /** What `api` resolves or rejects with. `Downloaded` is `{ success: true }`,
      recording the filename given to the saved blob. */
  datatype Outcome<D> = Returned(doc: Doc<D>) | Downloaded(filename: string) | Threw(error: string)

  /** One call: the request sent, the outcome, and the error toast shown. */
  datatype Completion<D> = Completion(request: Request, outcome: Outcome<D>, toast: Option<string>)

  predicate StatusOk(status: int) {
    200 <= status <= 299
  }

  const Quotes: set<char> := {'"', '\''}

  /** The download filename: the piece between the first `filename=` and the
      next one (or the end) with every quote removed, `transcript.txt`
      without a header, and a TypeError when the header has no `filename=`. */
  function Filename(contentDisposition: Option<string>): (r: Result<string>)
    ensures r.Ok? ==> '"' !in r.value && '\'' !in r.value
    ensures contentDisposition.None? ==> r == Ok(DefaultFilename)
    ensures contentDisposition == Some("") ==> r == Ok(DefaultFilename)
    ensures contentDisposition.Some? && Text.Truthy(contentDisposition.value) ==>
              (r.Err? <==> !Text.Contains(contentDisposition.value, "filename="))
    ensures contentDisposition.Some? && Text.Truthy(contentDisposition.value) && r.Ok? ==>
              Text.Contains(contentDisposition.value, "filename=")
              && r.value == Text.RemoveChars(Text.SecondPiece(contentDisposition.value, "filename=").value, Quotes)
  {
    if contentDisposition.None? || !Text.Truthy(contentDisposition.value) then Ok(DefaultFilename)
    else
      match Text.SecondPiece(contentDisposition.value, "filename=")
      case None => Err(UndefinedPiece)
      case Some(piece) =>
        var name := Text.RemoveChars(piece, Quotes);
        assert forall i :: 0 <= i < |name| ==> name[i] != '"' && name[i] != '\'';
        Ok(name)
  }

  /** `api(endpoint, options)` against the given network behaviour: every
      failure is toasted and rethrown; on the JSON path a 2xx status returns
      the parsed document and any other status throws the server's message;
      on the download path (the marker anywhere in the endpoint) the status
      is never consulted. */
  function Call<D>(endpoint: string, options: Options, t: Transport<D>): (c: Completion<D>)
    ensures c.request == Prepare(endpoint, options)
    ensures c.toast.Some? <==> c.outcome.Threw?
    ensures c.outcome.Threw? ==> c.toast == Some(if c.outcome.error != "" then c.outcome.error else ToastFallback)
    ensures t.NetworkError? ==> c.outcome == Threw(t.reason)
    ensures !Text.Contains(endpoint, DownloadMarker) ==> !c.outcome.Downloaded?
    ensures !Text.Contains(endpoint, DownloadMarker) && t.Delivered? && t.json.Ok? ==>
              c.outcome == (if StatusOk(t.status) then Returned(t.json.value)
                            else Threw(Text.Or(t.json.value.message, GenericFailure)))
    ensures !Text.Contains(endpoint, DownloadMarker) && t.Delivered? && t.json.Err? ==> c.outcome == Threw(t.json.message)
    ensures Text.Contains(endpoint, DownloadMarker) && t.Delivered? ==>
              !c.outcome.Returned?
              && (c.outcome.Downloaded? <==> Filename(t.contentDisposition).Ok?)
              && (c.outcome.Downloaded? ==> c.outcome.filename == Filename(t.contentDisposition).value)
  {
    var outcome :=
      match t
      case NetworkError(reason) => Threw(reason)
      case Delivered(status, disposition, json) =>
        if Text.Contains(endpoint, DownloadMarker) then
          match Filename(disposition)
          case Ok(name) => Downloaded(name)
          case Err(e) => Threw(e)
        else
          match json
          case Err(e) => Threw(e)
          case Ok(doc) =>
            if StatusOk(status) then Returned(doc) else Threw(Text.Or(doc.message, GenericFailure));
    Completion(Prepare(endpoint, options), outcome,
               if outcome.Threw? then Some(Text.Or(Some(outcome.error), ToastFallback)) else None)
  }

  /** As written, a transcript download refused with 401 (a JSON body and no
      `Content-Disposition`) is saved as `transcript.txt` and reported as a
      success. */
  lemma DownloadIgnoresStatus(sessionId: string, body: Doc<()>)
    ensures Call(DownloadTranscript(sessionId).endpoint, NoOptions, Delivered(401, None, Ok(body))).outcome
            == Downloaded(DefaultFilename)
  {
    OnlyTranscriptDownloads(sessionId);
  }

  /** `api` with the status check the download path evidently needs: a non-2xx
      response is treated as on the JSON path. */
  function CallChecked<D>(endpoint: string, options: Options, t: Transport<D>): (c: Completion<D>)
    ensures c.request == Prepare(endpoint, options)
    ensures c.toast.Some? <==> c.outcome.Threw?
    ensures c.outcome.Downloaded? ==> t.Delivered? && StatusOk(t.status)
    ensures Text.Contains(endpoint, DownloadMarker) && t.Delivered? && !StatusOk(t.status) ==>
              c.outcome == Threw(if t.json.Ok? then Text.Or(t.json.value.message, GenericFailure) else t.json.message)
    ensures t.Delivered? && StatusOk(t.status) ==> c == Call(endpoint, options, t)
    ensures !Text.Contains(endpoint, DownloadMarker) ==> c == Call(endpoint, options, t)
  {
    match t
    case Delivered(status, _, json) =>
      if Text.Contains(endpoint, DownloadMarker) && !StatusOk(status) then
        var error := if json.Ok? then Text.Or(json.value.message, GenericFailure) else json.message;
        Completion(Prepare(endpoint, options), Threw(error), Some(Text.Or(Some(error), ToastFallback)))
      else Call(endpoint, options, t)
    case NetworkError(_) => Call(endpoint, options, t)
  }

  /** The header Flask's `send_file` writes for an ASCII name without quotes
      or `=`: the client recovers exactly that name. */
  lemma FilenameOfAttachment(name: string)
    requires '"' !in name && '\'' !in name && '=' !in name
    ensures Filename(Some("attachment; filename=" + name)) == Ok(name)
  {
    var header := "attachment; filename=" + name;
    var pre := "attachment; ";
    var pat := "filename=";
    assert pre + pat + name == header;
    assert 'f' !in pre;
    assert pat[8] == '=';
    Text.AbsentCharNoMatch(name, pat, 8);
    Text.SecondPieceOf(pre, pat, name);
    Text.RemoveAbsentChars(name, Quotes);
    assert Text.Truthy(header);
  }

  /** An endpoint wrapper: the route and the options it passes to `api`. */
  datatype Route = Route(endpoint: string, options: Options)

  function Post(body: Option<Body>): Options {
    Options(Some("POST"), body, None, None)
  }

  function Login(email: string, password: string): Route {
    Route("/login", Post(Some(Object([("email", email), ("password", password)]))))
  }

  function Signup(username: string, email: string, password: string): Route {
    Route("/signup", Post(Some(Object([("username", username), ("email", email), ("password", password)]))))
  }

  function Logout(): Route {
    Route("/logout", NoOptions)
  }

  function ProcessVideo(form: FormData): Route {
    Route("/process", Post(Some(Form(form))))
  }

  function GetResults(sessionId: string): Route {
    Route("/results/" + sessionId, NoOptions)
  }

  function AskQuestion(sessionId: string, question: string): Route {
    Route("/ask", Post(Some(Object([("session_id", sessionId), ("question", question)]))))
  }

  function DownloadTranscript(sessionId: string): Route {
    Route(DownloadMarker + sessionId, NoOptions)
  }

  function GetUserHistory(): Route {
    Route("/history", NoOptions)
  }

  function GetUserDashboard(): Route {
    Route("/dashboard", NoOptions)
  }

  function DeleteSession(sessionId: string): Route {
    Route("/delete_session/" + sessionId, Post(None))
  }

  function MarkMessage(messageId: nat): Route {
    Route("/mark_message/" + Text.NatToString(messageId), NoOptions)
  }

  function DeleteMessage(messageId: nat): Route {
    Route("/delete_message/" + Text.NatToString(messageId), Post(None))
  }

  function SubmitContactForm(name: string, email: string, message: string): Route {
    Route("/contact", Post(Some(Object([("name", name), ("email", email), ("message", message)]))))
  }

  function Send(route: Route): Request {
    Prepare(route.endpoint, route.options)
  }

  /** The wrappers fix method, route and body: JSON posts for `/ask`, `/login`
      and `/contact`, a multipart post for `/process`, bare posts for the two
      deletions, and GETs for the rest. */
  lemma WrapperRequests(sessionId: string, question: string, form: FormData, id: nat)
    ensures var r := Send(AskQuestion(sessionId, question));
            r.url == ApiUrl + "/ask" && r.verb == "POST" && r.credentials == "include"
            && r.body == Some(Json([("session_id", sessionId), ("question", question)]))
            && r.headers == map[ContentType := JsonType]
    ensures var r := Send(ProcessVideo(form));
            r.verb == "POST" && r.body == Some(Form(form)) && r.headers == map[]
    ensures Send(DeleteSession(sessionId)).verb == "POST" && Send(DeleteSession(sessionId)).body.None?
    ensures Send(DeleteMessage(id)).verb == "POST"
    ensures Send(MarkMessage(id)).verb == "GET"
    ensures Send(GetResults(sessionId)).verb == "GET" && Send(Logout()).verb == "GET"
    ensures Send(GetResults(sessionId)).headers == map[ContentType := JsonType]
  {
    assert map[ContentType := JsonType] + map[] == map[ContentType := JsonType];
    assert map[ContentType := JsonType] - {ContentType} == map[];
  }

  /** Only the transcript wrapper reaches the download path. */
  lemma OnlyTranscriptDownloads(sessionId: string)
    ensures Text.Contains(DownloadTranscript(sessionId).endpoint, DownloadMarker)
  {
    Text.ContainsInfix("", DownloadMarker, sessionId);
    assert "" + DownloadMarker + sessionId == DownloadMarker + sessionId;
  }
}

=== FILE: auth.dfy ===
/** The session context of `src/contexts/AuthContext.tsx`: who is signed in,
    whether a check is in flight, and the four operations that change it.
    Each operation sets `isLoading`, awaits one backend call, and settles;
    the awaited call's result is a parameter (`Ok` with the parsed response,
    or `Err` when `api` threw, having already shown its own toast). */
module Auth {
  import opened Wrappers
  import opened ClientData
  import Api
  import Text

  datatype State = State(user: Option<User>, isAuthenticated: bool, isLoading: bool)

  /** Before the first check: nobody signed in, a check pending. */
  const Initial := State(None, false, true)

  /** The response of `/`, `/login` and `/signup`: its message and its `user`. */
  type Reply = Result<Api.Doc<Option<User>>>

  /** The state after a settled operation, what it returned, and what it showed. */
  datatype Step = Step(state: State, returned: bool, effects: seq<Effect>)

  /** `isAuthenticated` is set exactly when a user is held. */
  predicate Consistent(s: State) {
    s.isAuthenticated <==> s.user.Some?
  }

  /** `user?.is_admin || false`. */
  predicate IsAdmin(s: State) {
    s.user.Some? && s.user.value.isAdmin
  }

  /** The user a reply carries (`response.user`), if the call resolved. */
  function UserIn(reply: Reply): Option<User> {
    if reply.Ok? then reply.value.payload else None
  }

  /** `checkAuth`: adopts the user the server reports, and otherwise signs out
      locally, whether the server said so or the call failed. Shows nothing. */
  function CheckAuth(s: State, reply: Reply): (r: Step)
    ensures Consistent(r.state) && !r.state.isLoading
    ensures r.returned <==> r.state.isAuthenticated
    ensures r.returned <==> reply.Ok? && reply.value.payload.Some?
    ensures r.state.user == UserIn(reply)
    ensures r.effects == []
  {
    match UserIn(reply)
    case Some(u) => Step(State(Some(u), true, false), true, [])
    case None => Step(State(None, false, false), false, [])
  }

  /** `login` and `signup`: a reply with a user signs in and toasts success; a
      resolved reply without one toasts its message (or the fallback); a
      thrown call only clears the loading flag. A failure never changes who
      is signed in. */
  function Authenticate(s: State, reply: Reply, success: string, failure: string): (r: Step)
    ensures !r.state.isLoading
    ensures r.returned <==> reply.Ok? && reply.value.payload.Some?
    ensures r.returned ==> r.state.isAuthenticated && r.state.user == reply.value.payload
                           && r.effects == [ToastSuccess(success)]
    ensures !r.returned ==> r.state.user == s.user && r.state.isAuthenticated == s.isAuthenticated
    ensures reply.Ok? && !r.returned ==> r.effects == [ToastError(Text.Or(reply.value.message, failure))]
    ensures reply.Err? ==> r.effects == []
    ensures Consistent(s) ==> Consistent(r.state)
  {
    match reply
    case Err(_) => Step(s.(isLoading := false), false, [])
    case Ok(doc) =>
      match doc.payload
      case Some(u) => Step(State(Some(u), true, false), true, [ToastSuccess(success)])
      case None => Step(s.(isLoading := false), false, [ToastError(Text.Or(doc.message, failure))])
  }

  function Login(s: State, reply: Reply): Step {
    Authenticate(s, reply, "Login successful", "Login failed")
  }

  function Signup(s: State, reply: Reply): Step {
    Authenticate(s, reply, "Signup successful", "Signup failed")
  }

  /** `logout`: only a call that resolved clears the user (and goes home); a
      failed call keeps the session and says so. `returned` is always false. */
  function Logout(s: State, reply: Result<()>): (r: Step)
    ensures !r.state.isLoading && !r.returned
    ensures reply.Ok? ==> r.state.user.None? && !r.state.isAuthenticated
                          && r.effects == [ToastSuccess("Logged out successfully"), Navigate("/")]
    ensures reply.Err? ==> r.state.user == s.user && r.state.isAuthenticated == s.isAuthenticated
                           && r.effects == [ToastError("Logout failed. Please try again.")]
    ensures Consistent(s) ==> Consistent(r.state)
  {
    if reply.Ok? then Step(State(None, false, false), false, [ToastSuccess("Logged out successfully"), Navigate("/")])
    else Step(s.(isLoading := false), false, [ToastError("Logout failed. Please try again.")])
  }

  /** One operation on the context, with the outcome of its backend call. */
  datatype Action =
    | CheckAuthAction(reply: Reply)
    | LoginAction(email: string, password: string, reply: Reply)
    | SignupAction(username: string, email: string, password: string, reply: Reply)
    | LogoutAction(outcome: Result<()>)

  /** The backend call each operation makes. */
  function RouteOf(a: Action): Api.Route {
    match a
    case CheckAuthAction(_) => Api.Route("/", Api.NoOptions)
    case LoginAction(email, password, _) => Api.Login(email, password)
    case SignupAction(username, email, password, _) => Api.Signup(username, email, password)
    case LogoutAction(_) => Api.Logout()
  }

  function Apply(s: State, a: Action): Step {
    match a
    case CheckAuthAction(reply) => CheckAuth(s, reply)
    case LoginAction(_, _, reply) => Login(s, reply)
    case SignupAction(_, _, _, reply) => Signup(s, reply)
    case LogoutAction(outcome) => Logout(s, outcome)
  }

  /** The state after running the operations one after another. */
  function Run(s: State, actions: seq<Action>): State
    decreases |actions|
  {
    if |actions| == 0 then s else Run(Apply(s, actions[0]).state, actions[1..])
  }

  /** From the initial state, every sequence of settled operations keeps the
      flag and the user in agreement, leaves nothing loading, and grants the
      admin view only to a signed-in user. */
  lemma {:induction false} RunKeepsConsistent(s: State, actions: seq<Action>)
    requires Consistent(s)
    ensures Consistent(Run(s, actions))
    ensures |actions| > 0 ==> !Run(s, actions).isLoading
    ensures IsAdmin(Run(s, actions)) ==> Run(s, actions).isAuthenticated
    decreases |actions|
  {
    if |actions| > 0 {
      var next := Apply(s, actions[0]).state;
      RunKeepsConsistent(next, actions[1..]);
      if |actions| == 1 {
        assert Run(next, actions[1..]) == next;
      }
    }
  }
}

=== FILE: backend_accounts.dfy ===
/** The account routes of the Flask backends: `/`, `/login`, `/signup`,
    `/logout`, `/update_profile` and `/change_password`. They are the same
    in `main.py`, `app.py` and `test.py`. SHA-256 is a parameter. */
module Accounts {
  import opened Wrappers
  import opened Backend
  import Seqs

  const NotSignedIn := "Not authenticated"

  /** `index` as written: the cookie's whole user row, password hash
      included. A cookie naming no stored user makes `dict(None)` raise. */
  function IndexAsWritten(st: Store, cookie: Cookie): (r: Response)
    ensures cookie.None? ==> r == Response(200, Message(NotSignedIn))
    ensures cookie.Some? && FindUser(st, cookie.value).Some? ==> r == Response(200, UserRecord(FindUser(st, cookie.value).value))
    ensures cookie.Some? && FindUser(st, cookie.value).None? ==> r.status == 500
  {
    match cookie
    case None => Response(200, Message(NotSignedIn))
    case Some(uid) =>
      match FindUser(st, uid)
      case Some(u) => Response(200, UserRecord(u))
      case None => Response(500, Message("Internal Server Error"))
  }

  /** Right after signing up, the session check hands the browser the
      unsalted SHA-256 of the new password. */
  lemma SignupThenIndexRevealsHash(st: Store, cookie: Cookie, username: string, email: string, password: string, sha256: string -> string)
    requires Valid(st)
    requires username != "" && email != "" && password != ""
    requires forall i :: 0 <= i < |st.users| ==> st.users[i].email != email
    ensures var after := Signup(st, cookie, true, Some(username), Some(email), Some(password), sha256);
            IndexAsWritten(after.store, after.cookie).body.UserRecord?
            && IndexAsWritten(after.store, after.cookie).body.row.passwordHash == sha256(password)
  {
    var after := Signup(st, cookie, true, Some(username), Some(email), Some(password), sha256);
    var u := after.store.users[|st.users|];
    assert u.id == st.nextUser;
    assert FindUser(after.store, st.nextUser) == Some(u) by {
      FoundUserIsUnique(after.store, |st.users|);
    }
  }

  /** With unique ids, the user found is the only one with its id. */
  lemma FoundUserIsUnique(st: Store, i: nat)
    requires Seqs.DistinctBy(st.users, UserId) && i < |st.users|
    ensures FindUser(st, st.users[i].id) == Some(st.users[i])
  {
    var r := FindUser(st, st.users[i].id).value;
    var j :| 0 <= j < |st.users| && st.users[j] == r;
    if j != i {
      assert false;
    }
  }

  /** The corrected `index`: the same four fields login and signup return. */
  function Index(st: Store, cookie: Cookie): (r: Response)
    ensures cookie.None? ==> r == Response(200, Message(NotSignedIn))
    ensures cookie.Some? && FindUser(st, cookie.value).Some? ==>
              r == Response(200, CurrentUser(Public(FindUser(st, cookie.value).value)))
    ensures cookie.Some? && FindUser(st, cookie.value).None? ==> r.status == 500
  {
    match cookie
    case None => Response(200, Message(NotSignedIn))
    case Some(uid) =>
      match FindUser(st, uid)
      case Some(u) => Response(200, CurrentUser(Public(u)))
      case None => Response(500, Message("Internal Server Error"))
  }

  /** A user who matches the submitted email and password. */
  ghost predicate Matches(st: Store, email: string, hash: string) {
    exists i :: 0 <= i < |st.users| && st.users[i].email == email && st.users[i].passwordHash == hash
  }

  /** `login`: never writes the database; on a match the cookie names the
      user and the four public fields are returned, otherwise the cookie is
      left alone. */
  function Login(st: Store, cookie: Cookie, post: bool, email: Option<string>, password: Option<string>, sha256: string -> string): (r: Outcome)
    ensures r.store == st
    ensures !post ==> r == Outcome(st, cookie, Response(400, Message("Please provide login credentials")))
    ensures post && (Missing(email) || Missing(password)) ==>
              r == Outcome(st, cookie, Response(400, Message("Email and password are required")))
    ensures r.response.status == 200 <==>
              post && !Missing(email) && !Missing(password) && Matches(st, email.value, sha256(password.value))
    ensures r.response.status == 200 ==>
              r.response.body.SignedIn? && r.response.body.message == "Login successful"
              && r.cookie == Some(r.response.body.user.id)
              && exists i :: 0 <= i < |st.users| && Public(st.users[i]) == r.response.body.user
                             && st.users[i].email == email.value && st.users[i].passwordHash == sha256(password.value)
    ensures r.response.status != 200 ==> r.cookie == cookie && r.response.status in {400, 401}
  {
    if !post then Outcome(st, cookie, Response(400, Message("Please provide login credentials")))
    else if Missing(email) || Missing(password) then Outcome(st, cookie, Response(400, Message("Email and password are required")))
    else
      var hash := sha256(password.value);
      match Seqs.First(st.users, (u: UserRow) => u.email == email.value && u.passwordHash == hash)
      case Some(u) => Outcome(st, Some(u.id), Response(200, SignedIn("Login successful", Public(u))))
      case None => Outcome(st, cookie, Response(401, Message("Invalid credentials")))
  }

  /** `signup`: a new email adds exactly one non-administrator row with the
      next id and signs it in; a taken email changes nothing. */
  function Signup(st: Store, cookie: Cookie, post: bool, username: Option<string>, email: Option<string>, password: Option<string>, sha256: string -> string): (r: Outcome)
    ensures !post ==> r == Outcome(st, cookie, Response(400, Message("Please provide registration details")))
    ensures post && (Missing(username) || Missing(email) || Missing(password)) ==>
              r == Outcome(st, cookie, Response(400, Message("Username, email, and password are required")))
    ensures post && !Missing(username) && !Missing(email) && !Missing(password)
            && (exists i :: 0 <= i < |st.users| && st.users[i].email == email.value) ==>
              r == Outcome(st, cookie, Response(400, Message("Email already registered")))
    ensures r.response.status == 200 ==>
              var u := UserRow(st.nextUser, username.value, email.value, sha256(password.value), false);
              r.store == st.(users := st.users + [u], nextUser := st.nextUser + 1)
              && r.cookie == Some(st.nextUser)
              && r.response.body == SignedIn("Signup successful", Public(u))
    ensures r.response.status != 200 ==> r.store == st && r.cookie == cookie && r.response.status == 400
    ensures Valid(st) ==> Valid(r.store)
  {
    if !post then Outcome(st, cookie, Response(400, Message("Please provide registration details")))
    else if Missing(username) || Missing(email) || Missing(password) then
      Outcome(st, cookie, Response(400, Message("Username, email, and password are required")))
    else if Seqs.First(st.users, (u: UserRow) => u.email == email.value).Some? then
      Outcome(st, cookie, Response(400, Message("Email already registered")))
    else
      var u := UserRow(st.nextUser, username.value, email.value, sha256(password.value), false);
      var st' := st.(users := st.users + [u], nextUser := st.nextUser + 1);
      AppendUserKeepsValid(st, u);
      Outcome(st', Some(st.nextUser), Response(200, SignedIn("Signup successful", Public(u))))
  }

  lemma AppendUserKeepsValid(st: Store, u: UserRow)
    requires u.id == st.nextUser
    requires forall i :: 0 <= i < |st.users| ==> st.users[i].email != u.email
    ensures Valid(st) ==> Valid(st.(users := st.users + [u], nextUser := st.nextUser + 1))
  {
    if Valid(st) {
      var us := st.users + [u];
      assert forall i :: 0 <= i < |st.users| ==> us[i] == st.users[i];
      assert forall i, j :: 0 <= i < j < |us| ==> UserId(us[i]) != UserId(us[j]) by {
        forall i, j | 0 <= i < j < |us|
          ensures UserId(us[i]) != UserId(us[j])
        {
          if j == |st.users| {
            assert us[i].id < st.nextUser;
          }
        }
      }
      assert forall i, j :: 0 <= i < j < |us| ==> UserEmail(us[i]) != UserEmail(us[j]);
    }
  }

  /** A new account can sign in with the credentials it signed up with. */
  lemma SignupThenLogin(st: Store, cookie: Cookie, username: string, email: string, password: string, sha256: string -> string)
    requires Valid(st)
    requires username != "" && email != "" && password != ""
    requires forall i :: 0 <= i < |st.users| ==> st.users[i].email != email
    ensures var up := Signup(st, cookie, true, Some(username), Some(email), Some(password), sha256);
            var back := Login(up.store, None, true, Some(email), Some(password), sha256);
            back.response.status == 200 && back.cookie == up.cookie
  {
    var up := Signup(st, cookie, true, Some(username), Some(email), Some(password), sha256);
    var us := up.store.users;
    assert us[|st.users|].email == email && us[|st.users|].passwordHash == sha256(password);
    assert Matches(up.store, email, sha256(password));
    var back := Login(up.store, None, true, Some(email), Some(password), sha256);
    var i :| 0 <= i < |us| && Public(us[i]) == back.response.body.user && us[i].email == email;
  }

  /** `logout`: the cookie loses its user; nothing else changes. */
  function Logout(st: Store, cookie: Cookie): (r: Outcome)
    ensures r.store == st && r.cookie.None?
    ensures r.response == Response(200, Message("Logged out successfully"))
  {
    Outcome(st, None, Response(200, Message("Logged out successfully")))
  }

  function Rename(uid: nat, username: string, email: string): UserRow -> UserRow {
    (u: UserRow) => if u.id == uid then u.(username := username, email := email) else u
  }

  /** `update_profile`: an email held by another account is refused; keeping
      one's own is allowed. Only the caller's row changes. */
  function UpdateProfile(st: Store, cookie: Cookie, username: Option<string>, email: Option<string>): (r: Outcome)
    ensures r.cookie == cookie
    ensures cookie.None? ==> r == Outcome(st, cookie, Response(401, Message(AuthRequired)))
    ensures cookie.Some? && (Missing(username) || Missing(email)) ==>
              r == Outcome(st, cookie, Response(400, Message("Username and email are required")))
    ensures cookie.Some? && !Missing(username) && !Missing(email) ==>
              ((exists i :: 0 <= i < |st.users| && st.users[i].email == email.value && st.users[i].id != cookie.value)
               <==> r.response == Response(400, Message("Email already in use by another account")))
    ensures r.response.status == 200 <==>
              cookie.Some? && !Missing(username) && !Missing(email)
              && !(exists i :: 0 <= i < |st.users| && st.users[i].email == email.value && st.users[i].id != cookie.value)
    ensures r.response.status == 200 ==>
              r.response.body == Message("Profile updated successfully")
              && r.store == st.(users := r.store.users) && |r.store.users| == |st.users|
              && forall i :: 0 <= i < |st.users| ==>
                   r.store.users[i] == (if st.users[i].id == cookie.value
                                        then st.users[i].(username := username.value, email := email.value)
                                        else st.users[i])
    ensures r.response.status != 200 ==> r.store == st
    ensures Valid(st) ==> Valid(r.store)
  {
    match cookie
    case None => Outcome(st, cookie, Response(401, Message(AuthRequired)))
    case Some(uid) =>
      if Missing(username) || Missing(email) then Outcome(st, cookie, Response(400, Message("Username and email are required")))
      else if Seqs.First(st.users, (u: UserRow) => u.email == email.value && u.id != uid).Some? then
        Outcome(st, cookie, Response(400, Message("Email already in use by another account")))
      else
        var st' := st.(users := Seqs.Map(st.users, Rename(uid, username.value, email.value)));
        RenameKeepsValid(st, uid, username.value, email.value);
        Outcome(st', cookie, Response(200, Message("Profile updated successfully")))
  }

  /** After a profile update, the session check reports the new name and
      email, and the account signs in with the new email and its unchanged
      password. */
  lemma UpdatedProfileShows(st: Store, k: nat, username: string, email: string, password: string, sha256: string -> string)
    requires Valid(st) && k < |st.users|
    requires username != "" && email != "" && password != ""
    requires st.users[k].passwordHash == sha256(password)
    requires forall i :: 0 <= i < |st.users| && st.users[i].email == email ==> i == k
    ensures var id := st.users[k].id;
            var up := UpdateProfile(st, Some(id), Some(username), Some(email));
            up.response.status == 200
            && Index(up.store, Some(id)) == Response(200, CurrentUser(Public(st.users[k].(username := username, email := email))))
            && Login(up.store, None, true, Some(email), Some(password), sha256).response.status == 200
  {
    var id := st.users[k].id;
    assert !(exists i :: 0 <= i < |st.users| && st.users[i].email == email && st.users[i].id != id) by {
      forall i | 0 <= i < |st.users| && st.users[i].email == email
        ensures st.users[i].id == id
      {
      }
    }
    var up := UpdateProfile(st, Some(id), Some(username), Some(email));
    assert up.response.status == 200;
    assert up.store.users[k] == st.users[k].(username := username, email := email);
    FoundUserIsUnique(up.store, k);
    assert Matches(up.store, email, sha256(password));
  }

  lemma RenameKeepsValid(st: Store, uid: nat, username: string, email: string)
    requires forall i :: 0 <= i < |st.users| ==> !(st.users[i].email == email && st.users[i].id != uid)
    ensures Valid(st) ==> Valid(st.(users := Seqs.Map(st.users, Rename(uid, username, email))))
  {
    if Valid(st) {
      var us := Seqs.Map(st.users, Rename(uid, username, email));
      assert forall i :: 0 <= i < |us| ==> us[i].id == st.users[i].id;
      forall i, j | 0 <= i < j < |us|
        ensures UserEmail(us[i]) != UserEmail(us[j])
      {
        assert UserId(st.users[i]) != UserId(st.users[j]);
      }
    }
  }

  function SetPassword(uid: nat, hash: string): UserRow -> UserRow {
    (u: UserRow) => if u.id == uid then u.(passwordHash := hash) else u
  }

  /** `change_password`: the current password must match the caller's row;
      then only that row's hash changes, to the hash of the new password. */
  function ChangePassword(st: Store, cookie: Cookie, current: Option<string>, replacement: Option<string>, sha256: string -> string): (r: Outcome)
    ensures r.cookie == cookie
    ensures cookie.None? ==> r == Outcome(st, cookie, Response(401, Message(AuthRequired)))
    ensures cookie.Some? && (Missing(current) || Missing(replacement)) ==>
              r == Outcome(st, cookie, Response(400, Message("Current password and new password are required")))
    ensures r.response.status == 200 <==>
              cookie.Some? && !Missing(current) && !Missing(replacement)
              && exists i :: 0 <= i < |st.users| && st.users[i].id == cookie.value && st.users[i].passwordHash == sha256(current.value)
    ensures r.response.status == 200 ==>
              r.response.body == Message("Password changed successfully")
              && r.store == st.(users := r.store.users) && |r.store.users| == |st.users|
              && forall i :: 0 <= i < |st.users| ==>
                   r.store.users[i] == (if st.users[i].id == cookie.value
                                        then st.users[i].(passwordHash := sha256(replacement.value)) else st.users[i])
    ensures r.response.status != 200 ==> r.store == st
    ensures Valid(st) ==> Valid(r.store)
  {
    match cookie
    case None => Outcome(st, cookie, Response(401, Message(AuthRequired)))
    case Some(uid) =>
      if Missing(current) || Missing(replacement) then
        Outcome(st, cookie, Response(400, Message("Current password and new password are required")))
      else if Seqs.First(st.users, (u: UserRow) => u.id == uid && u.passwordHash == sha256(current.value)).None? then
        Outcome(st, cookie, Response(400, Message("Current password is incorrect")))
      else
        var us := Seqs.Map(st.users, SetPassword(uid, sha256(replacement.value)));
        SetPasswordKeepsValid(st, uid, sha256(replacement.value));
        Outcome(st.(users := us), cookie, Response(200, Message("Password changed successfully")))
  }

  lemma SetPasswordKeepsValid(st: Store, uid: nat, hash: string)
    ensures Valid(st) ==> Valid(st.(users := Seqs.Map(st.users, SetPassword(uid, hash))))
  {
    if Valid(st) {
      Seqs.MapKeepsDistinct(st.users, SetPassword(uid, hash), UserId);
      Seqs.MapKeepsDistinct(st.users, SetPassword(uid, hash), UserEmail);
    }
  }

  /** After a password change the account signs in with the new password. */
  lemma ChangedPasswordSignsIn(st: Store, k: nat, current: string, replacement: string, sha256: string -> string)
    requires current != "" && replacement != ""
    requires k < |st.users| && st.users[k].email != "" && st.users[k].passwordHash == sha256(current)
    ensures var ch := ChangePassword(st, Some(st.users[k].id), Some(current), Some(replacement), sha256);
            ch.response.status == 200
            && Login(ch.store, None, true, Some(st.users[k].email), Some(replacement), sha256).response.status == 200
  {
    var ch := ChangePassword(st, Some(st.users[k].id), Some(current), Some(replacement), sha256);
    assert ch.response.status == 200;
    var after := ch.store.users[k];
    assert after.email == st.users[k].email && after.passwordHash == sha256(replacement);
    assert Matches(ch.store, st.users[k].email, sha256(replacement));
  }

  /** The corrected session check agrees with login about who is signed in. */
  lemma IndexAgreesWithLogin(st: Store, email: string, password: string, sha256: string -> string)
    requires Valid(st)
    requires email != "" && password != "" && Matches(st, email, sha256(password))
    ensures var li := Login(st, None, true, Some(email), Some(password), sha256);
            Index(li.store, li.cookie) == Response(200, CurrentUser(li.response.body.user))
  {
    var li := Login(st, None, true, Some(email), Some(password), sha256);
    var i :| 0 <= i < |st.users| && Public(st.users[i]) == li.response.body.user && st.users[i].email == email
             && st.users[i].passwordHash == sha256(password);
    FoundUserIsUnique(st, i);
  }
}

=== FILE: backend_admin.dfy ===
/** The administrator and contact routes of the Flask backends:
    `/mark_message/<id>`, `/delete_message/<id>`, `/contact` (POST and GET)
    and `/admin/stats`. The three versions agree on all of them. */
module Admin {
  import opened Wrappers
  import opened Backend
  import Seqs

  const MessageNotFound := "Message not found"
  const FieldsRequired := "Name, email, and message are required"

  function HasId(id: nat): ContactRow -> bool {
    (c: ContactRow) => c.id == id
  }

  function FindContact(st: Store, id: nat): (r: Option<ContactRow>)
    ensures r.Some? ==> r.value in st.contacts && r.value.id == id
    ensures r.None? <==> forall i :: 0 <= i < |st.contacts| ==> st.contacts[i].id != id
  {
    Seqs.First(st.contacts, HasId(id))
  }

  function Forbidden(st: Store, cookie: Cookie): Outcome {
    Outcome(st, cookie, Response(403, Message(Unauthorized)))
  }

  /** `UPDATE contact_message SET is_read = 1 WHERE id = ?` on one row. */
  function MarkRead(id: nat): ContactRow -> ContactRow {
    (c: ContactRow) => if c.id == id then c.(isRead := true) else c
  }

  /** `mark_message`: administrators only; the message with the id is read
      afterwards, every other row is untouched, and the updated row is
      returned. An unknown id changes nothing and answers 404. */
  function MarkMessage(st: Store, cookie: Cookie, id: nat): (r: Outcome)
    ensures r.cookie == cookie
    ensures !IsAdmin(st, cookie) ==> r == Forbidden(st, cookie)
    ensures IsAdmin(st, cookie) ==>
              r.store == st.(contacts := r.store.contacts)
              && |r.store.contacts| == |st.contacts|
              && (forall i :: 0 <= i < |st.contacts| ==>
                    r.store.contacts[i] == (if st.contacts[i].id == id then st.contacts[i].(isRead := true) else st.contacts[i]))
              && (r.response.status == 404 <==> FindContact(st, id).None?)
              && (FindContact(st, id).None? ==> r.store == st && r.response.body == Message(MessageNotFound))
              && (FindContact(st, id).Some? ==>
                    r.response == Response(200, Marked("Message marked as read", FindContact(st, id).value.(isRead := true))))
    ensures Valid(st) ==> Valid(r.store)
  {
    if !IsAdmin(st, cookie) then Forbidden(st, cookie)
    else
      var st' := st.(contacts := Seqs.Map(st.contacts, MarkRead(id)));
      assert FindContact(st, id).None? ==> st'.contacts == st.contacts;
      MarkKeepsValid(st, id);
      match FindContact(st', id)
      case None => Outcome(st', cookie, Response(404, Message(MessageNotFound)))
      case Some(row) =>
        MarkedRowIsUnique(st, id, row);
        Outcome(st', cookie, Response(200, Marked("Message marked as read", row)))
  }

  lemma MarkKeepsValid(st: Store, id: nat)
    ensures Valid(st) ==> Valid(st.(contacts := Seqs.Map(st.contacts, MarkRead(id))))
  {
    if Valid(st) {
      Seqs.MapKeepsDistinct(st.contacts, MarkRead(id), ContactId);
    }
  }

  /** The row found after the update is the updated copy of the first row
      with the id; none is found exactly when none existed before. */
  lemma MarkedRowIsUnique(st: Store, id: nat, row: ContactRow)
    requires FindContact(st.(contacts := Seqs.Map(st.contacts, MarkRead(id))), id) == Some(row)
    ensures FindContact(st, id).Some? && row == FindContact(st, id).value.(isRead := true)
  {
    var cs := Seqs.Map(st.contacts, MarkRead(id));
    var k :| 0 <= k < |cs| && cs[k] == row;
    assert st.contacts[k].id == id;
    assert FindContact(st, id).Some?;
    FirstIsFirst(st.contacts, id);
    FirstIsFirst(cs, id);
  }

  /** `Seqs.First` on ids picks the earliest row with the id. */
  lemma {:induction false} FirstIsFirst(s: seq<ContactRow>, id: nat)
    requires exists i :: 0 <= i < |s| && s[i].id == id
    ensures exists i :: 0 <= i < |s| && s[i].id == id && Seqs.First(s, HasId(id)) == Some(s[i])
                        && forall j :: 0 <= j < i ==> s[j].id != id
  {
    if s[0].id == id {
      assert Seqs.First(s, HasId(id)) == Some(s[0]);
    } else {
      var i :| 0 <= i < |s| && s[i].id == id;
      assert s[1..][i - 1] == s[i];
      FirstIsFirst(s[1..], id);
      var m :| 0 <= m < |s[1..]| && s[1..][m].id == id && Seqs.First(s[1..], HasId(id)) == Some(s[1..][m])
               && forall j :: 0 <= j < m ==> s[1..][j].id != id;
      assert Seqs.First(s, HasId(id)) == Seqs.First(s[1..], HasId(id));
      assert s[m + 1] == s[1..][m];
      forall j | 0 <= j < m + 1
        ensures s[j].id != id
      {
        if j > 0 {
          assert s[j] == s[1..][j - 1];
        }
      }
    }
  }

  /** Marking is idempotent: a second mark of the same id changes nothing. */
  lemma MarkTwice(st: Store, cookie: Cookie, id: nat)
    ensures var once := MarkMessage(st, cookie, id).store;
            MarkMessage(once, cookie, id).store == once
  {
    var once := MarkMessage(st, cookie, id).store;
    if IsAdmin(st, cookie) {
      assert once.users == st.users;
      assert IsAdmin(once, cookie);
      var twice := MarkMessage(once, cookie, id).store;
      assert twice.contacts == once.contacts;
    }
  }

  function FlipRead(id: nat): ContactRow -> ContactRow {
    (c: ContactRow) => if c.id == id then c.(isRead := !c.isRead) else c
  }

  /** The read toggle the contact table expects of `/mark_message` (its
      button offers "Mark as unread" on read messages): the flag of the
      message with the id is inverted. */
  function ToggleMessage(st: Store, cookie: Cookie, id: nat): (r: Outcome)
    ensures r.cookie == cookie
    ensures !IsAdmin(st, cookie) ==> r == Forbidden(st, cookie)
    ensures IsAdmin(st, cookie) ==>
              r.store == st.(contacts := r.store.contacts)
              && |r.store.contacts| == |st.contacts|
              && (forall i :: 0 <= i < |st.contacts| ==>
                    r.store.contacts[i] == (if st.contacts[i].id == id then st.contacts[i].(isRead := !st.contacts[i].isRead) else st.contacts[i]))
              && (FindContact(st, id).None? ==> r == Outcome(st, cookie, Response(404, Message(MessageNotFound))))
              && (FindContact(st, id).Some? ==> r.response == Response(200, Message("Message status updated")))
    ensures Valid(st) ==> Valid(r.store)
  {
    if !IsAdmin(st, cookie) then Forbidden(st, cookie)
    else if FindContact(st, id).None? then
      assert Seqs.Map(st.contacts, FlipRead(id)) == st.contacts;
      Outcome(st, cookie, Response(404, Message(MessageNotFound)))
    else
      ToggleKeepsValid(st, id);
      Outcome(st.(contacts := Seqs.Map(st.contacts, FlipRead(id))), cookie, Response(200, Message("Message status updated")))
  }

  lemma ToggleKeepsValid(st: Store, id: nat)
    ensures Valid(st) ==> Valid(st.(contacts := Seqs.Map(st.contacts, FlipRead(id))))
  {
    if Valid(st) {
      Seqs.MapKeepsDistinct(st.contacts, FlipRead(id), ContactId);
    }
  }

  /** Two toggles of the same message restore the table. */
  lemma ToggleTwiceRestores(st: Store, cookie: Cookie, id: nat)
    ensures var once := ToggleMessage(st, cookie, id).store;
            ToggleMessage(once, cookie, id).store == st
  {
    var once := ToggleMessage(st, cookie, id).store;
    if IsAdmin(st, cookie) {
      assert once.users == st.users;
      var twice := ToggleMessage(once, cookie, id).store;
      assert twice.contacts == st.contacts;
    }
  }

  function OtherContact(id: nat): ContactRow -> bool {
    (c: ContactRow) => c.id != id
  }

  /** `delete_message`: administrators only; 404 exactly when no row has the
      id, otherwise every row with the id goes and the rest stay in order. */
  function DeleteMessage(st: Store, cookie: Cookie, id: nat): (r: Outcome)
    ensures r.cookie == cookie
    ensures !IsAdmin(st, cookie) ==> r == Forbidden(st, cookie)
    ensures IsAdmin(st, cookie) && FindContact(st, id).None? ==>
              r == Outcome(st, cookie, Response(404, Message(MessageNotFound)))
    ensures IsAdmin(st, cookie) && FindContact(st, id).Some? ==>
              r.response == Response(200, Message("Message deleted successfully"))
              && r.store == st.(contacts := Seqs.Filter(st.contacts, OtherContact(id)))
              && |r.store.contacts| < |st.contacts|
              && FindContact(r.store, id).None?
              && (forall i :: 0 <= i < |st.contacts| && st.contacts[i].id != id ==> st.contacts[i] in r.store.contacts)
    ensures Valid(st) ==> Valid(r.store)
  {
    if !IsAdmin(st, cookie) then Forbidden(st, cookie)
    else if FindContact(st, id).None? then Outcome(st, cookie, Response(404, Message(MessageNotFound)))
    else
      var st' := st.(contacts := Seqs.Filter(st.contacts, OtherContact(id)));
      DeleteShrinks(st.contacts, id);
      assert FindContact(st', id).None? by {
        forall i | 0 <= i < |st'.contacts|
          ensures st'.contacts[i].id != id
        {
          assert OtherContact(id)(st'.contacts[i]);
        }
      }
      DeleteKeepsValid(st, id);
      Outcome(st', cookie, Response(200, Message("Message deleted successfully")))
  }

  lemma DeleteKeepsValid(st: Store, id: nat)
    ensures Valid(st) ==> Valid(st.(contacts := Seqs.Filter(st.contacts, OtherContact(id))))
  {
    if Valid(st) {
      Seqs.FilterKeepsDistinct(st.contacts, OtherContact(id), ContactId);
    }
  }

  /** Removing the rows with an id that occurs shortens the table. */
  lemma {:induction false} DeleteShrinks(s: seq<ContactRow>, id: nat)
    requires exists i :: 0 <= i < |s| && s[i].id == id
    ensures |Seqs.Filter(s, OtherContact(id))| < |s|
  {
    var i :| 0 <= i < |s| && s[i].id == id;
    if i == 0 {
      assert |Seqs.Filter(s[1..], OtherContact(id))| <= |s[1..]|;
    } else {
      assert s[1..][i - 1] == s[i];
      DeleteShrinks(s[1..], id);
    }
  }

  /** `contact` (POST): anyone may write; all three fields are required, and
      the message is stored unread with the next id. */
  function ContactPost(st: Store, cookie: Cookie, name: Option<string>, email: Option<string>, message: Option<string>, now: nat): (r: Outcome)
    ensures r.cookie == cookie
    ensures Missing(name) || Missing(email) || Missing(message) ==>
              r == Outcome(st, cookie, Response(400, Message(FieldsRequired)))
    ensures !(Missing(name) || Missing(email) || Missing(message)) ==>
              r.response == Response(200, Message("Message sent successfully"))
              && r.store == st.(contacts := st.contacts + [ContactRow(st.nextContact, name.value, email.value, message.value, now, false)],
                                nextContact := st.nextContact + 1)
    ensures Valid(st) ==> Valid(r.store)
  {
    if Missing(name) || Missing(email) || Missing(message) then
      Outcome(st, cookie, Response(400, Message(FieldsRequired)))
    else
      var row := ContactRow(st.nextContact, name.value, email.value, message.value, now, false);
      AppendContactKeepsValid(st, row);
      Outcome(st.(contacts := st.contacts + [row], nextContact := st.nextContact + 1), cookie,
              Response(200, Message("Message sent successfully")))
  }

  lemma AppendContactKeepsValid(st: Store, row: ContactRow)
    requires row.id == st.nextContact
    ensures Valid(st) ==> Valid(st.(contacts := st.contacts + [row], nextContact := st.nextContact + 1))
  {
    if Valid(st) {
      var cs := st.contacts + [row];
      assert forall i :: 0 <= i < |st.contacts| ==> cs[i] == st.contacts[i];
      forall i, j | 0 <= i < j < |cs|
        ensures ContactId(cs[i]) != ContactId(cs[j])
      {
        if j == |st.contacts| {
          assert cs[i].id < st.nextContact;
        }
      }
    }
  }

  function ContactStamp(c: ContactRow): int { c.timestamp }

  /** `contact` (GET): administrators only; every stored message, newest
      first. */
  function ContactGet(st: Store, cookie: Cookie): (r: Response)
    ensures !IsAdmin(st, cookie) ==> r == Response(403, Message(Unauthorized))
    ensures IsAdmin(st, cookie) ==>
              r.status == 200 && r.body.MessagesBody?
              && multiset(r.body.messages) == multiset(st.contacts)
              && Seqs.SortedDesc(r.body.messages, ContactStamp)
  {
    if !IsAdmin(st, cookie) then Response(403, Message(Unauthorized))
    else Response(200, MessagesBody(Seqs.SortDesc(st.contacts, ContactStamp)))
  }

  /** A message posted by anyone shows up, unread, in the administrator's
      list. */
  lemma PostedMessageIsListed(st: Store, visitor: Cookie, admin: Cookie, name: string, email: string, message: string, now: nat)
    requires name != "" && email != "" && message != ""
    requires IsAdmin(st, admin)
    ensures var posted := ContactPost(st, visitor, Some(name), Some(email), Some(message), now).store;
            var listed := ContactGet(posted, admin);
            listed.status == 200
            && ContactRow(st.nextContact, name, email, message, now, false) in listed.body.messages
  {
    var row := ContactRow(st.nextContact, name, email, message, now, false);
    var posted := ContactPost(st, visitor, Some(name), Some(email), Some(message), now).store;
    assert posted.users == st.users;
    assert row in multiset(posted.contacts);
    var listed := ContactGet(posted, admin);
    assert row in multiset(listed.body.messages);
  }

  /** `admin_stats`: administrators only; the sizes of the user, session and
      conversation tables, with every session counted as one video. */
  function AdminStats(st: Store, cookie: Cookie): (r: Response)
    ensures !IsAdmin(st, cookie) ==> r == Response(403, Message(Unauthorized))
    ensures IsAdmin(st, cookie) ==>
              r == Response(200, Stats(|st.users|, |st.sessions|, |st.sessions|, |st.conversations|))
  {
    if !IsAdmin(st, cookie) then Response(403, Message(Unauthorized))
    else Response(200, Stats(|st.users|, |st.sessions|, |st.sessions|, |st.conversations|))
  }
}

=== FILE: backend_media.dfy ===
/** The pure helpers of the three Flask backends (`main.py`, `app.py`,
    `test.py`): the upload extension check, transcript formatting, the
    transcript and summary caches with each version's error handling, the
    download name and the `video_url` of a session. Speech recognition, the
    language model and the hash functions are inputs. */
module Media {
  import opened Wrappers
  import Text
  import Seqs

  /** The three versions of the backend differ in how a failed transcription,
      summary or answer is reported. */
  datatype Variant = Main | App | Test

  const AllowedExtensions: set<string> := {"mp4", "avi", "mov", "mkv", "webm"}

  /** `allowed_file`: a dot, and a lowercased text after the last dot that is
      one of the video extensions. */
  function AllowedFile(filename: string): bool {
    '.' in filename && Text.Lower(Text.AfterLast(filename, '.')) in AllowedExtensions
  }

  /** `k` is the position of the last dot of `filename`. */
  predicate LastDotAt(filename: string, k: nat) {
    k < |filename| && filename[k] == '.' && '.' !in filename[k + 1..]
  }

  /** The text after the last dot is what follows the last dot's position. */
  lemma AfterLastDot(filename: string, k: nat)
    requires LastDotAt(filename, k)
    ensures Text.AfterLast(filename, '.') == filename[k + 1..]
  {
    var ext := filename[k + 1..];
    assert filename == filename[..k] + ['.'] + ext;
    Text.AfterLastAppend(filename[..k], '.', ext);
    Text.AfterLastAbsent(ext, '.');
  }

  /** A name with a dot has a last dot. */
  lemma LastDotExists(filename: string) returns (k: nat)
    requires '.' in filename
    ensures LastDotAt(filename, k)
  {
    var ext := Text.AfterLast(filename, '.');
    k := |filename| - |ext| - 1;
    assert filename[k + 1..] == ext;
  }

  /** A file is accepted exactly when its last dot is followed by an
      extension in the allowed set. The extension is read
      case-insensitively, so `clip.MP4` is accepted, while `mp4` (no dot)
      and `clip.mp4.txt` (a second extension after the video one) are
      refused. */
  lemma AllowedFileIff(filename: string)
    ensures AllowedFile(filename) <==>
              exists k: nat :: LastDotAt(filename, k) && Text.Lower(filename[k + 1..]) in AllowedExtensions
  {
    if AllowedFile(filename) {
      var k := LastDotExists(filename);
      AfterLastDot(filename, k);
    }
    if exists k: nat :: LastDotAt(filename, k) && Text.Lower(filename[k + 1..]) in AllowedExtensions {
      var k: nat :| LastDotAt(filename, k) && Text.Lower(filename[k + 1..]) in AllowedExtensions;
      AfterLastDot(filename, k);
    }
  }

  /** `H:MM:SS` for `n` seconds of one day, as `str(timedelta)` prints it. */
  function Hms(n: nat): (r: string)
    requires n < 86400
    ensures ParseHms(r) == Some(n)
  {
    var h := Text.NatToString(n / 3600);
    var m := Text.Pad2(n % 3600 / 60);
    var s := Text.Pad2(n % 60);
    Text.ParseNatToString(n / 3600);
    HmsDigits(n);
    SplitThree(h, m, s);
    h + ":" + m + ":" + s
  }

  /** Hours, minutes and seconds recombine into the number of seconds. */
  lemma HmsDigits(n: nat)
    requires n < 86400
    ensures n % 3600 / 60 < 60 && n % 60 < 60
    ensures (n / 3600) * 3600 + (n % 3600 / 60) * 60 + n % 60 == n
  {
  }

  /** Three colon-free pieces joined by colons split back into the pieces. */
  lemma SplitThree(h: string, m: string, s: string)
    requires Text.ParseNat(h).Some? && Text.ParseNat(m).Some? && Text.ParseNat(s).Some?
    ensures Text.Split(h + ":" + m + ":" + s, ':') == [h, m, s]
  {
    Text.DigitsExclude(h, ':');
    Text.DigitsExclude(m, ':');
    Text.DigitsExclude(s, ':');
    Text.SplitJoin([h, m, s], ':');
    assert [h, m, s][1..] == [m, s] && [m, s][1..] == [s];
    assert Text.Join([m, s], ':') == m + [':'] + s;
    assert Text.Join([h, m, s], ':') == h + ":" + m + ":" + s;
  }

  /** Reads `H:MM:SS` back into seconds. */
  function ParseHms(text: string): Option<nat> {
    var parts := Text.Split(text, ':');
    if |parts| != 3 || |parts[1]| != 2 || |parts[2]| != 2 then None
    else
      match (Text.ParseNat(parts[0]), Text.ParseNat(parts[1]), Text.ParseNat(parts[2]))
      case (Some(h), Some(m), Some(s)) => if m < 60 && s < 60 then Some(h * 3600 + m * 60 + s) else None
      case _ => None
  }

  /** `str(timedelta(seconds=n))`: under a day, `H:MM:SS`; from a day on,
      the day count and `day`/`days` come first. */
  function Clock(n: nat): (r: string)
    ensures n < 86400 ==> ParseHms(r) == Some(n)
    ensures n >= 86400 ==>
              var d := Text.NatToString(n / 86400);
              var unit := if n / 86400 == 1 then " day, " else " days, ";
              |r| > |d| + |unit| && r[..|d| + |unit|] == d + unit
              && ParseHms(r[|d| + |unit|..]) == Some(n % 86400)
  {
    var days := n / 86400;
    if days == 0 then Hms(n)
    else
      var d := Text.NatToString(days);
      var unit := if days == 1 then " day, " else " days, ";
      var hms := Hms(n % 86400);
      assert (d + unit + hms)[..|d| + |unit|] == d + unit;
      assert (d + unit + hms)[|d| + |unit|..] == hms;
      d + unit + hms
  }

  lemma HmsHasNoNewline(n: nat)
    requires n < 86400
    ensures '\n' !in Hms(n)
  {
    var h := Text.NatToString(n / 3600);
    Text.ParseNatToString(n / 3600);
    Text.DigitsExclude(h, '\n');
    Text.DigitsExclude(Text.Pad2(n % 3600 / 60), '\n');
    Text.DigitsExclude(Text.Pad2(n % 60), '\n');
  }

  /** The rendered clock holds digits, colons and the day words only. */
  lemma ClockHasNoNewline(n: nat)
    ensures '\n' !in Clock(n)
  {
    var days := n / 86400;
    HmsHasNoNewline(n % 86400);
    if days == 0 {
      assert Clock(n) == Hms(n);
    } else {
      var d := Text.NatToString(days);
      var unit := if days == 1 then " day, " else " days, ";
      Text.ParseNatToString(days);
      Text.DigitsExclude(d, '\n');
      assert '\n' !in unit;
      assert Clock(n) == d + unit + Hms(n % 86400);
    }
  }

  /** A recognised segment after `int()` truncation of its times. */
  datatype Segment = Segment(start: nat, end: nat, text: string)

  /** One transcript line: `[start - end] text` with the text stripped. */
  function Line(s: Segment): (r: string)
    ensures |r| > 0 && r[0] == '['
    ensures Text.Trim(r, Text.PySpace) != ""
    ensures var a, b, t := Clock(s.start), Clock(s.end), Text.Trim(s.text, Text.PySpace);
            |r| == 6 + |a| + |b| + |t|
            && r[1..1 + |a|] == a && r[1 + |a|..4 + |a|] == " - "
            && r[4 + |a|..4 + |a| + |b|] == b && r[4 + |a| + |b|..6 + |a| + |b|] == "] "
            && r[6 + |a| + |b|..] == t
  {
    Bracketed(Clock(s.start), Clock(s.end), Text.Trim(s.text, Text.PySpace))
  }

  /** The line layout `[a - b] t`, with where each piece sits. */
  function Bracketed(a: string, b: string, t: string): (r: string)
    ensures |r| > 0 && r[0] == '[' && Text.Trim(r, Text.PySpace) != ""
    ensures |r| == 6 + |a| + |b| + |t|
    ensures r[1..1 + |a|] == a && r[1 + |a|..4 + |a|] == " - "
    ensures r[4 + |a|..4 + |a| + |b|] == b && r[4 + |a| + |b|..6 + |a| + |b|] == "] "
    ensures r[6 + |a| + |b|..] == t
  {
    LinePieces(a, b, t);
    "[" + a + " - " + b + "] " + t
  }

  /** Where each piece of a line sits. */
  lemma LinePieces(a: string, b: string, t: string)
    ensures var r := "[" + a + " - " + b + "] " + t;
            r[0] == '[' && Text.Trim(r, Text.PySpace) != ""
            && |r| == 6 + |a| + |b| + |t|
            && r[1..1 + |a|] == a && r[1 + |a|..4 + |a|] == " - "
            && r[4 + |a|..4 + |a| + |b|] == b && r[4 + |a| + |b|..6 + |a| + |b|] == "] "
            && r[6 + |a| + |b|..] == t
  {
    var r := "[" + a + " - " + b + "] " + t;
    var x := "[" + a + " - " + b + "] ";
    assert r == x + t;
    assert r[6 + |a| + |b|..] == t;
    var y := "[" + a + " - " + b;
    assert x == y + "] ";
    assert r[4 + |a| + |b|..6 + |a| + |b|] == x[4 + |a| + |b|..] == "] ";
    assert r[4 + |a|..4 + |a| + |b|] == y[4 + |a|..] == b;
    var z := "[" + a + " - ";
    assert y == z + b;
    assert r[1 + |a|..4 + |a|] == z[1 + |a|..] == " - ";
    assert r[1..1 + |a|] == z[1..1 + |a|] == a;
    assert r[0] == '[' && !Text.PySpace('[');
    Text.NotBlankWhenFirstNonSpace(r, Text.PySpace);
  }

  /** Within a day, both times read back out of a line as the segment's
      seconds, from the text between `[` and ` - ` and between ` - ` and
      `] `. */
  lemma LineTimesReadBack(s: Segment)
    requires s.start < 86400 && s.end < 86400
    ensures var r, a := Line(s), |Clock(s.start)|;
            var b := |Clock(s.end)|;
            ParseHms(r[1..1 + a]) == Some(s.start) && ParseHms(r[4 + a..4 + a + b]) == Some(s.end)
  {
  }

  /** A line breaks only where its stripped text does. */
  lemma LineHasNoNewline(s: Segment)
    requires '\n' !in Text.Trim(s.text, Text.PySpace)
    ensures '\n' !in Line(s)
  {
    var c1 := Clock(s.start);
    var c2 := Clock(s.end);
    var t := Text.Trim(s.text, Text.PySpace);
    ClockHasNoNewline(s.start);
    ClockHasNoNewline(s.end);
    assert '\n' !in "[" && '\n' !in " - " && '\n' !in "] ";
    var a := "[" + c1;
    var b := a + " - ";
    var c := b + c2;
    var d := c + "] ";
    assert '\n' !in a && '\n' !in b && '\n' !in c && '\n' !in d;
    assert Line(s) == d + t;
  }

  const NoTranscription := "No transcription available."
  const TranscriptionError := "Error in transcription process."
  const SummaryError := "Error in summarization process."
  const AnswerError := "Error in processing your question."

  /** The lines joined with newlines, or the placeholder when that is blank. */
  function Transcript(segments: seq<Segment>): (r: string)
    ensures r == NoTranscription <==> |segments| == 0
  {
    var joined := Text.Join(Seqs.Map(segments, Line), '\n');
    JoinedBlankIff(segments);
    if Text.Trim(joined, Text.PySpace) == "" then NoTranscription else joined
  }

  /** The joined lines are blank exactly when there are none, and otherwise
      start with the first line's bracket. */
  lemma JoinedBlankIff(segments: seq<Segment>)
    ensures var joined := Text.Join(Seqs.Map(segments, Line), '\n');
            (Text.Trim(joined, Text.PySpace) == "" <==> |segments| == 0)
            && (|segments| > 0 ==> joined[0] == '[')
  {
    var lines := Seqs.Map(segments, Line);
    var joined := Text.Join(lines, '\n');
    if |segments| == 0 {
      Text.TrimEmptyIff(joined, Text.PySpace);
    } else {
      JoinStartsWithFirst(lines, '\n');
      assert joined[0] == lines[0][0] == '[';
      Text.NotBlankWhenFirstNonSpace(joined, Text.PySpace);
    }
  }

  /** When no stripped segment text holds a line break, splitting the
      transcript at line breaks gives back one line per segment, in order. */
  lemma TranscriptLines(segments: seq<Segment>)
    requires |segments| > 0
    requires forall i :: 0 <= i < |segments| ==> '\n' !in Text.Trim(segments[i].text, Text.PySpace)
    ensures Text.Split(Transcript(segments), '\n') == Seqs.Map(segments, Line)
  {
    var lines := Seqs.Map(segments, Line);
    forall i | 0 <= i < |lines|
      ensures '\n' !in lines[i]
    {
      LineHasNoNewline(segments[i]);
    }
    Text.SplitJoin(lines, '\n');
  }

  /** A transcript is never the error text: it is the placeholder or starts
      with a bracket. */
  lemma TranscriptIsNotError(t: Transcription)
    ensures t.Segments? ==> Transcript(t.segments) != TranscriptionError
  {
    if t.Segments? {
      JoinedBlankIff(t.segments);
      assert TranscriptionError[0] == 'E';
      if |t.segments| == 0 {
        assert NoTranscription[0] == 'N';
      }
    }
  }

  /** A joined list starts with its first part. */
  lemma JoinStartsWithFirst(parts: seq<string>, sep: char)
    requires |parts| > 0
    ensures |Text.Join(parts, sep)| >= |parts[0]|
    ensures Text.Join(parts, sep)[..|parts[0]|] == parts[0]
  {
    if |parts| > 1 {
      assert Text.Join(parts, sep) == parts[0] + ([sep] + Text.Join(parts[1..], sep));
    }
  }

  /** What the recogniser produced, or an exception inside it with the
      exception's text (`str(e)`). */
  datatype Transcription = Segments(segments: seq<Segment>) | Failed(reason: string)

  /** Transcript and summary caches share one keyed store. Expiry is not
      modelled: an entry, once present, stays. */
  type Cache = map<string, string>

  function TranscriptKey(path: string): string {
    "transcript_" + path
  }

  /** The transcript processing goes on with when transcription does not
      raise: outside `main.py` the text cached for the path, otherwise the
      recogniser's transcript or the error text in its place. */
  function Heard(v: Variant, cache: Cache, path: string, t: Transcription): string {
    if v != Main && TranscriptKey(path) in cache then cache[TranscriptKey(path)]
    else if t.Failed? then TranscriptionError
    else Transcript(t.segments)
  }

  /** `transcribe_video`. `main.py` has no cache and returns the error text;
      `app.py` and `test.py` answer a cached path from the cache, cache a new
      transcript, and on failure return the error text (`app.py`) or raise
      (`test.py`), caching nothing. */
  function Transcribe(v: Variant, cache: Cache, path: string, t: Transcription): (r: (Result<string>, Cache))
    ensures v == Main ==> r.1 == cache
    ensures v == Main ==> r.0 == Ok(if t.Failed? then TranscriptionError else Transcript(t.segments))
    ensures v != Main && TranscriptKey(path) in cache ==> r == (Ok(cache[TranscriptKey(path)]), cache)
    ensures v != Main && TranscriptKey(path) !in cache && t.Segments? ==>
              r == (Ok(Transcript(t.segments)), cache[TranscriptKey(path) := Transcript(t.segments)])
    ensures v != Main && TranscriptKey(path) !in cache && t.Failed? ==>
              r.1 == cache && (v == App ==> r.0 == Ok(TranscriptionError)) && (v == Test ==> r.0 == Err(t.reason))
    ensures r.0.Err? ==> v.Test? && t.Failed? && r.0.message == t.reason
    ensures r.0.Ok? ==> r.0.value == Heard(v, cache, path, t)
    ensures r.0.Err? <==> v.Test? && t.Failed? && TranscriptKey(path) !in cache
    ensures forall k :: k != TranscriptKey(path) ==> (k in r.1 <==> k in cache) && (k in cache ==> r.1[k] == cache[k])
  {
    var key := TranscriptKey(path);
    if v == Main then (Ok(if t.Failed? then TranscriptionError else Transcript(t.segments)), cache)
    else if key in cache then (Ok(cache[key]), cache)
    else match t
      case Segments(segs) => (Ok(Transcript(segs)), cache[key := Transcript(segs)])
      case Failed(reason) => if v == App then (Ok(TranscriptionError), cache) else (Err(reason), cache)
  }

  /** A second transcription of the same path returns the first result,
      whatever the recogniser would do this time. */
  lemma TranscriptCacheHit(v: Variant, cache: Cache, path: string, first: seq<Segment>, second: Transcription)
    requires v != Main
    ensures var (r1, c1) := Transcribe(v, cache, path, Segments(first));
            Transcribe(v, c1, path, second) == (r1, c1)
  {
  }

  function SummaryKey(md5: string -> string, transcript: string): string {
    "summary_" + md5(transcript)
  }

  /** No summary key is a transcript key: the prefixes differ. */
  lemma KeysDiffer(path: string, md5: string -> string, transcript: string)
    ensures TranscriptKey(path) != SummaryKey(md5, transcript)
  {
    assert TranscriptKey(path)[0] != SummaryKey(md5, transcript)[0];
  }

  /** The summary stored when summarising does not raise: outside `main.py`
      the text cached for the transcript, otherwise the model's text or the
      error text in its place. */
  function Summary(v: Variant, cache: Cache, md5: string -> string, transcript: string, model: Result<string>): string {
    if v != Main && SummaryKey(md5, transcript) in cache then cache[SummaryKey(md5, transcript)]
    else if model.Ok? then model.value
    else SummaryError
  }

  /** `summarize_text`, given the model's outcome. `main.py` has no cache and
      returns the error text; the other two cache a success under the MD5 of
      the transcript and on failure return the error text (`app.py`) or raise
      (`test.py`) without caching. */
  function Summarize(v: Variant, cache: Cache, md5: string -> string, transcript: string, model: Result<string>): (r: (Result<string>, Cache))
    ensures v == Main ==> r == (Ok(if model.Ok? then model.value else SummaryError), cache)
    ensures v != Main && SummaryKey(md5, transcript) in cache ==> r == (Ok(cache[SummaryKey(md5, transcript)]), cache)
    ensures v != Main && SummaryKey(md5, transcript) !in cache && model.Ok? ==>
              r == (Ok(model.value), cache[SummaryKey(md5, transcript) := model.value])
    ensures v != Main && SummaryKey(md5, transcript) !in cache && model.Err? ==>
              r.1 == cache && (v == App ==> r.0 == Ok(SummaryError)) && (v == Test ==> r.0 == Err(model.message))
    ensures r.0.Err? ==> v.Test? && model.Err? && r.0.message == model.message
    ensures r.0.Ok? ==> r.0.value == Summary(v, cache, md5, transcript, model)
    ensures r.0.Err? <==> v.Test? && model.Err? && SummaryKey(md5, transcript) !in cache
  {
    var key := SummaryKey(md5, transcript);
    if v == Main then (Ok(if model.Ok? then model.value else SummaryError), cache)
    else if key in cache then (Ok(cache[key]), cache)
    else match model
      case Ok(text) => (Ok(text), cache[key := text])
      case Err(e) => if v == App then (Ok(SummaryError), cache) else (Err(e), cache)
  }

  /** A second summary of the same transcript returns the first one, whatever
      the language model would answer this time. */
  lemma SummaryCacheHit(v: Variant, cache: Cache, md5: string -> string, transcript: string, first: string, second: Result<string>)
    requires v != Main
    ensures var (r1, c1) := Summarize(v, cache, md5, transcript, Ok(first));
            Summarize(v, c1, md5, transcript, second) == (r1, c1)
  {
  }

  /** A failed summary leaves the cache as it was, so the next call asks the
      model again and a success is then kept. */
  lemma FailedSummaryRetried(v: Variant, cache: Cache, md5: string -> string, transcript: string, error: string, later: string)
    requires v != Main && SummaryKey(md5, transcript) !in cache
    ensures var (_, c1) := Summarize(v, cache, md5, transcript, Err(error));
            Summarize(v, c1, md5, transcript, Ok(later)) == (Ok(later), cache[SummaryKey(md5, transcript) := later])
  {
  }

  /** `answer_question`: the model's text, or the error text in its place
      (the same in all three versions). */
  function Answer(model: Result<string>): (r: string)
    ensures model.Err? ==> r == AnswerError
    ensures model.Ok? ==> r == model.value
  {
    if model.Ok? then model.value else AnswerError
  }

  predicate IsAsciiAlnum(c: char) {
    'a' <= c <= 'z' || 'A' <= c <= 'Z' || '0' <= c <= '9'
  }

  /** `re.sub(r'[^a-zA-Z0-9]', '_', title)`: same length, letters and digits
      kept in place, everything else an underscore. */
  function SafeTitle(title: string): (r: string)
    ensures |r| == |title|
    ensures forall i :: 0 <= i < |title| ==> (IsAsciiAlnum(title[i]) ==> r[i] == title[i]) && (!IsAsciiAlnum(title[i]) ==> r[i] == '_')
  {
    Seqs.Map(title, (c: char) => if IsAsciiAlnum(c) then c else '_')
  }

  /** The attachment name of a transcript download. */
  function DownloadName(title: string): (r: string)
    ensures |r| == |title| + 15 && r[|title|..] == "_transcript.txt"
    ensures forall i :: 0 <= i < |r| ==> IsAsciiAlnum(r[i]) || r[i] == '_' || r[i] == '.'
  {
    var r := SafeTitle(title) + "_transcript.txt";
    assert forall i :: |title| <= i < |r| ==> r[i] == "_transcript.txt"[i - |title|];
    r
  }

  /** The text of the downloaded file. */
  function DownloadText(title: string, transcript: string): (r: string)
    ensures |r| == 16 + |title| + 2 + |transcript| && r[|r| - |transcript|..] == transcript
  {
    "Transcript for: " + title + "\n\n" + transcript
  }

  const EmbedPrefix := "https://www.youtube.com/embed/"

  /** `video_url` of `/results`: the embed of a YouTube session's id, else the
      served upload named by the last segment of the stored path, else none. */
  function VideoUrl(isYoutube: bool, youtubeId: Option<string>, videoPath: Option<string>, hostUrl: string): (r: Option<string>)
    ensures isYoutube && youtubeId.Some? && youtubeId.value != "" ==> r == Some(EmbedPrefix + youtubeId.value)
    ensures !(isYoutube && youtubeId.Some? && youtubeId.value != "") && videoPath.Some? && videoPath.value != "" ==>
              r.Some? && |r.value| >= |hostUrl| + 8 && '/' !in r.value[|hostUrl| + 8..]
              && r.value[..|hostUrl| + 8] == hostUrl + "uploads/"
    ensures r.None? <==> !(isYoutube && youtubeId.Some? && youtubeId.value != "") && !(videoPath.Some? && videoPath.value != "")
  {
    if isYoutube && youtubeId.Some? && youtubeId.value != "" then Some(EmbedPrefix + youtubeId.value)
    else if videoPath.Some? && videoPath.value != "" then
      var r := hostUrl + "uploads/" + Text.AfterLast(videoPath.value, '/');
      assert r[|hostUrl| + 8..] == Text.AfterLast(videoPath.value, '/');
      Some(r)
    else None
  }

  /** An upload is served under the name it was stored with. */
  lemma UploadUrlNamesStoredFile(dir: string, name: string, hostUrl: string)
    requires '/' !in name
    ensures VideoUrl(false, None, Some(dir + "/" + name), hostUrl) == Some(hostUrl + "uploads/" + name)
  {
    assert dir + "/" + name == dir + ['/'] + name;
    Text.AfterLastAppend(dir, '/', name);
    Text.AfterLastAbsent(name, '/');
  }
}

=== FILE: backend_store.dfy ===
/** The database and the request context shared by the Flask handlers of
    `main.py`, `app.py` and `test.py`: the four tables, the signed cookie's
    `user_id`, the responses, and the guards every handler starts with.
    Tables are sequences in insertion order; AUTOINCREMENT ids come from
    counters and `CURRENT_TIMESTAMP` is a parameter of each insert. */
module Backend {
  import opened Wrappers
  import Seqs
  import Text
  import Media

  datatype UserRow = UserRow(id: nat, username: string, email: string, passwordHash: string, isAdmin: bool)

  datatype SessionRow = SessionRow(
    id: string,
    userId: nat,
    title: string,
    timestamp: nat,
    isYoutube: bool,
    videoPath: Option<string>,
    youtubeId: Option<string>,
    transcript: string,
    summary: string)

  datatype ConversationRow = ConversationRow(id: nat, sessionId: string, question: string, answer: string, timestamp: nat)

  datatype ContactRow = ContactRow(id: nat, name: string, email: string, message: string, timestamp: nat, isRead: bool)

  datatype Store = Store(
    users: seq<UserRow>,
    sessions: seq<SessionRow>,
    conversations: seq<ConversationRow>,
    contacts: seq<ContactRow>,
    nextUser: nat,
    nextConversation: nat,
    nextContact: nat,
    cache: Media.Cache)

  /** The `user_id` of Flask's signed session cookie, if any. */
  type Cookie = Option<nat>

  function UserId(u: UserRow): nat { u.id }
  function UserEmail(u: UserRow): string { u.email }
  function SessionId(s: SessionRow): string { s.id }
  function ConversationId(c: ConversationRow): nat { c.id }
  function ContactId(c: ContactRow): nat { c.id }

  ghost predicate HasSession(st: Store, id: string) {
    exists j :: 0 <= j < |st.sessions| && st.sessions[j].id == id
  }

  /** The table constraints: primary keys and the UNIQUE email are unique,
      AUTOINCREMENT ids lie below their counters, and every conversation
      belongs to a stored session. */
  ghost predicate Valid(st: Store) {
    Seqs.DistinctBy(st.users, UserId) && Seqs.DistinctBy(st.users, UserEmail)
    && (forall i :: 0 <= i < |st.users| ==> st.users[i].id < st.nextUser)
    && Seqs.DistinctBy(st.sessions, SessionId)
    && Seqs.DistinctBy(st.conversations, ConversationId)
    && (forall i :: 0 <= i < |st.conversations| ==> st.conversations[i].id < st.nextConversation)
    && (forall i :: 0 <= i < |st.conversations| ==> HasSession(st, st.conversations[i].sessionId))
    && Seqs.DistinctBy(st.contacts, ContactId)
    && (forall i :: 0 <= i < |st.contacts| ==> st.contacts[i].id < st.nextContact)
  }

  const AdminEmail := "admin@example.com"
  const AdminPassword := "admin123"

  /** `init_db` on an empty database: the administrator account is user 1. */
  function Init(sha256: string -> string): (st: Store)
    ensures Valid(st)
    ensures |st.users| == 1 && st.users[0].isAdmin && st.users[0].email == AdminEmail
    ensures st.users[0].passwordHash == sha256(AdminPassword)
    ensures st.sessions == [] && st.conversations == [] && st.contacts == []
  {
    Store([UserRow(1, "Admin", AdminEmail, sha256(AdminPassword), true)], [], [], [], 2, 1, 1, map[])
  }

  function FindUser(st: Store, id: nat): (r: Option<UserRow>)
    ensures r.Some? ==> r.value in st.users && r.value.id == id
    ensures r.None? <==> forall i :: 0 <= i < |st.users| ==> st.users[i].id != id
  {
    Seqs.First(st.users, (u: UserRow) => u.id == id)
  }

  function FindSession(st: Store, id: string): (r: Option<SessionRow>)
    ensures r.Some? ==> r.value in st.sessions && r.value.id == id
    ensures r.None? <==> !HasSession(st, id)
  {
    Seqs.First(st.sessions, (s: SessionRow) => s.id == id)
  }

  /** `is_authenticated()`: the cookie carries a user id. */
  predicate IsAuthenticated(cookie: Cookie) {
    cookie.Some?
  }

  /** `is_admin()`: the cookie's user exists and is an administrator. */
  predicate IsAdmin(st: Store, cookie: Cookie) {
    cookie.Some? && FindUser(st, cookie.value).Some? && FindUser(st, cookie.value).value.isAdmin
  }

  /** The fields login and signup return. */
  datatype PublicUser = PublicUser(id: nat, username: string, email: string, isAdmin: bool)

  function Public(u: UserRow): PublicUser {
    PublicUser(u.id, u.username, u.email, u.isAdmin)
  }

  /** A `/history` entry. */
  datatype HistoryItem = HistoryItem(
    id: string, title: string, timestamp: nat, isYoutube: bool,
    youtubeId: Option<string>, videoPath: Option<string>, conversationCount: nat)

  /** The JSON bodies the handlers return. */
  datatype Body =
    | Message(text: string)
    | SignedIn(message: string, user: PublicUser)
    | UserRecord(row: UserRow)
    | CurrentUser(user: PublicUser)
    | Processed(message: string, sessionId: string)
    | ResultsBody(session: SessionRow, conversations: seq<ConversationRow>, videoUrl: Option<string>)
    | AnswerBody(answer: string, conversationId: nat)
    | Attachment(downloadName: string, text: string)
    | HistoryBody(sessions: seq<HistoryItem>)
    | Marked(message: string, data: ContactRow)
    | MessagesBody(messages: seq<ContactRow>)
    | Stats(totalUsers: nat, totalSessions: nat, totalVideos: nat, totalQuestions: nat)

  datatype Response = Response(status: nat, body: Body)

  /** A handler's effect: the new store, the new cookie and the response. */
  datatype Outcome = Outcome(store: Store, cookie: Cookie, response: Response)

  const AuthRequired := "Authentication required"
  const NotFound := "Session not found"
  const Unauthorized := "Unauthorized"

  /** `not x` on an optional JSON string: missing or empty. */
  predicate Missing(field: Option<string>) {
    field.None? || !Text.Truthy(field.value)
  }

  /** The guard of every per-session route: 401 without a cookie, then 404
      for an unknown id, then 403 unless the caller owns the session or is an
      administrator. */
  datatype Access = Denied(response: Response) | Granted(row: SessionRow)

  function Authorize(st: Store, cookie: Cookie, sessionId: string): (a: Access)
    ensures !IsAuthenticated(cookie) ==> a == Denied(Response(401, Message(AuthRequired)))
    ensures IsAuthenticated(cookie) && !HasSession(st, sessionId) ==> a == Denied(Response(404, Message(NotFound)))
    ensures IsAuthenticated(cookie) && HasSession(st, sessionId) ==>
              (a.Granted? <==> FindSession(st, sessionId).value.userId == cookie.value || IsAdmin(st, cookie))
    ensures a.Denied? ==> a.response.status in {401, 403, 404}
    ensures a.Denied? && a.response.status == 403 ==> a.response.body == Message(Unauthorized)
    ensures a.Granted? ==> a.row in st.sessions && a.row.id == sessionId
  {
    if !IsAuthenticated(cookie) then Denied(Response(401, Message(AuthRequired)))
    else match FindSession(st, sessionId)
      case None => Denied(Response(404, Message(NotFound)))
      case Some(row) =>
        if row.userId != cookie.value && !IsAdmin(st, cookie) then Denied(Response(403, Message(Unauthorized)))
        else Granted(row)
  }

  /** With unique session ids, the session found is the only one with its id. */
  lemma FoundSessionIsUnique(st: Store, id: string, i: nat)
    requires Valid(st) && i < |st.sessions| && st.sessions[i].id == id
    ensures FindSession(st, id) == Some(st.sessions[i])
  {
    var r := FindSession(st, id).value;
    var j :| 0 <= j < |st.sessions| && st.sessions[j] == r;
    if j != i {
      assert false;
    }
  }
}

=== FILE: backend_totals.dfy ===
/** The administrator's totals (`admin_stats`) against the handlers that
    change the tables they count: a signup adds one user, a processed video
    one session and one video, an answered question one question, and a
    deleted session takes itself and its questions out of the totals. The
    administrator stays one throughout, since no handler here touches an
    existing user row. */
module Totals {
  import opened Wrappers
  import opened Backend
  import Seqs
  import Media
  import Accounts
  import Videos
  import Admin

  /** The four totals the administrator's page shows for a store. */
  function Shown(st: Store, admin: Cookie): Body
    requires IsAdmin(st, admin)
  {
    Admin.AdminStats(st, admin).body
  }

  /** A successful signup adds exactly one to the user total and leaves the
      other totals as they were; a refused one changes nothing. */
  lemma SignupCountsOneUser(st: Store, admin: Cookie, cookie: Cookie, username: Option<string>, email: Option<string>, password: Option<string>, sha256: string -> string)
    requires IsAdmin(st, admin)
    ensures var r := Accounts.Signup(st, cookie, true, username, email, password, sha256);
            IsAdmin(r.store, admin)
            && Shown(r.store, admin)
               == (var before := Shown(st, admin);
                   if r.response.status == 200 then before.(totalUsers := before.totalUsers + 1) else before)
  {
    var r := Accounts.Signup(st, cookie, true, username, email, password, sha256);
    if r.response.status == 200 {
      var u := UserRow(st.nextUser, username.value, email.value, sha256(password.value), false);
      Seqs.FirstAppend(st.users, [u], (x: UserRow) => x.id == admin.value);
      assert FindUser(r.store, admin.value) == FindUser(st, admin.value);
    }
  }

  /** A processed video adds exactly one session and one video; a refused or
      failed one changes no total. Users and questions never change. */
  lemma ProcessCountsOneVideo(v: Media.Variant, st: Store, admin: Cookie, cookie: Cookie, form: Videos.ProcessForm, w: Videos.World, sessionId: string, now: nat, md5: string -> string)
    requires IsAdmin(st, admin)
    ensures var r := Videos.Process(v, st, cookie, form, w, sessionId, now, md5);
            IsAdmin(r.store, admin)
            && Shown(r.store, admin)
               == (var before := Shown(st, admin);
                   if Videos.Stored(r)
                   then before.(totalSessions := before.totalSessions + 1, totalVideos := before.totalVideos + 1)
                   else before)
  {
    var r := Videos.Process(v, st, cookie, form, w, sessionId, now, md5);
    assert FindUser(r.store, admin.value) == FindUser(st, admin.value);
  }

  /** An answered question adds exactly one to the question total; a refused
      or failed one changes nothing. */
  lemma AskCountsOneQuestion(v: Media.Variant, st: Store, admin: Cookie, cookie: Cookie, sessionId: Option<string>, question: Option<string>, model: Result<string>, now: nat)
    requires IsAdmin(st, admin)
    ensures var r := Videos.Ask(v, st, cookie, sessionId, question, model, now);
            IsAdmin(r.store, admin)
            && Shown(r.store, admin)
               == (var before := Shown(st, admin);
                   if r.response.status == 200 then before.(totalQuestions := before.totalQuestions + 1) else before)
  {
    var r := Videos.Ask(v, st, cookie, sessionId, question, model, now);
    assert FindUser(r.store, admin.value) == FindUser(st, admin.value);
  }

  /** The cascade of a deletion removes one session row and every row of
      the session's questions. */
  lemma CascadeSizes(st: Store, sessionId: string, i: nat)
    requires Valid(st) && i < |st.sessions| && st.sessions[i].id == sessionId
    ensures |Seqs.Filter(st.sessions, Videos.OtherSession(sessionId))| == |st.sessions| - 1
    ensures |Seqs.Filter(st.conversations, Videos.NotInSession(sessionId))|
            == |st.conversations| - Seqs.Count(st.conversations, Videos.InSession(sessionId))
  {
    Seqs.FilterOutUniqueKey(st.sessions, Videos.OtherSession(sessionId), SessionId, sessionId, i);
    Seqs.FilterPartition(st.conversations, Videos.NotInSession(sessionId), Videos.InSession(sessionId));
  }

  /** An authorised deletion leaves the administrator in place and the
      totals reduced by the cascade. */
  lemma GrantedDeletion(st: Store, admin: Cookie, cookie: Cookie, sessionId: string)
    requires Valid(st) && IsAdmin(st, admin) && Authorize(st, cookie, sessionId).Granted?
    ensures var after := Videos.DeleteSession(st, cookie, sessionId).store;
            IsAdmin(after, admin)
            && Shown(after, admin)
               == Stats(|st.users|, |st.sessions| - 1, |st.sessions| - 1,
                        |st.conversations| - Seqs.Count(st.conversations, Videos.InSession(sessionId)))
  {
    var row := Authorize(st, cookie, sessionId).row;
    var after := Videos.DeleteSession(st, cookie, sessionId).store;
    assert after.users == st.users;
    var i :| 0 <= i < |st.sessions| && st.sessions[i] == row;
    CascadeSizes(st, sessionId, i);
  }

  /** Deleting a session takes exactly one session and one video off the
      totals, and as many questions as the session held; a refused deletion
      changes nothing. */
  lemma DeleteUncountsSession(st: Store, admin: Cookie, cookie: Cookie, sessionId: string)
    requires Valid(st) && IsAdmin(st, admin)
    ensures var r := Videos.DeleteSession(st, cookie, sessionId);
            IsAdmin(r.store, admin)
            && Shown(r.store, admin)
               == (var before := Shown(st, admin);
                   if r.response.status == 200
                   then before.(totalSessions := before.totalSessions - 1, totalVideos := before.totalVideos - 1,
                                totalQuestions := before.totalQuestions - Seqs.Count(st.conversations, Videos.InSession(sessionId)))
                   else before)
  {
    if Authorize(st, cookie, sessionId).Granted? {
      GrantedDeletion(st, admin, cookie, sessionId);
    }
  }
}

=== FILE: backend_videos.dfy ===
/** The video routes of the Flask backends: `/process`, `/results/<id>`,
    `/ask`, `/download_transcript/<id>`, `/history` and
    `/delete_session/<id>`. The three versions differ only in how a failed
    transcription, summary or answer is reported (`Media.Variant`). The
    YouTube check and download, `secure_filename`, the recogniser, the
    language model, `uuid4` and the clock are inputs. */
module Videos {
  import opened Wrappers
  import opened Backend
  import Seqs
  import Media

  const UploadFolder := "Uploads"

  datatype Upload = Upload(filename: string)

  /** The multipart form: a `youtube_url` field, a `video` file, a `title`. */
  datatype ProcessForm = ProcessForm(youtubeUrl: Option<string>, video: Option<Upload>, title: Option<string>)

  /** What yt-dlp reports for a downloaded video. */
  datatype Fetched = Fetched(videoId: string, title: string)

  /** What the outside world does during one `/process` call. */
  datatype World = World(
    accessible: bool,
    download: Option<Fetched>,
    secureName: string,
    transcription: Media.Transcription,
    summary: Result<string>)

  /** Where the video came from and what the session row records about it. */
  datatype Source = Source(isYoutube: bool, youtubeId: Option<string>, path: string, title: string)

  const NotAccessible := "Video is not accessible (private, restricted, or unavailable)"
  const DownloadFailed := "Failed to download YouTube video"
  const NoFile := "No file selected"
  const BadFormat := "Invalid file format"
  const NoVideo := "No video provided"
  /** `test.py` answers an exception during processing with this prefix and
      the exception's own text. */
  const ProcessingFailed := "Processing failed: "

  /** The input checks of `process_video`: a `youtube_url` field wins over a
      `video` file; an upload needs a name with an allowed extension. */
  function Locate(form: ProcessForm, w: World, sessionId: string): (r: Result<Source>)
    ensures form.youtubeUrl.Some? ==>
              (!w.accessible ==> r == Err(NotAccessible))
              && (w.accessible && w.download.None? ==> r == Err(DownloadFailed))
              && (w.accessible && w.download.Some? ==>
                    r == Ok(Source(true, Some(w.download.value.videoId),
                                   UploadFolder + "/" + w.download.value.videoId + ".mp4", w.download.value.title)))
    ensures form.youtubeUrl.None? && form.video.Some? ==>
              (form.video.value.filename == "" ==> r == Err(NoFile))
              && (form.video.value.filename != "" && !Media.AllowedFile(form.video.value.filename) ==> r == Err(BadFormat))
              && (form.video.value.filename != "" && Media.AllowedFile(form.video.value.filename) ==>
                    r == Ok(Source(false, None, UploadFolder + "/" + sessionId + "_" + w.secureName, form.title.GetOr(w.secureName))))
    ensures form.youtubeUrl.None? && form.video.None? ==> r == Err(NoVideo)
  {
    if form.youtubeUrl.Some? then
      if !w.accessible then Err(NotAccessible)
      else match w.download
        case None => Err(DownloadFailed)
        case Some(f) => Ok(Source(true, Some(f.videoId), UploadFolder + "/" + f.videoId + ".mp4", f.title))
    else if form.video.Some? then
      if form.video.value.filename == "" then Err(NoFile)
      else if !Media.AllowedFile(form.video.value.filename) then Err(BadFormat)
      else Ok(Source(false, None, UploadFolder + "/" + sessionId + "_" + w.secureName, form.title.GetOr(w.secureName)))
    else Err(NoVideo)
  }

  function NewSession(uid: nat, sessionId: string, src: Source, now: nat, transcript: string, summary: string): SessionRow {
    SessionRow(sessionId, uid, src.title, now, src.isYoutube, Some(src.path), src.youtubeId, transcript, summary)
  }

  /** Whether a `/process` call ended in a new session row. */
  predicate Stored(r: Outcome) {
    r.response.status == 200
  }

  /** Whether exactly one session row was appended: the old rows stay and
      the new one records the caller, the source, the time, the transcript
      and the summary. */
  ghost predicate Appended(st: Store, st': Store, uid: nat, sessionId: string, src: Source, now: nat, transcript: string, summary: string) {
    st'.sessions == st.sessions + [NewSession(uid, sessionId, src, now, transcript, summary)]
  }

  /** Everything but the cache and the sessions table is as before. */
  ghost predicate OnlySessionsAndCache(st: Store, st': Store) {
    st'.users == st.users && st'.conversations == st.conversations && st'.contacts == st.contacts
    && st'.nextUser == st.nextUser && st'.nextConversation == st.nextConversation && st'.nextContact == st.nextContact
  }

  /** Whether the model calls stop the processing: in `main.py` a failed
      transcription, in `test.py` an exception from the recogniser or the
      language model that no cached text stands in for. `app.py` carries on
      with the error texts. */
  predicate ModelsFail(v: Media.Variant, cache: Media.Cache, src: Source, w: World, md5: string -> string) {
    (v == Media.Main && w.transcription.Failed?)
    || (v == Media.Test && w.transcription.Failed? && Media.TranscriptKey(src.path) !in cache)
    || (v == Media.Test && w.summary.Err?
        && Media.SummaryKey(md5, Media.Heard(v, cache, src.path, w.transcription)) !in cache)
  }

  /** The `INSERT` of the new session row, with the cache as it stands after
      the model calls. A taken primary key makes the insert raise. */
  function Insert(st: Store, cache: Media.Cache, uid: nat, src: Source, sessionId: string, now: nat, transcript: string, summary: string): (r: (Store, Response))
    ensures OnlySessionsAndCache(st, r.0) && r.0.cache == cache
    ensures r.1.status == 200 <==> !HasSession(st, sessionId)
    ensures r.1.status == 200 ==>
              Appended(st, r.0, uid, sessionId, src, now, transcript, summary)
              && r.1.body == Processed("Video processed successfully", sessionId)
    ensures r.1.status != 200 ==> r.0.sessions == st.sessions && r.1.status == 500
    ensures Valid(st) ==> Valid(r.0)
  {
    if FindSession(st, sessionId).Some? then
      CacheKeepsValid(st, cache);
      (st.(cache := cache), Response(500, Message("Internal Server Error")))
    else
      var row := NewSession(uid, sessionId, src, now, transcript, summary);
      AppendSessionKeepsValid(st, row, cache);
      (st.(sessions := st.sessions + [row], cache := cache), Response(200, Processed("Video processed successfully", sessionId)))
  }

  /** The summary and the insert, once the transcript is in hand and the
      cache holds what transcription left in it. */
  function Summarized(v: Media.Variant, st: Store, cache: Media.Cache, uid: nat, src: Source, model: Result<string>, sessionId: string, now: nat, md5: string -> string, transcript: string): (r: (Store, Response))
    ensures OnlySessionsAndCache(st, r.0)
    ensures r.1.status == 200 <==>
              !HasSession(st, sessionId) && !(v == Media.Test && model.Err? && Media.SummaryKey(md5, transcript) !in cache)
    ensures r.1.status == 200 ==>
              Appended(st, r.0, uid, sessionId, src, now, transcript, Media.Summary(v, cache, md5, transcript, model))
              && r.1.body == Processed("Video processed successfully", sessionId)
    ensures r.1.status != 200 ==> r.0.sessions == st.sessions && r.1.status == 500
    ensures v == Media.Test && model.Err? && Media.SummaryKey(md5, transcript) !in cache ==>
              r.1 == Response(500, Message(ProcessingFailed + model.message))
    ensures Valid(st) ==> Valid(r.0)
  {
    var (summary, cache2) := Media.Summarize(v, cache, md5, transcript, model);
    CacheKeepsValid(st, cache2);
    if summary.Err? then (st.(cache := cache2), Response(500, Message(ProcessingFailed + summary.message)))
    else Insert(st, cache2, uid, src, sessionId, now, transcript, summary.value)
  }

  /** The second half of `process_video`, once the video is in place:
      transcribe, summarise, insert. `main.py` turns the transcription error
      text into a 500; `test.py` answers any exception with its text. It
      succeeds exactly when the id is new and the model calls do not stop
      it, and then stores the transcript and the summary the calls gave. */
  function Record(v: Media.Variant, st: Store, uid: nat, src: Source, w: World, sessionId: string, now: nat, md5: string -> string): (r: (Store, Response))
    ensures OnlySessionsAndCache(st, r.0)
    ensures r.1.status == 200 <==> !HasSession(st, sessionId) && !ModelsFail(v, st.cache, src, w, md5)
    ensures r.1.status == 200 ==>
              var transcript := Media.Heard(v, st.cache, src.path, w.transcription);
              Appended(st, r.0, uid, sessionId, src, now, transcript, Media.Summary(v, st.cache, md5, transcript, w.summary))
              && r.1.body == Processed("Video processed successfully", sessionId)
    ensures r.1.status != 200 ==> r.0.sessions == st.sessions && r.1.status == 500
    ensures v == Media.Test && w.transcription.Failed? && Media.TranscriptKey(src.path) !in st.cache ==>
              r.1 == Response(500, Message(ProcessingFailed + w.transcription.reason))
    ensures Valid(st) ==> Valid(r.0)
  {
    var (transcript, cache1) := Media.Transcribe(v, st.cache, src.path, w.transcription);
    CacheKeepsValid(st, cache1);
    if transcript.Err? then (st.(cache := cache1), Response(500, Message(ProcessingFailed + transcript.message)))
    else if v == Media.Main && transcript.value == Media.TranscriptionError then
      (st.(cache := cache1), Response(500, Message("Transcription failed")))
    else
      Media.TranscriptIsNotError(w.transcription);
      SummaryKeySurvives(v, st.cache, cache1, md5, transcript.value, src.path, w.summary);
      Summarized(v, st, cache1, uid, src, w.summary, sessionId, now, md5, transcript.value)
  }

  /** Transcription touches only its own key, so the summary that follows
      sees the summary cache as it was. */
  lemma SummaryKeySurvives(v: Media.Variant, cache: Media.Cache, cache1: Media.Cache, md5: string -> string, transcript: string, path: string, model: Result<string>)
    requires forall k :: k != Media.TranscriptKey(path) ==> (k in cache1 <==> k in cache) && (k in cache ==> cache1[k] == cache[k])
    ensures Media.SummaryKey(md5, transcript) in cache1 <==> Media.SummaryKey(md5, transcript) in cache
    ensures Media.Summary(v, cache1, md5, transcript, model) == Media.Summary(v, cache, md5, transcript, model)
  {
    Media.KeysDiffer(path, md5, transcript);
  }

  /** The cache plays no part in the table constraints. */
  lemma CacheKeepsValid(st: Store, cache: Media.Cache)
    ensures Valid(st) ==> Valid(st.(cache := cache))
  {
  }

  /** `process_video`. Only the cache and, on success, one appended session
      row change; users, conversations and contact messages never do. A
      signed-in request with a usable video and a new id succeeds exactly
      when the model calls do not stop it, and the new row then holds the
      transcript and the summary they gave. */
  function Process(v: Media.Variant, st: Store, cookie: Cookie, form: ProcessForm, w: World, sessionId: string, now: nat, md5: string -> string): (r: Outcome)
    ensures r.cookie == cookie
    ensures cookie.None? ==> r == Outcome(st, cookie, Response(401, Message(AuthRequired)))
    ensures cookie.Some? && Locate(form, w, sessionId).Err? ==>
              r == Outcome(st, cookie, Response(400, Message(Locate(form, w, sessionId).message)))
    ensures OnlySessionsAndCache(st, r.store)
    ensures Stored(r) <==>
              cookie.Some? && Locate(form, w, sessionId).Ok? && !HasSession(st, sessionId)
              && !ModelsFail(v, st.cache, Locate(form, w, sessionId).value, w, md5)
    ensures Stored(r) ==>
              var src := Locate(form, w, sessionId).value;
              var transcript := Media.Heard(v, st.cache, src.path, w.transcription);
              r.response.body == Processed("Video processed successfully", sessionId)
              && Appended(st, r.store, cookie.value, sessionId, src, now, transcript,
                          Media.Summary(v, st.cache, md5, transcript, w.summary))
    ensures !Stored(r) ==> r.store.sessions == st.sessions && r.response.status in {400, 401, 500}
    ensures Valid(st) ==> Valid(r.store)
  {
    match cookie
    case None => Outcome(st, cookie, Response(401, Message(AuthRequired)))
    case Some(uid) =>
      match Locate(form, w, sessionId)
      case Err(msg) => Outcome(st, cookie, Response(400, Message(msg)))
      case Ok(src) =>
        var (st', resp) := Record(v, st, uid, src, w, sessionId, now, md5);
        Outcome(st', cookie, resp)
  }

  lemma AppendSessionKeepsValid(st: Store, row: SessionRow, cache: Media.Cache)
    requires !HasSession(st, row.id)
    ensures Valid(st) ==> Valid(st.(sessions := st.sessions + [row], cache := cache))
  {
    if Valid(st) {
      var ss := st.sessions + [row];
      var st' := st.(sessions := ss, cache := cache);
      assert forall i :: 0 <= i < |st.sessions| ==> ss[i] == st.sessions[i];
      forall i | 0 <= i < |st.conversations|
        ensures HasSession(st', st.conversations[i].sessionId)
      {
        var j :| 0 <= j < |st.sessions| && st.sessions[j].id == st.conversations[i].sessionId;
        assert ss[j] == st.sessions[j];
      }
    }
  }

  /** A failed transcription, by version, for a path not yet cached: `main.py`
      and `test.py` answer 500 and store nothing; `app.py` stores the error
      text as the transcript. */
  lemma FailedTranscription(v: Media.Variant, st: Store, uid: nat, form: ProcessForm, w: World, sessionId: string, now: nat, md5: string -> string)
    requires w.transcription.Failed? && Locate(form, w, sessionId).Ok?
    requires Media.TranscriptKey(Locate(form, w, sessionId).value.path) !in st.cache
    ensures var r := Process(v, st, Some(uid), form, w, sessionId, now, md5);
            (v != Media.App ==> r.response.status == 500 && r.store.sessions == st.sessions)
            && (v == Media.App && Stored(r) ==> r.store.sessions[|st.sessions|].transcript == Media.TranscriptionError)
  {
  }

  /** `test.py` answers a failed transcription of a path not yet cached
      with 500, `Processing failed: ` and the exception's own text, and
      stores no session. */
  lemma TestReportsTranscriptionError(st: Store, uid: nat, form: ProcessForm, w: World, sessionId: string, now: nat, md5: string -> string)
    requires Locate(form, w, sessionId).Ok? && w.transcription.Failed?
    requires Media.TranscriptKey(Locate(form, w, sessionId).value.path) !in st.cache
    ensures var r := Process(Media.Test, st, Some(uid), form, w, sessionId, now, md5);
            r.response == Response(500, Message(ProcessingFailed + w.transcription.reason))
            && r.store.sessions == st.sessions
  {
  }

  /** Likewise a failed summary of a fresh transcript: the 500 carries the
      language model's own error text. */
  lemma TestReportsSummaryError(st: Store, uid: nat, form: ProcessForm, w: World, sessionId: string, now: nat, md5: string -> string)
    requires Locate(form, w, sessionId).Ok? && w.transcription.Segments? && w.summary.Err?
    requires Media.TranscriptKey(Locate(form, w, sessionId).value.path) !in st.cache
    requires Media.SummaryKey(md5, Media.Transcript(w.transcription.segments)) !in st.cache
    ensures var r := Process(Media.Test, st, Some(uid), form, w, sessionId, now, md5);
            r.response == Response(500, Message(ProcessingFailed + w.summary.message))
            && r.store.sessions == st.sessions
  {
    var src := Locate(form, w, sessionId).value;
    var transcript := Media.Transcript(w.transcription.segments);
    var cache1 := st.cache[Media.TranscriptKey(src.path) := transcript];
    assert Media.Transcribe(Media.Test, st.cache, src.path, w.transcription) == (Ok(transcript), cache1);
    assert Media.TranscriptKey(src.path)[0] != Media.SummaryKey(md5, transcript)[0];
    assert Media.SummaryKey(md5, transcript) !in cache1;
  }

  /** In every version, a new video whose transcription and summary both
      succeed, for a path and a transcript not yet cached, is stored with
      the recogniser's transcript and the language model's summary. */
  lemma FreshVideoIsStored(v: Media.Variant, st: Store, uid: nat, form: ProcessForm, w: World, sessionId: string, now: nat, md5: string -> string)
    requires Locate(form, w, sessionId).Ok? && !HasSession(st, sessionId)
    requires w.transcription.Segments? && w.summary.Ok?
    requires Media.TranscriptKey(Locate(form, w, sessionId).value.path) !in st.cache
    requires Media.SummaryKey(md5, Media.Transcript(w.transcription.segments)) !in st.cache
    ensures var r := Process(v, st, Some(uid), form, w, sessionId, now, md5);
            Stored(r)
            && r.store.sessions == st.sessions + [NewSession(uid, sessionId, Locate(form, w, sessionId).value, now,
                                                             Media.Transcript(w.transcription.segments), w.summary.value)]
  {
  }

  /** `app.py` turns no model failure into an error: with a fresh id and a
      fresh path, a failed transcription and a failed summary still store a
      session, holding both error texts. */
  lemma AppStoresErrorTexts(st: Store, uid: nat, form: ProcessForm, w: World, sessionId: string, now: nat, md5: string -> string)
    requires w.transcription.Failed? && w.summary.Err? && Locate(form, w, sessionId).Ok?
    requires Media.TranscriptKey(Locate(form, w, sessionId).value.path) !in st.cache
    requires Media.SummaryKey(md5, Media.TranscriptionError) !in st.cache
    requires !HasSession(st, sessionId)
    ensures var r := Process(Media.App, st, Some(uid), form, w, sessionId, now, md5);
            Stored(r) && r.store.sessions[|st.sessions|].transcript == Media.TranscriptionError
            && r.store.sessions[|st.sessions|].summary == Media.SummaryError
  {
    assert FindSession(st, sessionId).None?;
  }

  function InSession(sessionId: string): ConversationRow -> bool {
    (c: ConversationRow) => c.sessionId == sessionId
  }

  function ConversationStamp(c: ConversationRow): int { c.timestamp }

  /** The session's conversations, newest first (`ORDER BY timestamp DESC`;
      rows with equal timestamps may come in any order). */
  function ConversationsOf(st: Store, sessionId: string): (r: seq<ConversationRow>)
    ensures multiset(r) == multiset(Seqs.Filter(st.conversations, InSession(sessionId)))
    ensures Seqs.SortedDesc(r, ConversationStamp)
    ensures forall i :: 0 <= i < |r| ==> r[i] in st.conversations && r[i].sessionId == sessionId
    ensures forall i :: 0 <= i < |st.conversations| && st.conversations[i].sessionId == sessionId ==> st.conversations[i] in r
  {
    var mine := Seqs.Filter(st.conversations, InSession(sessionId));
    var r := Seqs.SortDesc(mine, ConversationStamp);
    Seqs.SameElements(r, mine);
    assert forall i :: 0 <= i < |r| ==> r[i] in st.conversations && r[i].sessionId == sessionId by {
      forall i | 0 <= i < |r|
        ensures r[i] in st.conversations && r[i].sessionId == sessionId
      {
        assert r[i] in mine;
        var k :| 0 <= k < |mine| && mine[k] == r[i];
        assert InSession(sessionId)(mine[k]);
      }
    }
    r
  }

  /** `get_results`: the guard, then the session row, its conversations and
      its `video_url`. Read-only. */
  function Results(st: Store, cookie: Cookie, sessionId: string, hostUrl: string): (r: Response)
    ensures Authorize(st, cookie, sessionId).Denied? ==> r == Authorize(st, cookie, sessionId).response
    ensures Authorize(st, cookie, sessionId).Granted? ==>
              var row := Authorize(st, cookie, sessionId).row;
              r == Response(200, ResultsBody(row, ConversationsOf(st, sessionId),
                                             Media.VideoUrl(row.isYoutube, row.youtubeId, row.videoPath, hostUrl)))
  {
    match Authorize(st, cookie, sessionId)
    case Denied(resp) => resp
    case Granted(row) =>
      Response(200, ResultsBody(row, ConversationsOf(st, sessionId), Media.VideoUrl(row.isYoutube, row.youtubeId, row.videoPath, hostUrl)))
  }

  /** `ask_question`. On success exactly one conversation is appended with the
      next id; `test.py` refuses to store the error answer, the others store
      whatever `answer_question` returned. */
  function Ask(v: Media.Variant, st: Store, cookie: Cookie, sessionId: Option<string>, question: Option<string>, model: Result<string>, now: nat): (r: Outcome)
    ensures r.cookie == cookie
    ensures cookie.None? ==> r == Outcome(st, cookie, Response(401, Message(AuthRequired)))
    ensures cookie.Some? && (Missing(sessionId) || Missing(question)) ==>
              r == Outcome(st, cookie, Response(400, Message("Session ID and question are required")))
    ensures cookie.Some? && !Missing(sessionId) && !Missing(question) && Authorize(st, cookie, sessionId.value).Denied? ==>
              r == Outcome(st, cookie, Authorize(st, cookie, sessionId.value).response)
    ensures r.response.status == 200 ==>
              var c := ConversationRow(st.nextConversation, sessionId.value, question.value, Media.Answer(model), now);
              Authorize(st, cookie, sessionId.value).Granted?
              && r.store == st.(conversations := st.conversations + [c], nextConversation := st.nextConversation + 1)
              && r.response.body == AnswerBody(Media.Answer(model), st.nextConversation)
    ensures r.response.status != 200 ==> r.store == st
    ensures (cookie.Some? && !Missing(sessionId) && !Missing(question) && Authorize(st, cookie, sessionId.value).Granted?
             && !(v == Media.Test && Media.Answer(model) == Media.AnswerError)) ==> r.response.status == 200
    ensures r.response.status == 500 <==>
              v == Media.Test && Media.Answer(model) == Media.AnswerError && cookie.Some? && !Missing(sessionId)
              && !Missing(question) && Authorize(st, cookie, sessionId.value).Granted?
    ensures Valid(st) ==> Valid(r.store)
  {
    if cookie.None? then Outcome(st, cookie, Response(401, Message(AuthRequired)))
    else if Missing(sessionId) || Missing(question) then
      Outcome(st, cookie, Response(400, Message("Session ID and question are required")))
    else match Authorize(st, cookie, sessionId.value)
      case Denied(resp) => Outcome(st, cookie, resp)
      case Granted(row) =>
        var answer := Media.Answer(model);
        if v == Media.Test && answer == Media.AnswerError then
          Outcome(st, cookie, Response(500, Message("Failed to process question")))
        else
          var c := ConversationRow(st.nextConversation, sessionId.value, question.value, answer, now);
          AppendConversationKeepsValid(st, c);
          Outcome(st.(conversations := st.conversations + [c], nextConversation := st.nextConversation + 1),
                  cookie, Response(200, AnswerBody(answer, st.nextConversation)))
  }

  lemma AppendConversationKeepsValid(st: Store, c: ConversationRow)
    requires c.id == st.nextConversation && HasSession(st, c.sessionId)
    ensures Valid(st) ==> Valid(st.(conversations := st.conversations + [c], nextConversation := st.nextConversation + 1))
  {
    if Valid(st) {
      var cs := st.conversations + [c];
      assert forall i :: 0 <= i < |st.conversations| ==> cs[i] == st.conversations[i];
      forall i, j | 0 <= i < j < |cs|
        ensures ConversationId(cs[i]) != ConversationId(cs[j])
      {
        if j == |st.conversations| {
          assert cs[i].id < st.nextConversation;
        }
      }
    }
  }

  /** `download_transcript`: the guard, then the transcript as an attachment
      named after the sanitised title. */
  function DownloadTranscript(st: Store, cookie: Cookie, sessionId: string): (r: Response)
    ensures Authorize(st, cookie, sessionId).Denied? ==> r == Authorize(st, cookie, sessionId).response
    ensures Authorize(st, cookie, sessionId).Granted? ==>
              var row := Authorize(st, cookie, sessionId).row;
              r == Response(200, Attachment(Media.DownloadName(row.title), Media.DownloadText(row.title, row.transcript)))
  {
    match Authorize(st, cookie, sessionId)
    case Denied(resp) => resp
    case Granted(row) => Response(200, Attachment(Media.DownloadName(row.title), Media.DownloadText(row.title, row.transcript)))
  }

  function OwnedBy(uid: nat): SessionRow -> bool {
    (s: SessionRow) => s.userId == uid
  }

  function SessionStamp(s: SessionRow): int { s.timestamp }

  function ItemStamp(h: HistoryItem): int { h.timestamp }

  function ItemOf(conversations: seq<ConversationRow>): SessionRow -> HistoryItem {
    (s: SessionRow) => HistoryItem(s.id, s.title, s.timestamp, s.isYoutube, s.youtubeId, s.videoPath,
                                   Seqs.Count(conversations, InSession(s.id)))
  }

  /** `get_history`: the caller's sessions only, newest first, each with its
      number of conversations (`LEFT JOIN ... COUNT`). */
  function History(st: Store, cookie: Cookie): (r: Response)
    ensures cookie.None? ==> r == Response(401, Message(AuthRequired))
    ensures cookie.Some? ==> r.status == 200 && r.body.HistoryBody?
    ensures cookie.Some? ==>
              var items := r.body.sessions;
              |items| == Seqs.Count(st.sessions, OwnedBy(cookie.value))
              && Seqs.SortedDesc(items, ItemStamp)
              && (forall i :: 0 <= i < |items| ==>
                    exists j :: 0 <= j < |st.sessions| && st.sessions[j].userId == cookie.value
                                && items[i] == ItemOf(st.conversations)(st.sessions[j]))
              && (forall j :: 0 <= j < |st.sessions| && st.sessions[j].userId == cookie.value ==>
                    ItemOf(st.conversations)(st.sessions[j]) in items)
  {
    match cookie
    case None => Response(401, Message(AuthRequired))
    case Some(uid) =>
      var mine := Seqs.Filter(st.sessions, OwnedBy(uid));
      var sorted := Seqs.SortDesc(mine, SessionStamp);
      var items := Seqs.Map(sorted, ItemOf(st.conversations));
      HistoryItems(st, uid, mine, sorted, items);
      Response(200, HistoryBody(items))
  }

  lemma HistoryItems(st: Store, uid: nat, mine: seq<SessionRow>, sorted: seq<SessionRow>, items: seq<HistoryItem>)
    requires mine == Seqs.Filter(st.sessions, OwnedBy(uid))
    requires sorted == Seqs.SortDesc(mine, SessionStamp)
    requires items == Seqs.Map(sorted, ItemOf(st.conversations))
    ensures Seqs.SortedDesc(items, ItemStamp)
    ensures forall i :: 0 <= i < |items| ==>
              exists j :: 0 <= j < |st.sessions| && st.sessions[j].userId == uid
                          && items[i] == ItemOf(st.conversations)(st.sessions[j])
    ensures forall j :: 0 <= j < |st.sessions| && st.sessions[j].userId == uid ==>
              ItemOf(st.conversations)(st.sessions[j]) in items
  {
    Seqs.SameElements(sorted, mine);
    HistoryItemsSorted(sorted, items, st.conversations);
    HistoryItemsOwned(st, uid, mine, sorted, items);
    HistoryItemsComplete(st, uid, mine, sorted, items);
  }

  lemma HistoryItemsSorted(sorted: seq<SessionRow>, items: seq<HistoryItem>, conversations: seq<ConversationRow>)
    requires Seqs.SortedDesc(sorted, SessionStamp)
    requires items == Seqs.Map(sorted, ItemOf(conversations))
    ensures Seqs.SortedDesc(items, ItemStamp)
  {
    forall i, j | 0 <= i < j < |items|
      ensures ItemStamp(items[i]) >= ItemStamp(items[j])
    {
      assert SessionStamp(sorted[i]) >= SessionStamp(sorted[j]);
    }
  }

  /** A history item that stands for one of the caller's stored sessions. */
  ghost predicate OwnItem(st: Store, uid: nat, h: HistoryItem) {
    exists j :: 0 <= j < |st.sessions| && st.sessions[j].userId == uid
                && h == ItemOf(st.conversations)(st.sessions[j])
  }

  lemma HistoryItemsOwned(st: Store, uid: nat, mine: seq<SessionRow>, sorted: seq<SessionRow>, items: seq<HistoryItem>)
    requires mine == Seqs.Filter(st.sessions, OwnedBy(uid))
    requires forall x :: x in sorted <==> x in mine
    requires items == Seqs.Map(sorted, ItemOf(st.conversations))
    ensures forall i :: 0 <= i < |items| ==> OwnItem(st, uid, items[i])
  {
    forall i | 0 <= i < |items|
      ensures OwnItem(st, uid, items[i])
    {
      assert sorted[i] in mine;
      var k :| 0 <= k < |mine| && mine[k] == sorted[i];
      assert OwnedBy(uid)(mine[k]);
      var j :| 0 <= j < |st.sessions| && st.sessions[j] == sorted[i];
      assert items[i] == ItemOf(st.conversations)(st.sessions[j]);
    }
  }

  lemma HistoryItemsComplete(st: Store, uid: nat, mine: seq<SessionRow>, sorted: seq<SessionRow>, items: seq<HistoryItem>)
    requires mine == Seqs.Filter(st.sessions, OwnedBy(uid))
    requires forall x :: x in sorted <==> x in mine
    requires items == Seqs.Map(sorted, ItemOf(st.conversations))
    ensures forall j :: 0 <= j < |st.sessions| && st.sessions[j].userId == uid ==>
              ItemOf(st.conversations)(st.sessions[j]) in items
  {
    forall j | 0 <= j < |st.sessions| && st.sessions[j].userId == uid
      ensures ItemOf(st.conversations)(st.sessions[j]) in items
    {
      assert OwnedBy(uid)(st.sessions[j]);
      assert st.sessions[j] in mine;
      var k :| 0 <= k < |sorted| && sorted[k] == st.sessions[j];
      assert items[k] == ItemOf(st.conversations)(st.sessions[j]);
    }
  }

  function OtherSession(sessionId: string): SessionRow -> bool {
    (s: SessionRow) => s.id != sessionId
  }

  function NotInSession(sessionId: string): ConversationRow -> bool {
    (c: ConversationRow) => c.sessionId != sessionId
  }

  /** `delete_session`: after the guard, the session and every one of its
      conversations go; every other session and conversation stays, in
      order. */
  function DeleteSession(st: Store, cookie: Cookie, sessionId: string): (r: Outcome)
    ensures r.cookie == cookie
    ensures Authorize(st, cookie, sessionId).Denied? ==> r == Outcome(st, cookie, Authorize(st, cookie, sessionId).response)
    ensures Authorize(st, cookie, sessionId).Granted? ==>
              r.response == Response(200, Message("Session deleted successfully"))
              && r.store == st.(sessions := Seqs.Filter(st.sessions, OtherSession(sessionId)),
                                conversations := Seqs.Filter(st.conversations, NotInSession(sessionId)))
              && !HasSession(r.store, sessionId)
              && (forall i :: 0 <= i < |r.store.conversations| ==> r.store.conversations[i].sessionId != sessionId)
              && (forall i :: 0 <= i < |st.sessions| && st.sessions[i].id != sessionId ==> st.sessions[i] in r.store.sessions)
              && (forall i :: 0 <= i < |st.conversations| && st.conversations[i].sessionId != sessionId ==>
                    st.conversations[i] in r.store.conversations)
    ensures Valid(st) ==> Valid(r.store)
  {
    match Authorize(st, cookie, sessionId)
    case Denied(resp) => Outcome(st, cookie, resp)
    case Granted(_) =>
      var st' := st.(sessions := Seqs.Filter(st.sessions, OtherSession(sessionId)),
                     conversations := Seqs.Filter(st.conversations, NotInSession(sessionId)));
      CascadeKeepsValid(st, sessionId);
      Outcome(st', cookie, Response(200, Message("Session deleted successfully")))
  }

  lemma CascadeKeepsValid(st: Store, sessionId: string)
    ensures var st' := st.(sessions := Seqs.Filter(st.sessions, OtherSession(sessionId)),
                           conversations := Seqs.Filter(st.conversations, NotInSession(sessionId)));
            !HasSession(st', sessionId) && (Valid(st) ==> Valid(st'))
  {
    var ss := Seqs.Filter(st.sessions, OtherSession(sessionId));
    var cs := Seqs.Filter(st.conversations, NotInSession(sessionId));
    var st' := st.(sessions := ss, conversations := cs);
    assert !HasSession(st', sessionId) by {
      forall j | 0 <= j < |ss|
        ensures ss[j].id != sessionId
      {
        assert OtherSession(sessionId)(ss[j]);
      }
    }
    if Valid(st) {
      Seqs.FilterKeepsDistinct(st.sessions, OtherSession(sessionId), SessionId);
      Seqs.FilterKeepsDistinct(st.conversations, NotInSession(sessionId), ConversationId);
      forall i | 0 <= i < |cs|
        ensures cs[i].id < st.nextConversation && HasSession(st', cs[i].sessionId)
      {
        var c := cs[i];
        assert c in st.conversations && c.sessionId != sessionId;
        var k :| 0 <= k < |st.conversations| && st.conversations[k] == c;
        assert HasSession(st, c.sessionId);
        var j :| 0 <= j < |st.sessions| && st.sessions[j].id == c.sessionId;
        assert st.sessions[j] in ss;
        var m :| 0 <= m < |ss| && ss[m] == st.sessions[j];
      }
    }
  }

  /** A stored answer adds one to its session's `conversation_count` in
      `/history`. */
  lemma AskAddsToCount(v: Media.Variant, st: Store, cookie: Cookie, sessionId: Option<string>, question: Option<string>, model: Result<string>, now: nat)
    requires Ask(v, st, cookie, sessionId, question, model, now).response.status == 200
    ensures var after := Ask(v, st, cookie, sessionId, question, model, now).store;
            Seqs.Count(after.conversations, InSession(sessionId.value))
            == Seqs.Count(st.conversations, InSession(sessionId.value)) + 1
  {
    var c := ConversationRow(st.nextConversation, sessionId.value, question.value, Media.Answer(model), now);
    Seqs.FilterAppend(st.conversations, [c], InSession(sessionId.value));
  }

  /** A fresh answer, stamped later than every stored one, comes first when
      the session's results are read again (`ORDER BY timestamp DESC`),
      whereas the question panel appends it at the end of its list. */
  lemma NewestAnswerListedFirst(v: Media.Variant, st: Store, cookie: Cookie, sessionId: Option<string>, question: Option<string>, model: Result<string>, now: nat, hostUrl: string)
    requires Ask(v, st, cookie, sessionId, question, model, now).response.status == 200
    requires forall i :: 0 <= i < |st.conversations| ==> st.conversations[i].timestamp < now
    ensures var r := Results(Ask(v, st, cookie, sessionId, question, model, now).store, cookie, sessionId.value, hostUrl);
            r.status == 200 && |r.body.conversations| > 0
            && r.body.conversations[0] == ConversationRow(st.nextConversation, sessionId.value, question.value, Media.Answer(model), now)
  {
    var after := Ask(v, st, cookie, sessionId, question, model, now).store;
    var c := ConversationRow(st.nextConversation, sessionId.value, question.value, Media.Answer(model), now);
    assert after.conversations == st.conversations + [c];
    assert Authorize(after, cookie, sessionId.value) == Authorize(st, cookie, sessionId.value);
    var convs := ConversationsOf(after, sessionId.value);
    assert after.conversations[|st.conversations|] == c;
    assert c in convs;
    var k :| 0 <= k < |convs| && convs[k] == c;
    if convs[0] != c {
      assert false;
    }
  }

  /** After a successful delete the session's results answer 404. */
  lemma DeletedSessionIsGone(st: Store, cookie: Cookie, sessionId: string, hostUrl: string)
    requires DeleteSession(st, cookie, sessionId).response.status == 200
    ensures Results(DeleteSession(st, cookie, sessionId).store, cookie, sessionId, hostUrl) == Response(404, Message(NotFound))
  {
  }

  /** A freshly processed session is visible to its owner, with no
      conversations yet. */
  lemma ProcessedSessionIsEmpty(v: Media.Variant, st: Store, cookie: Cookie, form: ProcessForm, w: World, sessionId: string, now: nat, md5: string -> string, hostUrl: string)
    requires Valid(st)
    requires Stored(Process(v, st, cookie, form, w, sessionId, now, md5))
    ensures var after := Process(v, st, cookie, form, w, sessionId, now, md5).store;
            var r := Results(after, cookie, sessionId, hostUrl);
            r.status == 200 && r.body.conversations == []
            && r.body.session == after.sessions[|st.sessions|]
  {
    var after := Process(v, st, cookie, form, w, sessionId, now, md5).store;
    FreshIdIsFoundLast(st, after, sessionId);
    FreshIdHasNoConversations(st, sessionId);
    assert after.conversations == st.conversations;
  }

  /** An id absent before an append is found at the appended row. */
  lemma FreshIdIsFoundLast(st: Store, after: Store, sessionId: string)
    requires !HasSession(st, sessionId)
    requires |after.sessions| == |st.sessions| + 1 && after.sessions[..|st.sessions|] == st.sessions
    requires after.sessions[|st.sessions|].id == sessionId
    ensures FindSession(after, sessionId) == Some(after.sessions[|st.sessions|])
  {
    var r := FindSession(after, sessionId).value;
    var j :| 0 <= j < |after.sessions| && after.sessions[j] == r;
    if j < |st.sessions| {
      assert false;
    }
  }

  /** With referential integrity, an unknown session has no conversations. */
  lemma FreshIdHasNoConversations(st: Store, sessionId: string)
    requires Valid(st) && !HasSession(st, sessionId)
    ensures Seqs.Filter(st.conversations, InSession(sessionId)) == []
  {
    forall i | 0 <= i < |st.conversations|
      ensures !InSession(sessionId)(st.conversations[i])
    {
      assert HasSession(st, st.conversations[i].sessionId);
    }
    Seqs.FilterNone(st.conversations, InSession(sessionId));
  }
}

=== FILE: client_data.dfy ===
/** The records the client pages receive from the backend, and the visible
    effects (toasts and navigation) their handlers produce. Optional
    TypeScript fields (`youtube_id?: string`) are `Option`s. */
module ClientData {
  import opened Wrappers

  /** `User` of `src/contexts/AuthContext.tsx`. */
  datatype User = User(id: int, username: string, email: string, isAdmin: bool)

  /** A question/answer pair as the Q&A panel shows it. */
  datatype Conversation = Conversation(id: int, question: string, answer: string, timestamp: string)

  /** A session as the history list, the dashboard and the history card use it. */
  datatype Session = Session(
    id: string,
    title: string,
    timestamp: string,
    isYoutube: bool,
    youtubeId: Option<string>,
    videoPath: Option<string>,
    transcript: Option<string>,
    summary: Option<string>,
    conversationCount: Option<int>,
    duration: Option<nat>,
    thumbnail: Option<string>)

  /** A message submitted through the contact form. */
  datatype ContactMessage = ContactMessage(id: int, name: string, email: string, message: string, timestamp: string, isRead: bool)

  /** A visible side effect of a handler. */
  datatype Effect =
    | ToastSuccess(text: string)
    | ToastError(text: string)
    | Navigate(path: string)
}

=== FILE: contact_messages.dfy ===
/** The administrator's table of contact messages
    (`src/components/ContactMessagesTable.tsx`): load, toggle the read flag
    locally after `/mark_message`, and delete after confirmation. */
module ContactMessages {
  import opened Wrappers
  import opened ClientData
  import Seqs
  import Api

  datatype State = State(messages: seq<ContactMessage>, isLoading: bool)

  const Initial := State([], true)

  const LoadFailed := "Failed to load contact messages"
  const Updated := "Message status updated"
  const UpdateFailed := "Failed to update message status"
  const Deleted := "Message deleted successfully"
  const DeleteFailed := "Failed to delete message"

  /** `fetchMessages`: the list from `/contact`, or the old list and a toast. */
  function Load(s: State, reply: Result<Option<seq<ContactMessage>>>): (r: (State, seq<Effect>))
    ensures !r.0.isLoading
    ensures reply.Ok? ==> r.0.messages == reply.value.GetOr([]) && r.1 == []
    ensures reply.Err? ==> r.0.messages == s.messages && r.1 == [ToastError(LoadFailed)]
  {
    match reply
    case Ok(list) => (State(list.GetOr([]), false), [])
    case Err(_) => (s.(isLoading := false), [ToastError(LoadFailed)])
  }

  function Flip(id: int): ContactMessage -> ContactMessage {
    (m: ContactMessage) => if m.id == id then m.(isRead := !m.isRead) else m
  }

  /** `handleToggleRead`: after the call resolves, the read flag of the
      messages with the id is inverted and nothing else changes; a failed call
      changes nothing. */
  function Toggle(messages: seq<ContactMessage>, id: int, reply: Result<()>): (r: (seq<ContactMessage>, seq<Effect>))
    ensures |r.0| == |messages|
    ensures reply.Err? ==> r.0 == messages && r.1 == [ToastError(UpdateFailed)]
    ensures reply.Ok? ==> r.1 == [ToastSuccess(Updated)]
    ensures reply.Ok? ==> forall i :: 0 <= i < |messages| ==>
              (messages[i].id == id ==> r.0[i] == messages[i].(isRead := !messages[i].isRead))
              && (messages[i].id != id ==> r.0[i] == messages[i])
  {
    if reply.Ok? then (Seqs.Map(messages, Flip(id)), [ToastSuccess(Updated)])
    else (messages, [ToastError(UpdateFailed)])
  }

  /** Two successful toggles of the same message restore the table. */
  lemma ToggleTwiceRestores(messages: seq<ContactMessage>, id: int)
    ensures Toggle(Toggle(messages, id, Ok(())).0, id, Ok(())).0 == messages
  {
    var once := Toggle(messages, id, Ok(())).0;
    var twice := Toggle(once, id, Ok(())).0;
    assert |twice| == |messages|;
    forall i | 0 <= i < |messages|
      ensures twice[i] == messages[i]
    {
      if messages[i].id == id {
        assert once[i].id == id;
      }
    }
  }

  function Other(id: int): ContactMessage -> bool {
    (m: ContactMessage) => m.id != id
  }

  /** `handleDelete`: the request sent, the new list and the toast. */
  datatype DeleteStep = DeleteStep(sent: Option<Api.Route>, messages: seq<ContactMessage>, effects: seq<Effect>)

  /** Nothing happens without confirmation; the message leaves the table only
      after the server deleted it. */
  function Delete(messages: seq<ContactMessage>, id: nat, confirmed: bool, reply: Result<()>): (r: DeleteStep)
    ensures !confirmed ==> r == DeleteStep(None, messages, [])
    ensures confirmed ==> r.sent == Some(Api.DeleteMessage(id))
    ensures confirmed && reply.Err? ==> r.messages == messages && r.effects == [ToastError(DeleteFailed)]
    ensures confirmed && reply.Ok? ==>
              r.effects == [ToastSuccess(Deleted)]
              && (forall i :: 0 <= i < |r.messages| ==> r.messages[i].id != id && r.messages[i] in messages)
              && (forall i :: 0 <= i < |messages| && messages[i].id != id ==> messages[i] in r.messages)
  {
    if !confirmed then DeleteStep(None, messages, [])
    else if reply.Ok? then DeleteStep(Some(Api.DeleteMessage(id)), Seqs.Filter(messages, Other(id)), [ToastSuccess(Deleted)])
    else DeleteStep(Some(Api.DeleteMessage(id)), messages, [ToastError(DeleteFailed)])
  }
}

=== FILE: contact_page.dfy ===
/** The public contact form of `src/pages/Contact.tsx`: all three fields are
    required; a sent message clears the form. */
module ContactPage {
  import opened Wrappers
  import opened ClientData
  import Api
  import Text

  datatype State = State(name: string, email: string, message: string, isSubmitting: bool)

  const Initial := State("", "", "", false)

  const Incomplete := "Please fill in all fields"
  const Sent := "Your message has been sent successfully!"
  const SendFailed := "Failed to send message. Please try again later."

  /** Whether every field is non-empty (JavaScript truthiness of a string). */
  predicate Complete(s: State) {
    Text.Truthy(s.name) && Text.Truthy(s.email) && Text.Truthy(s.message)
  }

  datatype Submitted = Submitted(state: State, effects: seq<Effect>, sent: Option<Api.Route>)

  /** `handleSubmit`: an incomplete form is refused before any request; a
      complete one is posted through `submitContactForm`, and the form is
      cleared only when the server accepted it. */
  function Submit(s: State, reply: Result<()>): (r: Submitted)
    ensures r.sent.Some? <==> Complete(s)
    ensures !Complete(s) ==> r.state == s && r.effects == [ToastError(Incomplete)]
    ensures r.sent.Some? ==> r.sent == Some(Api.SubmitContactForm(s.name, s.email, s.message)) && !r.state.isSubmitting
    ensures r.sent.Some? && reply.Ok? ==> r.state == Initial && r.effects == [ToastSuccess(Sent)]
    ensures r.sent.Some? && reply.Err? ==> r.state == s.(isSubmitting := false) && r.effects == [ToastError(SendFailed)]
  {
    if !Complete(s) then Submitted(s, [ToastError(Incomplete)], None)
    else
      var sent := Some(Api.SubmitContactForm(s.name, s.email, s.message));
      if reply.Ok? then Submitted(Initial, [ToastSuccess(Sent)], sent)
      else Submitted(s.(isSubmitting := false), [ToastError(SendFailed)], sent)
  }

  /** A failed send keeps the form, so trying again posts the same message. */
  lemma FailedSendRetriesSame(s: State, error: string, reply: Result<()>)
    ensures Submit(Submit(s, Err(error)).state, reply).sent == Submit(s, reply).sent
  {
  }

  /** A successful send leaves a form that cannot be sent again unchanged. */
  lemma SentFormIsIncomplete(s: State, reply: Result<()>)
    requires Complete(s) && reply.Ok?
    ensures !Complete(Submit(s, reply).state)
    ensures Submit(Submit(s, reply).state, reply).sent.None?
  {
  }
}

=== FILE: dashboard.dfy ===
/** The dashboard of `src/pages/Dashboard.tsx`: totals and recent sessions
    fetched from `/dashboard`, shown only to a signed-in user once loaded.
    The backend defines no `/dashboard` route, so what that call returns is a
    parameter here and nothing more is assumed about it. */
module Dashboard {
  import opened Wrappers
  import opened ClientData
  import Seqs
  import History

  datatype DashboardData = DashboardData(
    recentSessions: seq<Session>,
    totalVideos: int,
    totalQuestions: int,
    totalTranscripts: int,
    username: string)

  datatype State = State(data: Option<DashboardData>, isLoading: bool)

  const Initial := State(None, true)

  /** The fetch effect: a resolved call stores the data; a failed call or a
      signed-out user leaves it as it was. Loading always ends. */
  function Load(s: State, isAuthenticated: bool, reply: Result<DashboardData>): (r: State)
    ensures !r.isLoading
    ensures isAuthenticated && reply.Ok? ==> r.data == Some(reply.value)
    ensures !(isAuthenticated && reply.Ok?) ==> r.data == s.data
  {
    if isAuthenticated && reply.Ok? then State(Some(reply.value), false) else s.(isLoading := false)
  }

  /** The totals and recent sessions are shown only when loading is over, the
      user is signed in and data arrived. */
  predicate ShowsData(s: State, isAuthenticated: bool) {
    !s.isLoading && isAuthenticated && s.data.Some?
  }

  /** `handleDeleteSession`: drops the session from the recent list and keeps
      every total as it was; without data it does nothing. */
  function Delete(s: State, id: string): (r: State)
    ensures s.data.None? ==> r == s
    ensures s.data.Some? ==>
              r.data.Some? && r.isLoading == s.isLoading
              && r.data.value.recentSessions == History.Delete(s.data.value.recentSessions, id)
              && r.data.value.(recentSessions := s.data.value.recentSessions) == s.data.value
  {
    match s.data
    case None => s
    case Some(d) => s.(data := Some(d.(recentSessions := History.Delete(d.recentSessions, id))))
  }

  /** Deleting the same session twice is deleting it once, and two
      deletions may happen in either order: each removes only its own id. */
  lemma DeleteIdempotentAndCommutes(s: State, a: string, b: string)
    ensures Delete(Delete(s, a), a) == Delete(s, a)
    ensures Delete(Delete(s, a), b) == Delete(Delete(s, b), a)
  {
    if s.data.Some? {
      var recent := s.data.value.recentSessions;
      Seqs.FilterIdempotent(recent, History.Other(a));
      Seqs.FilterCommute(recent, History.Other(a), History.Other(b));
    }
  }

  /** A deletion is local to the page: the next signed-in load shows what
      the server sent, whatever was deleted before it. */
  lemma ReloadReplacesDeletions(s: State, id: string, d: DashboardData)
    ensures Load(Delete(s, id), true, Ok(d)) == Load(s, true, Ok(d)) == State(Some(d), false)
  {
  }
}

=== FILE: end_to_end.dfy ===
/** How the client pages read what the Flask handlers send: the JSON records
    decoded into the client's records, and the properties that only hold
    (or fail) once both sides are put together. Timestamps travel as
    strings; the model renders them with `Text.NatToString`. */
module EndToEnd {
  import opened Wrappers
  import Backend
  import Media
  import Videos
  import Admin
  import Api
  import Seqs
  import Text
  import ClientData
  import ContactMessages
  import History
  import Results
  import VideoPlayer
  import ContactPage
  import Profile
  import Accounts

  /** A `contact_message` row as the contact table receives it. */
  function ToMessage(c: Backend.ContactRow): ClientData.ContactMessage {
    ClientData.ContactMessage(c.id, c.name, c.email, c.message, Text.NatToString(c.timestamp), c.isRead)
  }

  /** A `/history` entry as the history page receives it: no transcript, no
      summary, no duration and no thumbnail. */
  function ToSession(h: Backend.HistoryItem): ClientData.Session {
    ClientData.Session(h.id, h.title, Text.NatToString(h.timestamp), h.isYoutube, h.youtubeId, h.videoPath,
                       None, None, Some(h.conversationCount), None, None)
  }

  function ToConversation(c: Backend.ConversationRow): ClientData.Conversation {
    ClientData.Conversation(c.id, c.question, c.answer, Text.NatToString(c.timestamp))
  }

  /** A `/results` body as the results page receives it. */
  function ToResults(session: Backend.SessionRow, conversations: seq<Backend.ConversationRow>, videoUrl: Option<string>): Results.ResultsData {
    Results.ResultsData(
      Results.SessionInfo(session.id, session.title, session.isYoutube, session.youtubeId, session.videoPath,
                          Text.NatToString(session.timestamp), session.transcript, session.summary),
      Seqs.Map(conversations, ToConversation),
      videoUrl)
  }

  /** The `Content-Disposition` header `send_file` writes for an attachment.
      The download names the backend produces hold only letters, digits,
      `_` and `.`, so the name goes out unquoted. */
  function DispositionOf(r: Backend.Response): Option<string> {
    if r.body.Attachment? then Some("attachment; filename=" + r.body.downloadName) else None
  }

  const ContentDisposition := "Content-Disposition"

  /** The response headers every cross-origin page may read. */
  const Safelisted: set<string> :=
    {"Cache-Control", "Content-Language", "Content-Length", "Content-Type", "Expires", "Last-Modified", "Pragma"}

  /** The headers the backends expose beyond those: as written,
      `CORS(app, supports_credentials=True)` names none. */
  const ExposedAsWritten: set<string> := {}

  /** With `expose_headers=["Content-Disposition"]` added to the `CORS` call. */
  const ExposedCorrected: set<string> := {ContentDisposition}

  /** What `response.headers.get(name)` gives the page, which runs on another
      origin than the backend, for a header the server sent: a header that
      is neither safelisted nor exposed reads as `null`. */
  function Readable(name: string, sent: Option<string>, exposed: set<string>): (r: Option<string>)
    ensures name in Safelisted || name in exposed ==> r == sent
    ensures name !in Safelisted && name !in exposed ==> r.None?
  {
    if name in Safelisted || name in exposed then sent else None
  }

  /** A download the server grants is an attachment under the sanitised title. */
  lemma GrantedDownload(st: Backend.Store, cookie: Backend.Cookie, sessionId: string)
    requires Videos.DownloadTranscript(st, cookie, sessionId).status == 200
    ensures var body := Videos.DownloadTranscript(st, cookie, sessionId).body;
            body.Attachment? && body.downloadName != Api.DefaultFilename
            && (forall i :: 0 <= i < |body.downloadName| ==>
                  body.downloadName[i] != '"' && body.downloadName[i] != '\'' && body.downloadName[i] != '=')
  {
    var a := Backend.Authorize(st, cookie, sessionId);
    assert a.Granted?;
    var name := Media.DownloadName(a.row.title);
    assert |name| != |Api.DefaultFilename|;
  }

  /** As written, the page cannot read the `Content-Disposition` of a granted
      download: every transcript is saved as `transcript.txt`, never under
      the name the server chose. */
  lemma DownloadLosesServerName(st: Backend.Store, cookie: Backend.Cookie, sessionId: string, json: Result<Api.Doc<()>>)
    requires Videos.DownloadTranscript(st, cookie, sessionId).status == 200
    ensures var resp := Videos.DownloadTranscript(st, cookie, sessionId);
            var seen := Readable(ContentDisposition, DispositionOf(resp), ExposedAsWritten);
            Api.Call(Api.DownloadTranscript(sessionId).endpoint, Api.NoOptions, Api.Delivered(200, seen, json)).outcome
              == Api.Downloaded(Api.DefaultFilename)
            && resp.body.downloadName != Api.DefaultFilename
  {
    var resp := Videos.DownloadTranscript(st, cookie, sessionId);
    GrantedDownload(st, cookie, sessionId);
    assert ContentDisposition !in Safelisted;
    assert Readable(ContentDisposition, DispositionOf(resp), ExposedAsWritten).None?;
    assert Api.Filename(None) == Ok(Api.DefaultFilename);
    Api.OnlyTranscriptDownloads(sessionId);
  }

  /** With the header exposed, the page saves the transcript under the name
      the server put in `Content-Disposition`. */
  lemma DownloadKeepsServerName(st: Backend.Store, cookie: Backend.Cookie, sessionId: string, json: Result<Api.Doc<()>>)
    requires Videos.DownloadTranscript(st, cookie, sessionId).status == 200
    ensures var resp := Videos.DownloadTranscript(st, cookie, sessionId);
            var seen := Readable(ContentDisposition, DispositionOf(resp), ExposedCorrected);
            Api.Call(Api.DownloadTranscript(sessionId).endpoint, Api.NoOptions, Api.Delivered(200, seen, json)).outcome
              == Api.Downloaded(resp.body.downloadName)
  {
    GrantedDownload(st, cookie, sessionId);
    var name := Videos.DownloadTranscript(st, cookie, sessionId).body.downloadName;
    Api.FilenameOfAttachment(name);
    Api.OnlyTranscriptDownloads(sessionId);
  }

  /** A YouTube session is played as the embed the server computed for it:
      the client's player and the server's `video_url` agree. */
  lemma PlayerMatchesServerUrl(st: Backend.Store, cookie: Backend.Cookie, sessionId: string, hostUrl: string, vParam: Option<string>)
    requires Videos.Results(st, cookie, sessionId, hostUrl).status == 200
    requires var row := Videos.Results(st, cookie, sessionId, hostUrl).body.session;
             row.isYoutube && row.youtubeId.Some? && row.youtubeId.value != "" && '.' !in row.youtubeId.value
    ensures var body := Videos.Results(st, cookie, sessionId, hostUrl).body;
            var d := ToResults(body.session, body.conversations, body.videoUrl);
            body.videoUrl.Some?
            && VideoPlayer.Render(Results.VideoSource(Some(d)), d.session.isYoutube, vParam) == VideoPlayer.Embed(body.videoUrl.value)
  {
    var body := Videos.Results(st, cookie, sessionId, hostUrl).body;
    var d := ToResults(body.session, body.conversations, body.videoUrl);
    Results.YouTubeSessionEmbedsItsId(d, vParam);
  }

  /** The history search looks at titles, transcripts and summaries, but the
      `/history` entries carry no transcript or summary: a search matches an
      entry exactly when its lower-cased title contains the query. */
  lemma HistorySearchSeesOnlyTitles(item: Backend.HistoryItem, q: string)
    ensures History.Matches(ToSession(item), q) <==> Text.Contains(Text.Lower(item.title), q)
  {
  }

  /** Hence, on the entries the server sends, a non-blank search keeps exactly
      the entries whose title matches, in the server's order. */
  lemma HistoryViewByTitle(items: seq<Backend.HistoryItem>, query: string)
    requires !History.Blank(query)
    ensures var shown := History.View(Seqs.Map(items, ToSession), query);
            (forall i :: 0 <= i < |shown| ==> Text.Contains(Text.Lower(shown[i].title), Text.Lower(query)))
            && (forall i :: 0 <= i < |items| && Text.Contains(Text.Lower(items[i].title), Text.Lower(query)) ==>
                  ToSession(items[i]) in shown)
  {
    var sessions := Seqs.Map(items, ToSession);
    forall i | 0 <= i < |items| && Text.Contains(Text.Lower(items[i].title), Text.Lower(query))
      ensures ToSession(items[i]) in History.View(sessions, query)
    {
      assert sessions[i] == ToSession(items[i]);
    }
  }

  /** `request.json.get(key)` on a JSON object the client encoded: the value
      of the first field with that key. */
  function Field(rec: Api.Record, key: string): (r: Option<string>)
    ensures r.Some? <==> exists i :: 0 <= i < |rec| && rec[i].0 == key
    ensures r.Some? ==> exists i :: 0 <= i < |rec| && rec[i] == (key, r.value)
  {
    if |rec| == 0 then None
    else if rec[0].0 == key then Some(rec[0].1)
    else Field(rec[1..], key)
  }

  /** The fields `/contact` reads from a client request, or none when the
      request carries no JSON object. */
  function ContactFields(req: Api.Request): (Option<string>, Option<string>, Option<string>) {
    match req.body
    case Some(Json(rec)) => (Field(rec, "name"), Field(rec, "email"), Field(rec, "message"))
    case _ => (None, None, None)
  }

  /** A complete contact form reaches the administrator: the request the page
      sends is accepted by `/contact`, and the stored message, unread, is in
      the administrator's list. */
  lemma ContactFormReachesAdmin(s: ContactPage.State, reply: Result<()>, st: Backend.Store, visitor: Backend.Cookie, admin: Backend.Cookie, now: nat)
    requires ContactPage.Complete(s) && Backend.IsAdmin(st, admin)
    ensures var sent := ContactPage.Submit(s, reply).sent;
            sent.Some?
            && var (name, email, message) := ContactFields(Api.Send(sent.value));
               var posted := Admin.ContactPost(st, visitor, name, email, message, now);
               posted.response.status == 200
               && var listed := Admin.ContactGet(posted.store, admin);
                  listed.status == 200
                  && Backend.ContactRow(st.nextContact, s.name, s.email, s.message, now, false) in listed.body.messages
  {
    var req := Api.Send(Api.SubmitContactForm(s.name, s.email, s.message));
    assert req.body == Some(Api.Json([("name", s.name), ("email", s.email), ("message", s.message)]));
    var rec := [("name", s.name), ("email", s.email), ("message", s.message)];
    assert rec[1..] == [("email", s.email), ("message", s.message)];
    assert rec[1..][1..] == [("message", s.message)];
    assert Field(rec, "email") == Field(rec[1..], "email") == Some(s.email);
    assert Field(rec, "message") == Field(rec[1..][1..], "message") == Some(s.message);
    Admin.PostedMessageIsListed(st, visitor, admin, s.name, s.email, s.message, now);
  }

  /** As written, the contact table's "Mark as unread" on a read message
      shows it unread while `/mark_message` keeps it read: the table and the
      database disagree until the next load. */
  lemma UnreadToggleIsLost(st: Backend.Store, admin: Backend.Cookie, k: nat)
    requires Backend.IsAdmin(st, admin) && k < |st.contacts| && st.contacts[k].isRead
    ensures var shown := ContactMessages.Toggle(Seqs.Map(st.contacts, ToMessage), st.contacts[k].id, Ok(())).0;
            var stored := Admin.MarkMessage(st, admin, st.contacts[k].id).store.contacts;
            !shown[k].isRead && stored[k].isRead
            && shown != Seqs.Map(stored, ToMessage)
  {
    var id := st.contacts[k].id;
    var shown := ContactMessages.Toggle(Seqs.Map(st.contacts, ToMessage), id, Ok(())).0;
    var stored := Admin.MarkMessage(st, admin, id).store.contacts;
    assert Seqs.Map(st.contacts, ToMessage)[k] == ToMessage(st.contacts[k]);
    assert Seqs.Map(stored, ToMessage)[k] == ToMessage(stored[k]);
  }

  /** With a toggling `/mark_message`, every successful toggle leaves the
      table showing exactly what the database holds. */
  lemma ToggleKeepsTableInStep(st: Backend.Store, admin: Backend.Cookie, id: nat)
    requires Backend.IsAdmin(st, admin)
    ensures ContactMessages.Toggle(Seqs.Map(st.contacts, ToMessage), id, Ok(())).0
            == Seqs.Map(Admin.ToggleMessage(st, admin, id).store.contacts, ToMessage)
  {
    var shown := ContactMessages.Toggle(Seqs.Map(st.contacts, ToMessage), id, Ok(())).0;
    var stored := Seqs.Map(Admin.ToggleMessage(st, admin, id).store.contacts, ToMessage);
    forall i | 0 <= i < |st.contacts|
      ensures shown[i] == stored[i]
    {
      assert Seqs.Map(st.contacts, ToMessage)[i] == ToMessage(st.contacts[i]);
    }
  }

  /** The password button is enabled only with all three fields filled in,
      so a change the page sends is never refused for a missing field: the
      server answers 200 exactly when the current password is the caller's. */
  lemma EnabledPasswordFormReachesCheck(s: Profile.State, reply: Result<()>, st: Backend.Store, uid: nat, sha256: string -> string)
    requires !Profile.PasswordDisabled(s)
    ensures Profile.ChangePassword(s, reply).sent.Some? ==>
              var r := Accounts.ChangePassword(st, Some(uid), Some(s.currentPassword), Some(s.newPassword), sha256);
              r.response.status != 400 || r.response.body != Backend.Message("Current password and new password are required")
    ensures Profile.ChangePassword(s, reply).sent.Some? ==>
              var r := Accounts.ChangePassword(st, Some(uid), Some(s.currentPassword), Some(s.newPassword), sha256);
              (r.response.status == 200 <==>
                 exists i :: 0 <= i < |st.users| && st.users[i].id == uid && st.users[i].passwordHash == sha256(s.currentPassword))
  {
  }
}

=== FILE: history.dfy ===
/** The history page of `src/pages/History.tsx`: the user's sessions, a
    free-text search over them, and removal of a deleted session. The page
    keeps the fetched list and shows the search view of it; a React effect
    recomputes the view whenever the list or the query changes, so the view
    is a function of the two and is not stored. */
module History {
  import opened Wrappers
  import opened ClientData
  import Seqs
  import Text
  import HistoryCard

  datatype State = State(sessions: seq<Session>, query: string, isLoading: bool)

  const Initial := State([], "", true)

  /** The `/history` response: its `sessions` array. */
  datatype HistoryReply = HistoryReply(sessions: Option<seq<Session>>)

  /** An optional text field that is present, non-empty and contains `q` after
      lower-casing. */
  predicate FieldHas(field: Option<string>, q: string) {
    field.Some? && Text.Truthy(field.value) && Text.Contains(Text.Lower(field.value), q)
  }

  /** A session matches a lower-cased query through its title, transcript or summary. */
  predicate Matches(s: Session, q: string) {
    Text.Contains(Text.Lower(s.title), q) || FieldHas(s.transcript, q) || FieldHas(s.summary, q)
  }

  function MatchesQuery(q: string): Session -> bool {
    (s: Session) => Matches(s, q)
  }

  predicate Blank(query: string) {
    Text.Trim(query, Text.JsSpace) == ""
  }

  /** The sessions shown for a query: all of them for a blank query, otherwise
      those matching the lower-cased (untrimmed) query, in their original order. */
  function View(sessions: seq<Session>, query: string): (r: seq<Session>)
    ensures Blank(query) ==> r == sessions
    ensures !Blank(query) ==> forall i :: 0 <= i < |r| ==> r[i] in sessions && Matches(r[i], Text.Lower(query))
    ensures !Blank(query) ==> forall i :: 0 <= i < |sessions| && Matches(sessions[i], Text.Lower(query)) ==> sessions[i] in r
  {
    if Blank(query) then sessions else Seqs.Filter(sessions, MatchesQuery(Text.Lower(query)))
  }

  /** A query of white space alone shows every session. */
  lemma SpaceQueryShowsAll(sessions: seq<Session>, query: string)
    requires Text.AllSpace(query, Text.JsSpace)
    ensures View(sessions, query) == sessions
  {
    Text.TrimEmptyIff(query, Text.JsSpace);
  }

  /** The view deletes sessions but never reorders them, and searching the
      view again with the same query changes nothing. */
  lemma ViewIsStableSubsequence(sessions: seq<Session>, query: string)
    ensures Seqs.Subsequence(View(sessions, query), sessions)
    ensures View(View(sessions, query), query) == View(sessions, query)
  {
    if Blank(query) {
      Seqs.FilterKeepsAll(sessions, (_: Session) => true);
      Seqs.FilterIsSubsequence(sessions, (_: Session) => true);
    } else {
      Seqs.FilterIsSubsequence(sessions, MatchesQuery(Text.Lower(query)));
      Seqs.FilterIdempotent(sessions, MatchesQuery(Text.Lower(query)));
    }
  }

  function Other(id: string): Session -> bool {
    (s: Session) => s.id != id
  }

  /** `handleDeleteSession`: drops every session with the id and keeps the
      rest in order. */
  function Delete(sessions: seq<Session>, id: string): (r: seq<Session>)
    ensures forall i :: 0 <= i < |r| ==> r[i].id != id && r[i] in sessions
    ensures forall i :: 0 <= i < |sessions| && sessions[i].id != id ==> sessions[i] in r
    ensures Seqs.Subsequence(r, sessions)
  {
    Seqs.FilterIsSubsequence(sessions, Other(id));
    Seqs.Filter(sessions, Other(id))
  }

  /** Deleting and then searching shows what searching and then deleting
      shows: removal never disturbs the rest of the view. */
  lemma DeleteCommutesWithView(sessions: seq<Session>, query: string, id: string)
    ensures View(Delete(sessions, id), query) == Delete(View(sessions, query), id)
  {
    if !Blank(query) {
      Seqs.FilterCommute(sessions, Other(id), MatchesQuery(Text.Lower(query)));
    }
  }

  /** The fetch effect: signed-out users get no request; a resolved call
      replaces the list; a failed call keeps it. Loading always ends. */
  function Load(s: State, isAuthenticated: bool, reply: Result<HistoryReply>): (r: State)
    ensures !r.isLoading && r.query == s.query
    ensures isAuthenticated && reply.Ok? ==> r.sessions == reply.value.sessions.GetOr([])
    ensures !(isAuthenticated && reply.Ok?) ==> r.sessions == s.sessions
  {
    if isAuthenticated && reply.Ok? then State(reply.value.sessions.GetOr([]), s.query, false)
    else s.(isLoading := false)
  }

  function SetQuery(s: State, query: string): State {
    s.(query := query)
  }

  /** A card's delete step as the page sees it: the list shrinks only when the
      card reports a completed deletion. */
  function OnCardDelete(s: State, step: HistoryCard.DeleteStep): (r: State)
    ensures step.removed.None? ==> r == s
    ensures step.removed.Some? ==> r.sessions == Delete(s.sessions, step.removed.value) && r.query == s.query
  {
    match step.removed
    case None => s
    case Some(id) => s.(sessions := Delete(s.sessions, id))
  }
}

=== FILE: history_card.dfy ===
/** One analysed video in a list (`src/components/HistoryCard.tsx`): its
    thumbnail, duration badge and question count, and its download and
    delete actions. */
module HistoryCard {
  import opened Wrappers
  import opened ClientData
  import Api
  import Text

  const UploadThumbnail := "/upload.png"

  function YouTubeThumbnail(youtubeId: string): string {
    "https://img.youtube.com/vi/" + youtubeId + "/hqdefault.jpg"
  }

  /** `formatDuration`: whole minutes, a colon, and the remaining seconds as
      two digits. */
  function FormatDuration(seconds: nat): (r: string)
    ensures ParseDuration(r) == Some(seconds)
  {
    var minutes := Text.NatToString(seconds / 60);
    var rest := Text.Pad2(seconds % 60);
    Text.ParseNatToString(seconds / 60);
    Text.DigitsExclude(minutes, ':');
    Text.DigitsExclude(rest, ':');
    Text.SplitJoin([minutes, rest], ':');
    assert Text.Join([minutes, rest], ':') == minutes + ":" + rest;
    minutes + ":" + rest
  }

  /** Reads "M:SS" back into seconds: the inverse of `FormatDuration`. */
  function ParseDuration(text: string): Option<nat> {
    var parts := Text.Split(text, ':');
    if |parts| != 2 || |parts[1]| != 2 then None
    else
      match (Text.ParseNat(parts[0]), Text.ParseNat(parts[1]))
      case (Some(m), Some(ss)) => if ss < 60 then Some(m * 60 + ss) else None
      case _ => None
  }

  /** `getThumbnail`: the session's own thumbnail, else the YouTube still,
      else the upload placeholder; never empty. */
  function Thumbnail(s: Session): (r: string)
    ensures r != ""
    ensures s.thumbnail.Some? && Text.Truthy(s.thumbnail.value) ==> r == s.thumbnail.value
    ensures (!(s.thumbnail.Some? && Text.Truthy(s.thumbnail.value)) && s.isYoutube
             && s.youtubeId.Some? && Text.Truthy(s.youtubeId.value)) ==> r == YouTubeThumbnail(s.youtubeId.value)
  {
    if s.thumbnail.Some? && Text.Truthy(s.thumbnail.value) then s.thumbnail.value
    else if s.isYoutube && s.youtubeId.Some? && Text.Truthy(s.youtubeId.value) then YouTubeThumbnail(s.youtubeId.value)
    else UploadThumbnail
  }

  /** The duration badge, shown only for a non-zero duration. */
  function Badge(s: Session): (r: Option<string>)
    ensures r.Some? <==> s.duration.Some? && s.duration.value != 0
    ensures r.Some? ==> ParseDuration(r.value) == s.duration
  {
    if s.duration.Some? && s.duration.value != 0 then Some(FormatDuration(s.duration.value)) else None
  }

  /** `conversation_count || 0`. */
  function QuestionCount(s: Session): int {
    s.conversationCount.GetOr(0)
  }

  const Downloaded := "Transcript downloaded successfully"
  const DownloadFailed := "Failed to download transcript"
  const Deleted := "Analysis deleted successfully"
  const DeleteFailed := "Failed to delete analysis"

  /** `handleDownload`: the toast that follows the transcript download. */
  function HandleDownload(reply: Result<()>): (effects: seq<Effect>)
    ensures reply.Ok? <==> effects == [ToastSuccess(Downloaded)]
    ensures reply.Err? <==> effects == [ToastError(DownloadFailed)]
  {
    if reply.Ok? then [ToastSuccess(Downloaded)] else [ToastError(DownloadFailed)]
  }

  /** A delete: the request sent, the id reported to the list, and the toast. */
  datatype DeleteStep = DeleteStep(sent: Option<Api.Route>, removed: Option<string>, effects: seq<Effect>)

  /** `handleDelete`: nothing happens unless the user confirms; the parent
      list is told to drop the session only after the server deleted it. */
  function HandleDelete(s: Session, confirmed: bool, reply: Result<()>): (r: DeleteStep)
    ensures !confirmed ==> r == DeleteStep(None, None, [])
    ensures confirmed ==> r.sent == Some(Api.DeleteSession(s.id))
    ensures r.removed.Some? <==> confirmed && reply.Ok?
    ensures r.removed.Some? ==> r.removed.value == s.id && r.effects == [ToastSuccess(Deleted)]
    ensures confirmed && reply.Err? ==> r.effects == [ToastError(DeleteFailed)]
  {
    if !confirmed then DeleteStep(None, None, [])
    else if reply.Ok? then DeleteStep(Some(Api.DeleteSession(s.id)), Some(s.id), [ToastSuccess(Deleted)])
    else DeleteStep(Some(Api.DeleteSession(s.id)), None, [ToastError(DeleteFailed)])
  }
}

=== FILE: process_page.dfy ===
/** The analysis page of `src/pages/Process.tsx`: it forwards the uploader's
    form to `/process` when signed in, and on success opens the results page
    of the new session. */
module ProcessPage {
  import opened Wrappers
  import opened ClientData
  import Api
  import Text
  import Uploader

  /** The `/process` response: its `session_id`. */
  datatype ProcessReply = ProcessReply(sessionId: Option<string>)

  /** After a submit: the `isProcessing` flag, the request sent, and what was shown. */
  datatype Step = Step(isProcessing: bool, sent: Option<Api.Route>, effects: seq<Effect>)

  const NotSignedIn := "Please log in to analyze videos"
  const Processed := "Video processed successfully!"
  const NoSession := "Failed to process video."
  const Failed := "An error occurred while processing the video."

  function ResultsPath(sessionId: string): string {
    "/results/" + sessionId
  }

  /** `handleSubmit`: signed-out users are sent to the login page and nothing is
      uploaded; otherwise the form is posted, and the results page opens
      exactly when the server returned a non-empty session id. */
  function HandleSubmit(isProcessing: bool, isAuthenticated: bool, form: Api.FormData, reply: Result<ProcessReply>): (r: Step)
    ensures !isAuthenticated ==>
              r.sent.None? && r.isProcessing == isProcessing
              && r.effects == [ToastError(NotSignedIn), Navigate("/login")]
    ensures isAuthenticated ==> r.sent == Some(Api.ProcessVideo(form)) && !r.isProcessing && |r.effects| >= 1
    ensures isAuthenticated ==>
              ((exists id :: Navigate(ResultsPath(id)) in r.effects)
               <==> reply.Ok? && reply.value.sessionId.Some? && Text.Truthy(reply.value.sessionId.value))
    ensures isAuthenticated && reply.Ok? && reply.value.sessionId.Some? && Text.Truthy(reply.value.sessionId.value) ==>
              r.effects == [ToastSuccess(Processed), Navigate(ResultsPath(reply.value.sessionId.value))]
    ensures isAuthenticated && reply.Err? ==> r.effects == [ToastError(Failed)]
  {
    if !isAuthenticated then Step(isProcessing, None, [ToastError(NotSignedIn), Navigate("/login")])
    else
      var effects :=
        match reply
        case Err(_) => [ToastError(Failed)]
        case Ok(data) =>
          if data.sessionId.Some? && Text.Truthy(data.sessionId.value) then
            [ToastSuccess(Processed), Navigate(ResultsPath(data.sessionId.value))]
          else [ToastError(NoSession)];
      Step(false, Some(Api.ProcessVideo(form)), effects)
  }

  /** The uploader's submit as seen from the page: without a form nothing
      happens; with one, the page handles it. */
  function SubmitFromUploader(u: Uploader.State, isProcessing: bool, isAuthenticated: bool, reply: Result<ProcessReply>): (r: Step)
    ensures Uploader.Payload(u).None? ==> r == Step(isProcessing, None, [])
    ensures r.sent.Some? ==> Uploader.Payload(u).Some? && isAuthenticated
                             && r.sent.value.options.body == Some(Api.Form(Uploader.Payload(u).value))
  {
    match Uploader.Payload(u)
    case None => Step(isProcessing, None, [])
    case Some(form) => HandleSubmit(isProcessing, isAuthenticated, form, reply)
  }
}

=== FILE: profile.dfy ===
/** The account page of `src/pages/MyProfile.tsx`: profile fields prefilled
    from the signed-in user, a profile update that refreshes the session, and
    a password change guarded by a confirmation field. */
module Profile {
  import opened Wrappers
  import opened ClientData
  import Api
  import Auth

  datatype State = State(
    username: string,
    email: string,
    currentPassword: string,
    newPassword: string,
    confirmPassword: string,
    isLoading: bool)

  const Initial := State("", "", "", "", "", false)

  const ProfileUpdated := "Profile updated successfully"
  const ProfileFailed := "Failed to update profile"
  const Mismatch := "New passwords do not match"
  const PasswordChanged := "Password changed successfully"
  const PasswordFailed := "Failed to change password"

  /** The auth effect: signed-out visitors are sent to the login page; a
      signed-in user's name and email fill the form. */
  function OnAuth(s: State, isAuthenticated: bool, user: Option<User>): (r: (State, seq<Effect>))
    ensures !isAuthenticated ==> r == (s, [Navigate("/login")])
    ensures isAuthenticated && user.Some? ==>
              r.1 == [] && r.0 == s.(username := user.value.username, email := user.value.email)
    ensures isAuthenticated && user.None? ==> r == (s, [])
  {
    if !isAuthenticated then (s, [Navigate("/login")])
    else if user.Some? then (s.(username := user.value.username, email := user.value.email), [])
    else (s, [])
  }

  /** Opening `/profile` by its address mounts the page before the session
      check returns: the initial auth state already sends a signed-in user
      to the login page, although the check would have signed them in. */
  lemma ReloadSendsUserToLogin(s: State, user: User, message: Option<string>)
    ensures OnAuth(s, Auth.Initial.isAuthenticated, Auth.Initial.user).1 == [Navigate("/login")]
    ensures Auth.CheckAuth(Auth.Initial, Ok(Api.Doc(message, Some(user)))).state.isAuthenticated
  {
  }

  /** The corrected effect: nothing while the session check is pending, then
      as written. */
  function OnAuthChecked(s: State, a: Auth.State): (r: (State, seq<Effect>))
    ensures a.isLoading ==> r == (s, [])
    ensures !a.isLoading && !a.isAuthenticated ==> r == (s, [Navigate("/login")])
    ensures !a.isLoading && a.isAuthenticated && a.user.Some? ==>
              r == (s.(username := a.user.value.username, email := a.user.value.email), [])
  {
    if a.isLoading then (s, []) else OnAuth(s, a.isAuthenticated, a.user)
  }

  /** With the correction, reopening `/profile` keeps a signed-in user on the
      page, and the form is filled from the user the check reports. */
  lemma PrefillWaitsForAuth(s: State, user: User, message: Option<string>)
    ensures OnAuthChecked(s, Auth.Initial) == (s, [])
    ensures OnAuthChecked(s, Auth.CheckAuth(Auth.Initial, Ok(Api.Doc(message, Some(user)))).state)
            == (s.(username := user.username, email := user.email), [])
  {
  }

  function UpdateRoute(s: State): Api.Route {
    Api.Route("/update_profile", Api.Post(Some(Api.Object([("username", s.username), ("email", s.email)]))))
  }

  /** After a profile update: the state, what was shown, and whether the
      session is re-checked. */
  datatype Updated = Updated(state: State, effects: seq<Effect>, refreshSession: bool)

  /** `handleUpdateProfile`: the form's name and email are posted; success is
      toasted and re-checks the session so the new values reach the context. */
  function UpdateProfile(s: State, reply: Result<()>): (r: Updated)
    ensures !r.state.isLoading
    ensures r.state.(isLoading := s.isLoading) == s
    ensures r.refreshSession <==> reply.Ok?
    ensures r.effects == (if reply.Ok? then [ToastSuccess(ProfileUpdated)] else [ToastError(ProfileFailed)])
  {
    if reply.Ok? then Updated(s.(isLoading := false), [ToastSuccess(ProfileUpdated)], true)
    else Updated(s.(isLoading := false), [ToastError(ProfileFailed)], false)
  }

  /** A saved profile survives the session refresh that follows it: when the
      check reports the saved name and email, the prefill leaves the form as
      the user typed it. */
  lemma SavedProfileSurvivesRefresh(s: State, a: Auth.State, user: User, message: Option<string>)
    requires user.username == s.username && user.email == s.email
    ensures var u := UpdateProfile(s, Ok(()));
            u.refreshSession
            && OnAuthChecked(u.state, Auth.CheckAuth(a, Ok(Api.Doc(message, Some(user)))).state) == (u.state, [])
  {
  }

  /** A failed update keeps the form, so trying again posts the same fields. */
  lemma FailedUpdateRetriesSame(s: State, error: string)
    ensures UpdateRoute(UpdateProfile(s, Err(error)).state) == UpdateRoute(s)
    ensures !UpdateProfile(s, Err(error)).refreshSession
  {
  }

  /** The password button is disabled while loading or with any field empty;
      it is enabled only when every field holds something to send. */
  function PasswordDisabled(s: State): (r: bool)
    ensures !r <==> !s.isLoading && |s.currentPassword| > 0 && |s.newPassword| > 0 && |s.confirmPassword| > 0
  {
    s.isLoading || s.currentPassword == "" || s.newPassword == "" || s.confirmPassword == ""
  }

  function PasswordRoute(s: State): Api.Route {
    Api.Route("/change_password", Api.Post(Some(Api.Object([("current_password", s.currentPassword), ("new_password", s.newPassword)]))))
  }

  datatype Changed = Changed(state: State, effects: seq<Effect>, sent: Option<Api.Route>)

  /** `handleChangePassword`: mismatched new passwords are rejected before any
      request; otherwise the change is posted and, on success, the three
      password fields are cleared. The profile fields never change. */
  function ChangePassword(s: State, reply: Result<()>): (r: Changed)
    ensures s.newPassword != s.confirmPassword ==> r == Changed(s, [ToastError(Mismatch)], None)
    ensures r.sent.Some? <==> s.newPassword == s.confirmPassword
    ensures r.sent.Some? ==> r.sent == Some(PasswordRoute(s)) && !r.state.isLoading
    ensures r.state.username == s.username && r.state.email == s.email
    ensures r.sent.Some? && reply.Ok? ==>
              r.state.currentPassword == "" && r.state.newPassword == "" && r.state.confirmPassword == ""
              && r.effects == [ToastSuccess(PasswordChanged)]
    ensures r.sent.Some? && reply.Err? ==> r.state == s.(isLoading := false) && r.effects == [ToastError(PasswordFailed)]
  {
    if s.newPassword != s.confirmPassword then Changed(s, [ToastError(Mismatch)], None)
    else if reply.Ok? then
      Changed(s.(currentPassword := "", newPassword := "", confirmPassword := "", isLoading := false),
              [ToastSuccess(PasswordChanged)], Some(PasswordRoute(s)))
    else Changed(s.(isLoading := false), [ToastError(PasswordFailed)], Some(PasswordRoute(s)))
  }

  /** A failed change keeps every field, so trying again sends the same
      request; a mismatch is caught again before any request. */
  lemma FailedChangeRetriesSame(s: State, error: string, reply: Result<()>)
    ensures ChangePassword(ChangePassword(s, Err(error)).state, reply).sent == ChangePassword(s, reply).sent
  {
  }

  /** A successful change leaves the form unable to submit again until all
      three fields are typed anew. */
  lemma ChangedFormIsDisabled(s: State)
    requires s.newPassword == s.confirmPassword
    ensures PasswordDisabled(ChangePassword(s, Ok(())).state)
  {
  }

  /** The notification switches are local only: saving them shows a toast. */
  function SaveNotifications(): (effects: seq<Effect>)
    ensures effects == [ToastSuccess("Notification preferences updated")]
  {
    [ToastSuccess("Notification preferences updated")]
  }
}

=== FILE: qa.dfy ===
/** The question-and-answer panel of `src/components/QASection.tsx`: an
    optimistic pending entry is appended on submit and later either filled in
    with the server's answer or rolled back. The clock (`Date.now()`) and the
    ISO timestamp are parameters. */
module QA {
  import opened Wrappers
  import opened ClientData
  import Seqs
  import Text
  import Api

  /** The answer shown while a question is in flight. */
  const PendingAnswer := "..."
  const FailureToast := "Failed to get an answer. Please try again."

  datatype State = State(question: string, messages: seq<Conversation>, isLoading: bool)

  /** The `/ask` response: `conversation_id` and `answer`. */
  datatype Answer = Answer(conversationId: Option<int>, answer: string)

  function Init(initial: seq<Conversation>): State {
    State("", initial, false)
  }

  /** A question is sent only when it is not blank and nothing is in flight:
      `question.trim()` is non-empty exactly when some character is not
      white space. */
  function CanSubmit(s: State): (r: bool)
    ensures r <==> !s.isLoading && exists i :: 0 <= i < |s.question| && !Text.JsSpace(s.question[i])
  {
    Text.TrimEmptyIff(s.question, Text.JsSpace);
    Text.Trim(s.question, Text.JsSpace) != "" && !s.isLoading
  }

  predicate IsPending(m: Conversation) {
    m.answer == PendingAnswer
  }

  /** The pending entry created at clock `now`: the question as typed, untrimmed. */
  function PendingEntry(question: string, now: int, iso: string): Conversation {
    Conversation(now, question, PendingAnswer, iso)
  }

  /** What a submit produced: the new state, and the request sent, if any. */
  datatype Submitted = Submitted(state: State, sent: Option<Api.Route>)

  /** `handleSubmit` up to the awaited call. */
  function Submit(s: State, sessionId: string, now: int, iso: string): (r: Submitted)
    ensures !CanSubmit(s) ==> r == Submitted(s, None)
    ensures CanSubmit(s) ==>
              r.state.isLoading && r.state.question == ""
              && |r.state.messages| == |s.messages| + 1
              && r.state.messages[..|s.messages|] == s.messages
              && IsPending(r.state.messages[|s.messages|])
              && r.state.messages[|s.messages|].id == now
              && r.state.messages[|s.messages|].question == s.question
              && r.state.messages[|s.messages|].timestamp == iso
              && r.sent == Some(Api.AskQuestion(sessionId, s.question))
  {
    if !CanSubmit(s) then Submitted(s, None)
    else
      var entry := PendingEntry(s.question, now, iso);
      Submitted(State("", s.messages + [entry], true), Some(Api.AskQuestion(sessionId, s.question)))
  }

  /** A question made only of white space is never sent. */
  lemma BlankNeverSent(s: State, sessionId: string, now: int, iso: string)
    requires Text.AllSpace(s.question, Text.JsSpace)
    ensures Submit(s, sessionId, now, iso).sent.None?
    ensures Submit(s, sessionId, now, iso).state == s
  {
    Text.TrimEmptyIff(s.question, Text.JsSpace);
  }

  /** The id kept by an answered entry: `data.conversation_id || msg.id`. */
  function AnsweredId(a: Answer, pendingId: int): int {
    if a.conversationId.Some? && a.conversationId.value != 0 then a.conversationId.value else pendingId
  }

  function Fill(a: Answer, pendingId: int): Conversation -> Conversation {
    (m: Conversation) => if m.id == pendingId then m.(id := AnsweredId(a, pendingId), answer := a.answer) else m
  }

  /** Fills in every entry carrying the pending id; every other entry is left as is. */
  function Resolve(messages: seq<Conversation>, pendingId: int, a: Answer): (r: seq<Conversation>)
    ensures |r| == |messages|
    ensures forall i :: 0 <= i < |messages| && messages[i].id != pendingId ==> r[i] == messages[i]
    ensures forall i :: 0 <= i < |messages| && messages[i].id == pendingId ==>
              r[i].answer == a.answer && r[i].question == messages[i].question
              && r[i].timestamp == messages[i].timestamp && r[i].id == AnsweredId(a, pendingId)
  {
    Seqs.Map(messages, Fill(a, pendingId))
  }

  function Other(id: int): Conversation -> bool {
    (m: Conversation) => m.id != id
  }

  /** The rollback as written: it drops entries whose id equals the clock read
      again inside the error handler, `laterNow`, not the pending entry's id. */
  function SettleAsWritten(s: State, pendingId: int, reply: Result<Answer>, laterNow: int): (r: (State, seq<Effect>))
    ensures !r.0.isLoading && r.0.question == s.question
    ensures reply.Ok? ==> r.1 == [] && r.0.messages == Resolve(s.messages, pendingId, reply.value)
    ensures reply.Err? ==> r.1 == [ToastError(FailureToast)]
    ensures reply.Err? ==> forall i :: 0 <= i < |r.0.messages| ==> r.0.messages[i].id != laterNow
    ensures reply.Err? ==> forall i :: 0 <= i < |s.messages| && s.messages[i].id != laterNow ==> s.messages[i] in r.0.messages
  {
    match reply
    case Ok(a) => (s.(messages := Resolve(s.messages, pendingId, a), isLoading := false), [])
    case Err(_) => (s.(messages := Seqs.Filter(s.messages, Other(laterNow)), isLoading := false), [ToastError(FailureToast)])
  }

  /** The rollback as evidently intended: it drops the pending entry itself. */
  function Settle(s: State, pendingId: int, reply: Result<Answer>): (r: (State, seq<Effect>))
    ensures !r.0.isLoading && r.0.question == s.question
    ensures reply.Ok? ==> r.1 == [] && r.0.messages == Resolve(s.messages, pendingId, reply.value)
    ensures reply.Err? ==> r.1 == [ToastError(FailureToast)]
    ensures reply.Err? ==> forall i :: 0 <= i < |r.0.messages| ==> r.0.messages[i].id != pendingId
    ensures reply.Err? ==> forall i :: 0 <= i < |s.messages| && s.messages[i].id != pendingId ==> s.messages[i] in r.0.messages
  {
    match reply
    case Ok(a) => (s.(messages := Resolve(s.messages, pendingId, a), isLoading := false), [])
    case Err(_) => (s.(messages := Seqs.Filter(s.messages, Other(pendingId)), isLoading := false), [ToastError(FailureToast)])
  }

  /** No earlier entry carries the id `now`. */
  predicate FreshId(messages: seq<Conversation>, now: int) {
    forall i :: 0 <= i < |messages| ==> messages[i].id != now
  }

  /** A successful exchange appends exactly one settled entry: the question as
      typed, the server's answer, and the server's id when it sent one. */
  lemma ExchangeAppendsAnswer(s: State, sessionId: string, now: int, iso: string, a: Answer)
    requires CanSubmit(s) && FreshId(s.messages, now)
    ensures var mid := Submit(s, sessionId, now, iso).state;
            var fin := Settle(mid, now, Ok(a)).0;
            fin.messages == s.messages + [Conversation(AnsweredId(a, now), s.question, a.answer, iso)]
            && !fin.isLoading
  {
    var mid := Submit(s, sessionId, now, iso).state;
    var fin := Settle(mid, now, Ok(a)).0;
    assert mid.messages == s.messages + [PendingEntry(s.question, now, iso)];
    assert fin.messages == s.messages + [Conversation(AnsweredId(a, now), s.question, a.answer, iso)] by {
      forall i | 0 <= i < |s.messages|
        ensures fin.messages[i] == s.messages[i]
      {
        assert mid.messages[i] == s.messages[i];
      }
    }
  }

  /** As written: when the failure arrives in a later millisecond than the
      submit, the pending entry survives the rollback and its `...` placeholder
      stays on screen. */
  lemma {:induction false} RollbackMissesPending(s: State, sessionId: string, now: int, iso: string, laterNow: int, error: string)
    requires CanSubmit(s) && FreshId(s.messages, laterNow) && laterNow != now
    ensures var mid := Submit(s, sessionId, now, iso).state;
            var fin := SettleAsWritten(mid, now, Err(error), laterNow).0;
            fin.messages == mid.messages
            && IsPending(fin.messages[|fin.messages| - 1]) && fin.messages[|fin.messages| - 1].id == now
  {
    var mid := Submit(s, sessionId, now, iso).state;
    forall i | 0 <= i < |mid.messages|
      ensures Other(laterNow)(mid.messages[i])
    {
      if i < |s.messages| {
        assert mid.messages[i] == s.messages[i];
      }
    }
    Seqs.FilterKeepsAll(mid.messages, Other(laterNow));
  }

  /** Corrected: a failed exchange restores the list exactly as it was before
      the submit. */
  lemma {:induction false} RollbackRestores(s: State, sessionId: string, now: int, iso: string, error: string)
    requires CanSubmit(s) && FreshId(s.messages, now)
    ensures var mid := Submit(s, sessionId, now, iso).state;
            var fin := Settle(mid, now, Err(error)).0;
            fin.messages == s.messages && !fin.isLoading
  {
    var entry := PendingEntry(s.question, now, iso);
    assert Submit(s, sessionId, now, iso).state.messages == s.messages + [entry];
    Seqs.FilterAppend(s.messages, [entry], Other(now));
    Seqs.FilterKeepsAll(s.messages, Other(now));
    assert Seqs.Filter([entry], Other(now)) == [];
  }
}

=== FILE: report_bug.dfy ===
/** The bug report form of `src/pages/ReportBug.tsx`: name and email come
    from the signed-in user and are locked while signed in; the bug type is
    folded into the message posted to `/contact`. */
module ReportBug {
  import opened Wrappers
  import opened ClientData
  import Api
  import Text

  datatype State = State(name: string, email: string, bugType: string, message: string, isSubmitting: bool)

  const Incomplete := "Please fill out all required fields"
  const Reported := "Bug report submitted successfully"
  const ReportFailed := "Failed to submit bug report"

  /** The body's `message`: the bug type, a blank line, then the text. */
  function Body(bugType: string, message: string): (r: string)
    ensures |r| == |"Bug Type: "| + |bugType| + 2 + |message|
    ensures r[..10] == "Bug Type: " && r[|r| - |message|..] == message
    ensures r[10..10 + |bugType|] == bugType && r[10 + |bugType|..12 + |bugType|] == "\n\n"
  {
    "Bug Type: " + bugType + "\n\n" + message
  }

  function ReportRoute(s: State): Api.Route {
    Api.Route("/contact", Api.Post(Some(Api.Object([("name", s.name), ("email", s.email), ("message", Body(s.bugType, s.message))]))))
  }

  /** The form as first rendered: the `useState` initialisers read the user
      of that moment and are never re-run. */
  function MountAsWritten(user: Option<User>): (s: State)
    ensures user.None? ==> s.name == "" && s.email == ""
    ensures user.Some? ==> s.name == user.value.username && s.email == user.value.email
    ensures s.bugType == "" && s.message == "" && !s.isSubmitting
  {
    match user
    case None => State("", "", "", "", false)
    case Some(u) => State(Text.Or(Some(u.username), ""), Text.Or(Some(u.email), ""), "", "", false)
  }

  /** Typing into the name or email input; the inputs are disabled while
      signed in, so the edit is lost then. */
  function EditContact(s: State, isAuthenticated: bool, name: string, email: string): (r: State)
    ensures isAuthenticated ==> r == s
    ensures !isAuthenticated ==> r == s.(name := name, email := email)
  {
    if isAuthenticated then s else s.(name := name, email := email)
  }

  /** The bug type and message stay editable in every case. */
  function EditReport(s: State, bugType: string, message: string): (r: State)
    ensures r.name == s.name && r.email == s.email
    ensures r.bugType == bugType && r.message == message
  {
    s.(bugType := bugType, message := message)
  }

  predicate Complete(s: State) {
    Text.Truthy(s.name) && Text.Truthy(s.email) && Text.Truthy(s.message)
  }

  datatype Submitted = Submitted(state: State, effects: seq<Effect>, sent: Option<Api.Route>)

  /** `handleSubmit`: an incomplete form is refused; a sent report clears the
      bug type and message always, and name and email only for a signed-out
      reporter. */
  function Submit(s: State, isAuthenticated: bool, reply: Result<()>): (r: Submitted)
    ensures r.sent.Some? <==> Complete(s)
    ensures !Complete(s) ==> r.state == s && r.effects == [ToastError(Incomplete)]
    ensures r.sent.Some? ==> r.sent == Some(ReportRoute(s)) && !r.state.isSubmitting
    ensures r.sent.Some? && reply.Ok? ==>
              r.effects == [ToastSuccess(Reported)] && r.state.bugType == "" && r.state.message == ""
              && (isAuthenticated ==> r.state.name == s.name && r.state.email == s.email)
              && (!isAuthenticated ==> r.state.name == "" && r.state.email == "")
    ensures r.sent.Some? && reply.Err? ==> r.state == s.(isSubmitting := false) && r.effects == [ToastError(ReportFailed)]
  {
    if !Complete(s) then Submitted(s, [ToastError(Incomplete)], None)
    else
      var sent := Some(ReportRoute(s));
      if reply.Ok? then
        var cleared := if isAuthenticated then s else s.(name := "", email := "");
        Submitted(cleared.(bugType := "", message := "", isSubmitting := false), [ToastSuccess(Reported)], sent)
      else Submitted(s.(isSubmitting := false), [ToastError(ReportFailed)], sent)
  }

  /** As written, opening the page by its address while signed in mounts it
      before the session check returns a user, so name and email start empty;
      once signed in, those inputs are locked, and no report can be sent,
      whatever is typed. */
  lemma ReloadedReportNeverSends(name: string, email: string, bugType: string, message: string, reply: Result<()>)
    ensures Submit(EditReport(EditContact(MountAsWritten(None), true, name, email), bugType, message), true, reply).sent.None?
  {
  }

  /** The corrected form keeps name and email in step with the signed-in
      user, as a `useEffect` on `user` would; a signed-out reporter's own
      entries are kept. */
  function SyncUser(s: State, user: Option<User>): (r: State)
    ensures user.Some? ==> r.name == user.value.username && r.email == user.value.email
    ensures user.None? ==> r == s
    ensures r.bugType == s.bugType && r.message == s.message && r.isSubmitting == s.isSubmitting
  {
    match user
    case None => s
    case Some(u) => s.(name := u.username, email := u.email)
  }

  /** With the correction, a signed-in user with a name and email can send a
      report however the page was opened. */
  lemma SyncedReportSends(mountedWith: Option<User>, u: User, bugType: string, message: string, reply: Result<()>)
    requires u.username != "" && u.email != "" && message != ""
    ensures Submit(EditReport(SyncUser(MountAsWritten(mountedWith), Some(u)), bugType, message), true, reply).sent
            == Some(ReportRoute(State(u.username, u.email, bugType, message, false)))
  {
  }
}

=== FILE: results.dfy ===
/** The results page of `src/pages/Results.tsx`: one session's analysis,
    loaded from `/results/<id>`, with the player source, the thumbnail, the
    long-transcript hint and the transcript download. */
module Results {
  import opened Wrappers
  import opened ClientData
  import Api
  import Text
  import VideoPlayer

  datatype SessionInfo = SessionInfo(
    id: string,
    title: string,
    isYoutube: bool,
    youtubeId: Option<string>,
    videoPath: Option<string>,
    timestamp: string,
    transcript: string,
    summary: string)

  /** The `/results/<id>` response. */
  datatype ResultsData = ResultsData(session: SessionInfo, conversations: seq<Conversation>, videoUrl: Option<string>)

  datatype State = State(data: Option<ResultsData>, isLoading: bool)

  const Initial := State(None, true)

  const LoadFailed := "Failed to load video analysis"
  const Downloaded := "Transcript downloaded successfully"
  const DownloadFailed := "Failed to download transcript"

  /** After the fetch effect: the state, what was shown, and the request sent. */
  datatype Loaded = Loaded(state: State, effects: seq<Effect>, sent: Option<Api.Route>)

  predicate HasId(sessionId: Option<string>) {
    sessionId.Some? && Text.Truthy(sessionId.value)
  }

  /** The fetch effect. Signed out: no request, loading ends. Signed in
      without an id: the effect returns before touching anything, so the
      loading flag stays as it was. Otherwise the results replace the data,
      or a failure keeps the old data and is toasted. */
  function Load(s: State, isAuthenticated: bool, sessionId: Option<string>, reply: Result<ResultsData>): (r: Loaded)
    ensures !isAuthenticated ==> r == Loaded(s.(isLoading := false), [], None)
    ensures isAuthenticated && !HasId(sessionId) ==> r == Loaded(s, [], None)
    ensures isAuthenticated && HasId(sessionId) ==>
              !r.state.isLoading && r.sent == Some(Api.GetResults(sessionId.value))
              && (reply.Ok? ==> r.state.data == Some(reply.value) && r.effects == [])
              && (reply.Err? ==> r.state.data == s.data && r.effects == [ToastError(LoadFailed)])
  {
    if !isAuthenticated then Loaded(s.(isLoading := false), [], None)
    else if !HasId(sessionId) then Loaded(s, [], None)
    else
      var sent := Some(Api.GetResults(sessionId.value));
      match reply
      case Ok(d) => Loaded(State(Some(d), false), [], sent)
      case Err(_) => Loaded(s.(isLoading := false), [ToastError(LoadFailed)], sent)
  }

  predicate HasYouTubeId(d: ResultsData) {
    d.session.isYoutube && d.session.youtubeId.Some? && Text.Truthy(d.session.youtubeId.value)
  }

  /** `getVideoUrl`: the bare YouTube id for YouTube sessions, else the
      server's `video_url`, else nothing. */
  function VideoSource(data: Option<ResultsData>): (r: string)
    ensures data.None? ==> r == ""
    ensures data.Some? && HasYouTubeId(data.value) ==> r == data.value.session.youtubeId.value
    ensures data.Some? && !HasYouTubeId(data.value) ==> r == Text.Or(data.value.videoUrl, "")
  {
    match data
    case None => ""
    case Some(d) => if HasYouTubeId(d) then d.session.youtubeId.value else Text.Or(d.videoUrl, "")
  }

  /** `getVideoThumbnail`: the YouTube still for YouTube sessions, else nothing. */
  function VideoThumbnail(data: Option<ResultsData>): (r: string)
    ensures r != "" <==> data.Some? && HasYouTubeId(data.value)
  {
    match data
    case None => ""
    case Some(d) =>
      if HasYouTubeId(d) then "https://img.youtube.com/vi/" + d.session.youtubeId.value + "/hqdefault.jpg" else ""
  }

  /** The "download for full transcript" hint appears past 500 characters,
      that is exactly when the first 500 are not the whole transcript. */
  function TranscriptHint(d: ResultsData): (r: bool)
    ensures r <==> 500 < |d.session.transcript|
    ensures r ==> d.session.transcript[..500] != d.session.transcript
  {
    |d.session.transcript| > 500
  }

  /** `handleDownloadTranscript`: without an id nothing happens; otherwise the
      download is requested and its outcome toasted. */
  function HandleDownload(sessionId: Option<string>, reply: Result<()>): (r: (Option<Api.Route>, seq<Effect>))
    ensures !HasId(sessionId) ==> r == (None, [])
    ensures HasId(sessionId) ==> r.0 == Some(Api.DownloadTranscript(sessionId.value)) && |r.1| == 1
    ensures HasId(sessionId) ==> (r.1 == [ToastSuccess(Downloaded)] <==> reply.Ok?)
  {
    if !HasId(sessionId) then (None, [])
    else if reply.Ok? then (Some(Api.DownloadTranscript(sessionId.value)), [ToastSuccess(Downloaded)])
    else (Some(Api.DownloadTranscript(sessionId.value)), [ToastError(DownloadFailed)])
  }

  /** A YouTube session whose id has no dot (every YouTube id) is played as
      the embed of exactly that id. */
  lemma YouTubeSessionEmbedsItsId(d: ResultsData, vParam: Option<string>)
    requires HasYouTubeId(d) && '.' !in d.session.youtubeId.value
    ensures VideoPlayer.Render(VideoSource(Some(d)), d.session.isYoutube, vParam)
            == VideoPlayer.Embed(VideoPlayer.EmbedPrefix + d.session.youtubeId.value)
  {
    var id := d.session.youtubeId.value;
    assert "youtube.com/watch"[7] == '.';
    assert "youtu.be"[5] == '.';
    Text.AbsentCharNoMatch(id, "youtube.com/watch", 7);
    Text.AbsentCharNoMatch(id, "youtu.be", 5);
  }
}

=== FILE: seqs.dfy ===
/** Order-preserving sequence operations: `Array.prototype.filter`, `map`,
    a SQL-style `COUNT`, and a descending sort standing for `ORDER BY ... DESC`. */
module Seqs {
  import opened Wrappers

  /** `s.filter(p)`: the elements of `s` satisfying `p`, in their original order. */
  function Filter<T>(s: seq<T>, p: T -> bool): (r: seq<T>)
    ensures |r| <= |s|
    ensures forall i :: 0 <= i < |r| ==> r[i] in s && p(r[i])
    ensures forall i :: 0 <= i < |s| && p(s[i]) ==> s[i] in r
    decreases |s|
  {
    if |s| == 0 then []
    else if p(s[0]) then [s[0]] + Filter(s[1..], p)
    else Filter(s[1..], p)
  }

  /** `s.map(f)`. */
  function Map<T, U>(s: seq<T>, f: T -> U): (r: seq<U>)
    ensures |r| == |s|
    ensures forall i :: 0 <= i < |s| ==> r[i] == f(s[i])
  {
    seq(|s|, i requires 0 <= i < |s| => f(s[i]))
  }

  /** The number of elements satisfying `p`. */
  function Count<T>(s: seq<T>, p: T -> bool): nat {
    |Filter(s, p)|
  }

  /** The elements of `s` whose flag in `keep` is set, in order. */
  function Select<T>(s: seq<T>, keep: seq<bool>): seq<T>
    requires |keep| == |s|
    decreases |s|
  {
    if |s| == 0 then []
    else (if keep[0] then [s[0]] else []) + Select(s[1..], keep[1..])
  }

  /** `a` is obtained from `b` by deleting elements: an order-preserving subsequence. */
  ghost predicate Subsequence<T>(a: seq<T>, b: seq<T>) {
    exists keep: seq<bool> :: |keep| == |b| && Select(b, keep) == a
  }

  /** Filtering deletes the rejected elements and keeps the others in order. */
  lemma {:induction false} FilterIsSelection<T>(s: seq<T>, p: T -> bool)
    ensures Filter(s, p) == Select(s, Map(s, p))
    decreases |s|
  {
    if |s| > 0 {
      FilterIsSelection(s[1..], p);
      assert Map(s, p)[1..] == Map(s[1..], p);
    }
  }

  lemma FilterIsSubsequence<T>(s: seq<T>, p: T -> bool)
    ensures Subsequence(Filter(s, p), s)
  {
    FilterIsSelection(s, p);
  }

  /** Filtering twice with the same predicate is filtering once. */
  lemma {:induction false} FilterIdempotent<T>(s: seq<T>, p: T -> bool)
    ensures Filter(Filter(s, p), p) == Filter(s, p)
    decreases |s|
  {
    if |s| > 0 {
      FilterIdempotent(s[1..], p);
    }
  }

  /** A predicate every element satisfies keeps the whole sequence. */
  lemma {:induction false} FilterKeepsAll<T>(s: seq<T>, p: T -> bool)
    requires forall i :: 0 <= i < |s| ==> p(s[i])
    ensures Filter(s, p) == s
    decreases |s|
  {
    if |s| > 0 {
      FilterKeepsAll(s[1..], p);
    }
  }

  /** Nothing passes a filter that rejects every element. */
  lemma FilterNone<T>(s: seq<T>, p: T -> bool)
    requires forall i :: 0 <= i < |s| ==> !p(s[i])
    ensures Filter(s, p) == []
  {
  }

  /** Filtering commutes with appending. */
  lemma {:induction false} FilterAppend<T>(a: seq<T>, b: seq<T>, p: T -> bool)
    ensures Filter(a + b, p) == Filter(a, p) + Filter(b, p)
    decreases |a|
  {
    if |a| > 0 {
      assert (a + b)[1..] == a[1..] + b;
      FilterAppend(a[1..], b, p);
    } else {
      assert a + b == b;
    }
  }

  /** Two filters may be applied in either order. */
  lemma {:induction false} FilterCommute<T>(s: seq<T>, p: T -> bool, q: T -> bool)
    ensures Filter(Filter(s, p), q) == Filter(Filter(s, q), p)
    decreases |s|
  {
    if |s| > 0 {
      FilterCommute(s[1..], p, q);
    }
  }

  /** The first element satisfying `p` (`SELECT ... WHERE p LIMIT 1`). */
  function First<T>(s: seq<T>, p: T -> bool): (r: Option<T>)
    ensures r.Some? ==> r.value in s && p(r.value)
    ensures r.None? <==> forall i :: 0 <= i < |s| ==> !p(s[i])
    decreases |s|
  {
    if |s| == 0 then None
    else if p(s[0]) then Some(s[0])
    else First(s[1..], p)
  }

  /** Appending rows never changes which row a search finds first, once it
      finds one (`LIMIT 1` over rows in insertion order). */
  lemma {:induction false} FirstAppend<T>(s: seq<T>, t: seq<T>, p: T -> bool)
    requires First(s, p).Some?
    ensures First(s + t, p) == First(s, p)
    decreases |s|
  {
    assert (s + t)[0] == s[0];
    if !p(s[0]) {
      assert (s + t)[1..] == s[1..] + t;
      FirstAppend(s[1..], t, p);
    }
  }

  /** A predicate and its negation split a sequence between them. */
  lemma {:induction false} FilterPartition<T>(s: seq<T>, p: T -> bool, q: T -> bool)
    requires forall x :: q(x) == !p(x)
    ensures |Filter(s, p)| + |Filter(s, q)| == |s|
    decreases |s|
  {
    if |s| > 0 {
      FilterPartition(s[1..], p, q);
    }
  }

  /** No two elements share a key (a primary key or a UNIQUE column). */
  ghost predicate DistinctBy<T, K>(s: seq<T>, key: T -> K) {
    forall i, j :: 0 <= i < j < |s| ==> key(s[i]) != key(s[j])
  }

  /** Deleting rows keeps a key unique. */
  lemma {:induction false} FilterKeepsDistinct<T, K>(s: seq<T>, p: T -> bool, key: T -> K)
    requires DistinctBy(s, key)
    ensures DistinctBy(Filter(s, p), key)
    decreases |s|
  {
    if |s| > 0 {
      var t := s[1..];
      assert DistinctBy(t, key) by {
        forall i, j | 0 <= i < j < |t|
          ensures key(t[i]) != key(t[j])
        {
          assert t[i] == s[i + 1] && t[j] == s[j + 1];
        }
      }
      FilterKeepsDistinct(t, p, key);
      if p(s[0]) {
        var r := Filter(s, p);
        var ft := Filter(t, p);
        assert r == [s[0]] + ft;
        forall i, j | 0 <= i < j < |r|
          ensures key(r[i]) != key(r[j])
        {
          if i == 0 {
            assert r[j] == ft[j - 1] && ft[j - 1] in t;
            var k :| 0 <= k < |t| && t[k] == ft[j - 1];
            assert t[k] == s[k + 1];
          } else {
            assert r[i] == ft[i - 1] && r[j] == ft[j - 1];
          }
        }
      }
    }
  }

  /** Deleting the one row that holds a unique key removes exactly one row. */
  lemma {:induction false} FilterOutUniqueKey<T, K>(s: seq<T>, p: T -> bool, key: T -> K, k: K, i: nat)
    requires DistinctBy(s, key) && i < |s| && key(s[i]) == k
    requires forall x :: p(x) <==> key(x) != k
    ensures |Filter(s, p)| == |s| - 1
    decreases |s|
  {
    var t := s[1..];
    if i == 0 {
      forall j | 0 <= j < |t|
        ensures p(t[j])
      {
        assert t[j] == s[j + 1];
      }
      FilterKeepsAll(t, p);
    } else {
      assert DistinctBy(t, key) by {
        forall a, b | 0 <= a < b < |t|
          ensures key(t[a]) != key(t[b])
        {
          assert t[a] == s[a + 1] && t[b] == s[b + 1];
        }
      }
      assert key(s[0]) != key(s[i]);
      assert t[i - 1] == s[i];
      FilterOutUniqueKey(t, p, key, k, i - 1);
    }
  }

  /** Rewriting rows without touching their key keeps the key unique. */
  lemma MapKeepsDistinct<T, K>(s: seq<T>, f: T -> T, key: T -> K)
    requires DistinctBy(s, key)
    requires forall x :: key(f(x)) == key(x)
    ensures DistinctBy(Map(s, f), key)
  {
  }

  /** Keys never increase from left to right. */
  ghost predicate SortedDesc<T>(s: seq<T>, key: T -> int) {
    forall i, j :: 0 <= i < j < |s| ==> key(s[i]) >= key(s[j])
  }

  /** Places `x` into the descending sequence `s` before the first element
      whose key does not exceed `key(x)`. */
  function Insert<T>(x: T, s: seq<T>, key: T -> int): (r: seq<T>)
    requires SortedDesc(s, key)
    ensures |r| == |s| + 1
    ensures multiset(r) == multiset(s) + multiset{x}
    ensures r[0] == x || (|s| > 0 && r[0] == s[0])
    ensures SortedDesc(r, key)
    decreases |s|
  {
    if |s| == 0 || key(s[0]) <= key(x) then [x] + s
    else
      assert s == [s[0]] + s[1..];
      var rest := Insert(x, s[1..], key);
      ConsSorted(s[0], rest, key);
      [s[0]] + rest
  }

  lemma ConsSorted<T>(h: T, s: seq<T>, key: T -> int)
    requires SortedDesc(s, key)
    requires |s| > 0 ==> key(s[0]) <= key(h)
    ensures SortedDesc([h] + s, key)
  {
    var r := [h] + s;
    forall i, j | 0 <= i < j < |r|
      ensures key(r[i]) >= key(r[j])
    {
      if i == 0 {
        assert r[j] == s[j - 1];
        if j > 1 {
          assert key(s[0]) >= key(s[j - 1]);
        }
      } else {
        assert r[i] == s[i - 1] && r[j] == s[j - 1];
      }
    }
  }

  /** Sequences with the same multiset have the same elements. */
  lemma SameElements<T>(a: seq<T>, b: seq<T>)
    requires multiset(a) == multiset(b)
    ensures forall x :: x in a <==> x in b
  {
    forall x
      ensures x in a <==> x in b
    {
      assert x in a <==> x in multiset(a);
      assert x in b <==> x in multiset(b);
    }
  }

  /** Insertion sort into descending key order (`ORDER BY key DESC`). */
  function SortDesc<T>(s: seq<T>, key: T -> int): (r: seq<T>)
    ensures |r| == |s|
    ensures multiset(r) == multiset(s)
    ensures SortedDesc(r, key)
    decreases |s|
  {
    if |s| == 0 then []
    else
      assert s == [s[0]] + s[1..];
      Insert(s[0], SortDesc(s[1..], key), key)
  }
}

=== FILE: text.dfy ===
/** String operations the client (JavaScript) and the backend (Python) rely on:
    truthiness, `trim`/`strip`, `toLowerCase`/`lower`, substring search,
    splitting and joining, and decimal rendering of integers. */
module Text {
  import opened Wrappers
  import Seqs

  /** JavaScript truthiness of a string (`if (s)`), and Python's `if s`. */
  predicate Truthy(s: string) {
    s != ""
  }

  /** `o || fallback` for an optional string: `None` and `""` both fall through. */
  function Or(o: Option<string>, fallback: string): string {
    if o.Some? && Truthy(o.value) then o.value else fallback
  }

  /** Characters removed by JavaScript's `String.prototype.trim`
      (WhiteSpace and LineTerminator of ECMAScript). */
  predicate JsSpace(c: char) {
    c == '\t' || c == '\n' || c == '\U{000B}' || c == '\U{000C}' || c == '\r' || c == ' '
    || c == '\U{00A0}' || c == '\U{1680}' || ('\U{2000}' <= c <= '\U{200A}')
    || c == '\U{2028}' || c == '\U{2029}' || c == '\U{202F}' || c == '\U{205F}'
    || c == '\U{3000}' || c == '\U{FEFF}'
  }

  /** Characters removed by Python's `str.strip()` (those for which `isspace()` holds). */
  predicate PySpace(c: char) {
    ('\t' <= c <= '\r') || ('\U{001C}' <= c <= '\U{001F}') || c == ' '
    || c == '\U{0085}' || c == '\U{00A0}' || c == '\U{1680}' || ('\U{2000}' <= c <= '\U{200A}')
    || c == '\U{2028}' || c == '\U{2029}' || c == '\U{202F}' || c == '\U{205F}'
    || c == '\U{3000}'
  }

  /** Drops the leading characters satisfying `space`. */
  function TrimStart(s: string, space: char -> bool): (r: string)
    ensures |r| <= |s| && r == s[|s| - |r|..]
    ensures forall i :: 0 <= i < |s| - |r| ==> space(s[i])
    ensures r == "" || !space(r[0])
    decreases |s|
  {
    if |s| > 0 && space(s[0]) then TrimStart(s[1..], space) else s
  }

  /** Drops the trailing characters satisfying `space`. */
  function TrimEnd(s: string, space: char -> bool): (r: string)
    ensures |r| <= |s| && r == s[..|r|]
    ensures forall i :: |r| <= i < |s| ==> space(s[i])
    ensures r == "" || !space(r[|r| - 1])
    decreases |s|
  {
    if |s| > 0 && space(s[|s| - 1]) then TrimEnd(s[..|s| - 1], space) else s
  }

  /** `s.trim()` (with `JsSpace`) and `s.strip()` (with `PySpace`). */
  function Trim(s: string, space: char -> bool): string {
    TrimEnd(TrimStart(s, space), space)
  }

  predicate AllSpace(s: string, space: char -> bool) {
    forall i :: 0 <= i < |s| ==> space(s[i])
  }

  /** A string trims to the empty string exactly when it is all white space. */
  lemma TrimEmptyIff(s: string, space: char -> bool)
    ensures Trim(s, space) == "" <==> AllSpace(s, space)
  {
    var t := TrimStart(s, space);
    if AllSpace(s, space) {
      AllSpaceTrimStart(s, space);
    }
    if Trim(s, space) == "" {
      assert t == "";
    }
  }

  lemma {:induction false} AllSpaceTrimStart(s: string, space: char -> bool)
    requires AllSpace(s, space)
    ensures TrimStart(s, space) == ""
    decreases |s|
  {
    if |s| > 0 {
      AllSpaceTrimStart(s[1..], space);
    }
  }

  /** A string with a non-space first character is not blank. */
  lemma NotBlankWhenFirstNonSpace(s: string, space: char -> bool)
    requires |s| > 0 && !space(s[0])
    ensures Trim(s, space) != ""
  {
    TrimEmptyIff(s, space);
  }

  /** ASCII case folding: `toLowerCase()` / `lower()` restricted to A-Z. */
  function LowerChar(c: char): char {
    if 'A' <= c <= 'Z' then (c as int + 32) as char else c
  }

  function Lower(s: string): (r: string)
    ensures |r| == |s|
    ensures forall i :: 0 <= i < |s| ==> r[i] == LowerChar(s[i])
  {
    Seqs.Map(s, LowerChar)
  }

  /** `pat` occurs in `s` starting at index `i`. */
  predicate MatchAt(s: string, pat: string, i: nat) {
    i + |pat| <= |s| && s[i..i + |pat|] == pat
  }

  /** The first index at or after `from` where `pat` occurs (`s.indexOf(pat, from)`). */
  function IndexFrom(s: string, pat: string, from: nat): (r: Option<nat>)
    ensures r.Some? ==> from <= r.value && MatchAt(s, pat, r.value)
    ensures r.Some? ==> forall k :: from <= k < r.value ==> !MatchAt(s, pat, k)
    ensures r.None? ==> forall k :: from <= k ==> !MatchAt(s, pat, k)
    decreases |s| - from
  {
    if from + |pat| > |s| then None
    else if MatchAt(s, pat, from) then Some(from)
    else IndexFrom(s, pat, from + 1)
  }

  /** `s.includes(pat)` / Python's `pat in s`. */
  predicate Contains(s: string, pat: string) {
    IndexFrom(s, pat, 0).Some?
  }

  lemma ContainsIff(s: string, pat: string)
    ensures Contains(s, pat) <==> exists k: nat :: MatchAt(s, pat, k)
  {
    if !Contains(s, pat) {
      assert forall k: nat :: !MatchAt(s, pat, k);
    }
  }

  /** `pat` occurs in any string that has it as an infix. */
  lemma ContainsInfix(a: string, pat: string, b: string)
    ensures Contains(a + pat + b, pat)
  {
    var s := a + pat + b;
    assert s[|a|..|a| + |pat|] == pat;
    assert MatchAt(s, pat, |a|);
    ContainsIff(s, pat);
  }

  /** A one-character pattern occurs exactly when the character does. */
  lemma ContainsChar(s: string, c: char)
    ensures Contains(s, [c]) <==> c in s
  {
    ContainsIff(s, [c]);
    if c in s {
      var k :| 0 <= k < |s| && s[k] == c;
      assert MatchAt(s, [c], k);
    }
    if Contains(s, [c]) {
      var k: nat :| MatchAt(s, [c], k);
      assert s[k] == s[k..k + 1][0];
    }
  }

  /** The text after the last occurrence of `c`, or all of `s` when `c` does not
      occur: `s.split(c).pop()` and Python's `s.rsplit(c, 1)[-1]`. */
  function AfterLast(s: string, c: char): (r: string)
    ensures |r| <= |s| && r == s[|s| - |r|..]
    ensures c !in r
    ensures |r| < |s| ==> s[|s| - |r| - 1] == c
    decreases |s|
  {
    if |s| == 0 then ""
    else if s[|s| - 1] == c then ""
    else
      var p := s[..|s| - 1];
      var t := AfterLast(p, c);
      assert s[|s| - |t| - 1..] == p[|p| - |t|..] + [s[|s| - 1]];
      t + [s[|s| - 1]]
  }

  /** Without the separator, the last segment is the whole string. */
  lemma {:induction false} AfterLastAbsent(s: string, c: char)
    requires c !in s
    ensures AfterLast(s, c) == s
    decreases |s|
  {
    if |s| > 0 {
      assert s[|s| - 1] in s;
      AfterLastAbsent(s[..|s| - 1], c);
    }
  }

  /** With the separator present, the last segment is a proper suffix. */
  lemma AfterLastShorter(s: string, c: char)
    requires c in s
    ensures |AfterLast(s, c)| < |s|
  {
  }

  /** The segment after the last separator of `a + [c] + b` is the last segment of `b`. */
  lemma {:induction false} AfterLastAppend(a: string, c: char, b: string)
    ensures AfterLast(a + [c] + b, c) == AfterLast(b, c)
    decreases |b|
  {
    var s := a + [c] + b;
    if |b| == 0 {
      assert s[|s| - 1] == c;
    } else {
      var last := b[|b| - 1];
      assert s[|s| - 1] == last;
      if last != c {
        assert s[..|s| - 1] == a + [c] + b[..|b| - 1];
        AfterLastAppend(a, c, b[..|b| - 1]);
        assert AfterLast(s, c) == AfterLast(s[..|s| - 1], c) + [last];
        assert AfterLast(b, c) == AfterLast(b[..|b| - 1], c) + [last];
      }
    }
  }

  /** `pat` occurs at `i` and nowhere before it. */
  predicate FirstMatchAt(s: string, pat: string, i: nat) {
    MatchAt(s, pat, i) && forall k :: 0 <= k < i ==> !MatchAt(s, pat, k)
  }

  /** `piece` is the text of `s` from index `from` up to the next occurrence
      of `sep` at or after `from`, or up to the end when there is none. */
  predicate RunTo(s: string, sep: string, from: nat, piece: string) {
    from + |piece| <= |s| && s[from..from + |piece|] == piece
    && (forall k :: from <= k < from + |piece| ==> !MatchAt(s, sep, k))
    && (from + |piece| == |s| || MatchAt(s, sep, from + |piece|))
  }

  /** A match in a suffix is a match in the whole string, shifted. */
  lemma MatchShift(s: string, pat: string, d: nat, j: nat)
    requires d <= |s|
    ensures MatchAt(s[d..], pat, j) <==> MatchAt(s, pat, d + j)
  {
    if d + j + |pat| <= |s| {
      assert s[d..][j..j + |pat|] == s[d + j..d + j + |pat|];
    }
  }

  /** The first search in the suffix from `from` finds the run up to the
      next separator. */
  lemma RunOfSuffix(s: string, sep: string, from: nat)
    requires from <= |s|
    ensures IndexFrom(s[from..], sep, 0).None? ==> RunTo(s, sep, from, s[from..])
    ensures IndexFrom(s[from..], sep, 0).Some? ==> RunTo(s, sep, from, s[from..][..IndexFrom(s[from..], sep, 0).value])
  {
    var rest := s[from..];
    var end := match IndexFrom(rest, sep, 0) case None => |rest| case Some(j) => j;
    forall k | from <= k < from + end
      ensures !MatchAt(s, sep, k)
    {
      MatchShift(s, sep, from, k - from);
    }
    if end < |rest| {
      MatchShift(s, sep, from, end);
    }
    assert s[from..from + end] == rest[..end];
  }

  /** The piece after the first `sep` and before the next one: JavaScript's
      `s.split(sep)[1]`, or `None` (`undefined`) when `sep` does not occur. */
  function SecondPiece(s: string, sep: string): (r: Option<string>)
    requires |sep| > 0
    ensures r.None? <==> !Contains(s, sep)
    ensures r.Some? ==> exists i: nat :: FirstMatchAt(s, sep, i) && RunTo(s, sep, i + |sep|, r.value)
  {
    match IndexFrom(s, sep, 0)
    case None => None
    case Some(i) =>
      var rest := s[i + |sep|..];
      RunOfSuffix(s, sep, i + |sep|);
      assert FirstMatchAt(s, sep, i);
      match IndexFrom(rest, sep, 0)
      case None => Some(rest)
      case Some(j) => Some(rest[..j])
  }

  /** A pattern whose first character is absent from `pre` first occurs right after `pre`. */
  lemma FirstOccurrence(pre: string, pat: string, rest: string)
    requires |pat| > 0 && pat[0] !in pre
    ensures IndexFrom(pre + pat + rest, pat, 0) == Some(|pre|)
  {
    var s := pre + pat + rest;
    assert s[|pre|..|pre| + |pat|] == pat;
    assert MatchAt(s, pat, |pre|);
    forall k | 0 <= k < |pre|
      ensures !MatchAt(s, pat, k)
    {
      assert s[k] == pre[k] && pre[k] in pre;
      if k + |pat| <= |s| {
        assert s[k..k + |pat|][0] == s[k];
      }
    }
  }

  /** The second piece of `pre + sep + rest` is `rest` when `sep` occurs only once. */
  lemma SecondPieceOf(pre: string, sep: string, rest: string)
    requires |sep| > 0 && sep[0] !in pre
    requires !Contains(rest, sep)
    ensures SecondPiece(pre + sep + rest, sep) == Some(rest)
  {
    var s := pre + sep + rest;
    FirstOccurrence(pre, sep, rest);
    assert s[|pre| + |sep|..] == rest;
  }

  /** A pattern containing a character absent from `s` does not occur in `s`. */
  lemma AbsentCharNoMatch(s: string, pat: string, j: nat)
    requires j < |pat| && pat[j] !in s
    ensures !Contains(s, pat)
  {
    forall k: nat
      ensures !MatchAt(s, pat, k)
    {
      if k + |pat| <= |s| {
        assert s[k..k + |pat|][j] == s[k + j];
        assert s[k + j] in s;
      }
    }
  }

  /** `s` with every character from `bad` deleted (`s.replace(/[...]/g, '')`). */
  function RemoveChars(s: string, bad: set<char>): (r: string)
    ensures forall i :: 0 <= i < |r| ==> r[i] !in bad
    ensures forall i :: 0 <= i < |s| && s[i] !in bad ==> s[i] in r
    ensures Seqs.Subsequence(r, s)
  {
    Seqs.FilterIsSubsequence(s, Outside(bad));
    Seqs.Filter(s, Outside(bad))
  }

  function Outside(bad: set<char>): char -> bool {
    c => c !in bad
  }

  /** Removing characters that do not occur changes nothing. */
  lemma RemoveAbsentChars(s: string, bad: set<char>)
    requires forall i :: 0 <= i < |s| ==> s[i] !in bad
    ensures RemoveChars(s, bad) == s
  {
    Seqs.FilterKeepsAll(s, Outside(bad));
  }

  /** `sep.join(parts)` for a one-character separator. */
  function Join(parts: seq<string>, sep: char): string
    decreases |parts|
  {
    if |parts| == 0 then ""
    else if |parts| == 1 then parts[0]
    else parts[0] + [sep] + Join(parts[1..], sep)
  }

  /** `s.split(sep)`: always at least one piece, none containing `sep`. */
  function Split(s: string, sep: char): (r: seq<string>)
    ensures |r| >= 1
    ensures forall i :: 0 <= i < |r| ==> sep !in r[i]
    decreases |s|
  {
    match IndexFrom(s, [sep], 0)
    case None =>
      ContainsChar(s, sep);
      [s]
    case Some(i) =>
      assert s[..i] == s[..i];
      NoCharBefore(s, sep, i);
      [s[..i]] + Split(s[i + 1..], sep)
  }

  /** Before its first match, a one-character pattern's character is absent. */
  lemma NoCharBefore(s: string, c: char, i: nat)
    requires i <= |s|
    requires forall k :: 0 <= k < i ==> !MatchAt(s, [c], k)
    ensures c !in s[..i]
  {
    forall k | 0 <= k < i
      ensures s[k] != c
    {
      assert !MatchAt(s, [c], k);
      assert s[k..k + 1] == [s[k]];
    }
  }

  /** The first separator of `p + [sep] + tail` is the one after `p`. */
  lemma FirstSeparator(p: string, sep: char, tail: string)
    requires sep !in p
    ensures IndexFrom(p + [sep] + tail, [sep], 0) == Some(|p|)
  {
    var s := p + [sep] + tail;
    assert s[|p|..|p| + 1] == [sep];
    assert MatchAt(s, [sep], |p|);
    forall k | 0 <= k < |p|
      ensures !MatchAt(s, [sep], k)
    {
      assert s[k..k + 1] == [p[k]];
      assert p[k] in p;
    }
  }

  /** Splitting a join recovers the parts when no part contains the separator. */
  lemma {:induction false} SplitJoin(parts: seq<string>, sep: char)
    requires |parts| >= 1
    requires forall i :: 0 <= i < |parts| ==> sep !in parts[i]
    ensures Split(Join(parts, sep), sep) == parts
    decreases |parts|
  {
    var s := Join(parts, sep);
    if |parts| == 1 {
      ContainsChar(s, sep);
    } else {
      var p := parts[0];
      var tail := Join(parts[1..], sep);
      assert s == p + [sep] + tail;
      FirstSeparator(p, sep, tail);
      assert s[..|p|] == p;
      assert s[|p| + 1..] == tail;
      SplitJoin(parts[1..], sep);
      assert Split(s, sep) == [p] + Split(tail, sep);
    }
  }

  predicate IsDigit(c: char) {
    '0' <= c <= '9'
  }

  /** A parsed run of digits holds no character that is not a digit. */
  lemma DigitsExclude(s: string, c: char)
    requires ParseNat(s).Some? && !IsDigit(c)
    ensures c !in s
  {
    forall i | 0 <= i < |s|
      ensures s[i] != c
    {
      assert IsDigit(s[i]);
    }
  }

  function DigitChar(d: nat): (c: char)
    requires d < 10
    ensures IsDigit(c)
  {
    ('0' as int + d) as char
  }

  /** Decimal rendering of a natural number: `String(n)` / Python's `str(n)`. */
  function NatToString(n: nat): (r: string)
    ensures |r| >= 1
    ensures forall i :: 0 <= i < |r| ==> IsDigit(r[i])
    decreases n
  {
    if n < 10 then [DigitChar(n)] else NatToString(n / 10) + [DigitChar(n % 10)]
  }

  /** The value of a string of decimal digits. */
  function DigitsValue(s: string): nat
    requires forall i :: 0 <= i < |s| ==> IsDigit(s[i])
    decreases |s|
  {
    if |s| == 0 then 0
    else
      assert IsDigit(s[|s| - 1]);
      DigitsValue(s[..|s| - 1]) * 10 + (s[|s| - 1] as int - '0' as int)
  }

  /** Reads a non-empty run of decimal digits (`int(s)` on canonical input). */
  function ParseNat(s: string): Option<nat> {
    if |s| > 0 && forall i :: 0 <= i < |s| ==> IsDigit(s[i]) then Some(DigitsValue(s)) else None
  }

  /** Reading back a rendered number gives the number. */
  lemma {:induction false} ParseNatToString(n: nat)
    ensures ParseNat(NatToString(n)) == Some(n)
    decreases n
  {
    var r := NatToString(n);
    if n >= 10 {
      ParseNatToString(n / 10);
      assert r[..|r| - 1] == NatToString(n / 10);
      assert DigitsValue(r) == (n / 10) * 10 + n % 10;
    } else {
      assert r[..0] == "";
      assert DigitsValue(r) == n;
    }
  }

  /** `String(k).padStart(2, '0')` for `k < 100`. */
  function Pad2(k: nat): (r: string)
    requires k < 100
    ensures |r| == 2
    ensures ParseNat(r) == Some(k)
  {
    if k < 10 then
      var r := "0" + [DigitChar(k)];
      assert r[..1] == "0" && "0"[..0] == "";
      assert DigitsValue(r) == k;
      r
    else
      ParseNatToString(k);
      NatToString(k)
  }
}

=== FILE: uploader.dfy ===
/** The input component of `src/components/VideoUploader.tsx`: two tabs
    (file upload and YouTube URL), a remembered file, a URL field and a
    drag-highlight flag. Inputs of the inactive tab are kept but never sent. */
module Uploader {
  import opened Wrappers
  import Api

  datatype Tab = UploadTab | YouTubeTab

  datatype State = State(tab: Tab, file: Option<Api.File>, youtubeUrl: string, dragging: bool)

  const Initial := State(UploadTab, None, "", false)

  /** The form built by `handleSubmit`, or `None` when the active tab has no input. */
  function Payload(s: State): (r: Option<Api.FormData>)
    ensures r.Some? ==> |r.value| == 2 && r.value[1].0 == "source_type"
    ensures r.Some? && s.tab == UploadTab ==>
              s.file.Some? && r.value == [("video", Api.FileValue(s.file.value)), ("source_type", Api.TextValue("upload"))]
    ensures r.Some? && s.tab == YouTubeTab ==>
              s.youtubeUrl != "" && r.value == [("youtube_url", Api.TextValue(s.youtubeUrl)), ("source_type", Api.TextValue("youtube"))]
  {
    if s.tab == UploadTab && s.file.Some? then
      Some([("video", Api.FileValue(s.file.value)), ("source_type", Api.TextValue("upload"))])
    else if s.tab == YouTubeTab && s.youtubeUrl != "" then
      Some([("youtube_url", Api.TextValue(s.youtubeUrl)), ("source_type", Api.TextValue("youtube"))])
    else None
  }

  /** The submit button's `disabled` expression. While nothing is processing
      the button is enabled exactly when a submit would produce a form; while
      processing it is always disabled. */
  function SubmitDisabled(s: State, isProcessing: bool): (d: bool)
    ensures !isProcessing ==> (d <==> Payload(s).None?)
    ensures isProcessing ==> d
  {
    isProcessing || (s.tab == UploadTab && s.file.None?) || (s.tab == YouTubeTab && s.youtubeUrl == "")
  }

  /** `handleFileChange` and the file part of `handleDrop`: the first chosen
      file replaces the remembered one; an empty choice keeps it. */
  function ChooseFiles(s: State, files: seq<Api.File>): (r: State)
    ensures |files| > 0 ==> r.file == Some(files[0])
    ensures |files| == 0 ==> r.file == s.file
    ensures r.tab == s.tab && r.youtubeUrl == s.youtubeUrl && r.dragging == s.dragging
    ensures s.tab == YouTubeTab ==> Payload(r) == Payload(s)
  {
    if |files| > 0 then s.(file := Some(files[0])) else s
  }

  function SelectTab(s: State, t: Tab): State {
    s.(tab := t)
  }

  /** Editing the URL never changes what the upload tab sends. */
  function EditUrl(s: State, url: string): (r: State)
    ensures r.tab == s.tab && r.file == s.file && r.youtubeUrl == url
    ensures s.tab == UploadTab ==> Payload(r) == Payload(s)
  {
    s.(youtubeUrl := url)
  }

  /** The drag events: entering and hovering highlight the zone, leaving
      clears it, and a drop clears it and takes the first dropped file. */
  datatype DragEvent = DragEnter | DragOver | DragLeave | Drop(files: seq<Api.File>)

  function OnDrag(s: State, e: DragEvent): (r: State)
    ensures r.dragging <==> (e.DragEnter? || e.DragOver?)
    ensures r.tab == s.tab && r.youtubeUrl == s.youtubeUrl
    ensures !e.Drop? ==> r.file == s.file
    ensures e.Drop? ==> r.file == ChooseFiles(s, e.files).file
  {
    match e
    case DragEnter => s.(dragging := true)
    case DragOver => s.(dragging := true)
    case DragLeave => s.(dragging := false)
    case Drop(files) => ChooseFiles(s, files).(dragging := false)
  }

  /** What is sent depends only on the active tab and its own input: the
      other tab's input, kept across tab switches, is never sent. */
  lemma PayloadReadsActiveInputOnly(s: State, s': State)
    requires s.tab == s'.tab
    requires s.tab == UploadTab ==> s.file == s'.file
    requires s.tab == YouTubeTab ==> s.youtubeUrl == s'.youtubeUrl
    ensures Payload(s) == Payload(s')
  {
  }

  /** Switching tabs and back restores what would be sent. */
  lemma TabRoundTripKeepsPayload(s: State, t: Tab)
    ensures Payload(SelectTab(SelectTab(s, t), s.tab)) == Payload(s)
  {
  }
}

=== FILE: video_player.dfy ===
/** The player of `src/components/VideoPlayer.tsx`: a YouTube embed for
    YouTube sources and a plain video element otherwise. The `v` query
    parameter of a watch URL (read with `URL`/`URLSearchParams`) is a
    parameter of the model. */
module VideoPlayer {
  import opened Wrappers
  import Text

  const EmbedPrefix := "https://www.youtube.com/embed/"

  /** `isYouTubeURL`: the flag, or a URL naming either YouTube host. */
  predicate IsYouTubeUrl(url: string, isYoutube: bool) {
    isYoutube || Text.Contains(url, "youtube.com") || Text.Contains(url, "youtu.be")
  }

  /** The video id: the `v` parameter of a watch URL, the last path segment
      of a short link, or the source itself taken as a bare id. */
  function VideoId(url: string, vParam: Option<string>): (id: string)
    ensures Text.Contains(url, "youtube.com/watch") ==> id == Text.Or(vParam, "")
    ensures !Text.Contains(url, "youtube.com/watch") && Text.Contains(url, "youtu.be") ==>
              '/' !in id && |id| <= |url| && id == url[|url| - |id|..]
              && ('/' !in url ==> id == url)
              && ('/' in url ==> |id| < |url| && url[|url| - |id| - 1] == '/')
    ensures !Text.Contains(url, "youtube.com/watch") && !Text.Contains(url, "youtu.be") ==> id == url
  {
    if Text.Contains(url, "youtube.com/watch") then Text.Or(vParam, "")
    else if Text.Contains(url, "youtu.be") then
      if '/' in url then Text.AfterLastShorter(url, '/'); Text.AfterLast(url, '/')
      else Text.AfterLastAbsent(url, '/'); Text.AfterLast(url, '/')
    else url
  }

  /** `getYouTubeEmbedUrl`: always an address on the embed path. */
  function EmbedUrl(url: string, vParam: Option<string>): (r: string)
    ensures |EmbedPrefix| <= |r| && r[..|EmbedPrefix|] == EmbedPrefix
  {
    EmbedPrefix + VideoId(url, vParam)
  }

  /** What the player renders: an embed frame, or a video element on the source. */
  datatype Rendered = Embed(src: string) | Video(src: string)

  function Render(src: string, isYoutube: bool, vParam: Option<string>): (r: Rendered)
    ensures r.Embed? <==> IsYouTubeUrl(src, isYoutube)
    ensures r.Video? ==> r.src == src
  {
    if IsYouTubeUrl(src, isYoutube) then Embed(EmbedUrl(src, vParam)) else Video(src)
  }

  /** A pattern found in `a` is found in any extension of `a`. */
  lemma ContainsExtend(a: string, b: string, pat: string)
    requires Text.Contains(a, pat)
    ensures Text.Contains(a + b, pat)
  {
    Text.ContainsIff(a, pat);
    var k: nat :| Text.MatchAt(a, pat, k);
    assert (a + b)[k..k + |pat|] == a[k..k + |pat|];
    assert Text.MatchAt(a + b, pat, k);
    Text.ContainsIff(a + b, pat);
  }

  /** A short link yields the segment after its last slash. */
  lemma ShortLinkId(host: string, id: string, vParam: Option<string>)
    requires Text.Contains(host, "youtu.be") && '/' !in id
    requires !Text.Contains(host + "/" + id, "youtube.com/watch")
    ensures VideoId(host + "/" + id, vParam) == id
  {
    var url := host + "/" + id;
    assert url == host + (['/'] + id);
    ContainsExtend(host, ['/'] + id, "youtu.be");
    assert url == host + ['/'] + id;
    Text.AfterLastAppend(host, '/', id);
    Text.AfterLastAbsent(id, '/');
    assert Text.AfterLast(url, '/') == id;
  }
}

=== FILE: wrappers.dfy ===
/** Option and Result values shared by the client and the backend models.
    JavaScript's `null`/`undefined` and Python's `None` both become `None`. */
module Wrappers {

  datatype Option<+T> = None | Some(value: T) {

    /** The value, or `default` when absent (`x ?? default`). */
    function GetOr(default: T): T {
      match this
      case Some(v) => v
      case None => default
    }
  }

  /** Outcome of an awaited call: a value, or a thrown error carrying its message. */
  datatype Result<+T> = Ok(value: T) | Err(message: string)
}
